=== FILE: README.md ===
# gvoiceParser in Dafny

This project models the core of gvoiceParser. That program reads the HTML
pages of a Google Voice takeout export and turns each page into one of three
things:
- a text conversation, a list of text records;
- a call record;
- an audio record (a voicemail or a recording).

The command-line tool `gvproc.py` then does three things:
- it flattens the parsed pages into one list of records;
- it reconciles contact names and phone numbers, using frequency voting
  and an optional contacts CSV;
- it derives the rows it inserts into the `texts`, `audio`, `calls` and
  `contacts` tables and writes to a contacts CSV.

Two parsers are modelled: the current one (`gvParserLib.py`) and the older
one (`src/gvoiceParser/gvoiceParser.py`).

The HTML tree is abstract. Each located element is a datatype that holds
what the code reads from it: the text of a child, an attribute, the list
of tag links. ElementTree truthiness is an explicit `hasChildren` flag,
because a childless element is false. A Python exception is a
`Failure(PyError)` value.

Modules, in dependency order:

| module | file | models |
|---|---|---|
| `Wrappers` | wrappers.dfy | `Option`, `Result`, and the Python exceptions the code can raise |
| `Strings` | strings.dfy | ASCII `\d`/`\w` classes, `int()` on decimal and hex digits, slicing, Python string order |
| `Contacts` | contacts.dfy | `Contact`: identity by number, truthiness, `get_node`/`from_node` |
| `ParseTools` | parsetools.dfy | `parse_time` (both revisions), `unescape`, `get_label`, `as_xhtml` (shared by both parsers) |
| `Records` | records.dfy | call, audio and text records, their truthiness, the call/audio locators and extractors |
| `Conversations` | conversations.dfy | `TextConversationList.from_node`: filtering, owner relabelling, parties, receivers |
| `Dispatch` | dispatch.dfy | `Parser.process_tree` of the current parser |
| `Legacy` | legacy.dfy | the older parser: `Contact.test`, `fromNode` of each class, `process_tree` |
| `Export` | export.dfy | `ExplodeTextRecords`, `WriteRecordsToSQL` rows, `WriteContactRecords`/`ContactsToDB` rows |
| `Reconcile` | reconcile.dfy | `FixContactNumbers` and the dictionary building of `ReadContactsFile` |
| `Pipeline` | pipeline.dfy | the main flow: every record the parsers yield is ready for an idempotent back-fill |

The code does a few things a reader might not expect. In each case the
model follows the code.
- **Voting uses global frequencies.** When two candidates compete for a
  name or a number, they are compared by how often they occur over all
  records (two `collections.Counter`s). They are not compared by how often
  they co-occur with that key. The first candidate stays on a tie.
- **The CSV merge keeps the least frequent number.** It sorts a CSV
  name's numbers by ascending frequency and takes the first. A name new
  to the tables therefore gets its least frequent number.
- **`as_xhtml` is not idempotent.** The namespace it inserts,
  `http://www.w3.org/1999/xhtml`, itself contains `/w`, `/1` and `/x`. A
  second application rewrites those.
- **Back-fill idempotence rests on the CSV check.** A second pass changes
  nothing for a named contact, an extracted contact or the owner, whatever
  the tables hold. The one-way party of the title `"Me to"` has the empty
  name. The first pass gives it the number of the empty CSV name, and the
  second looks that number up again. The two agree because
  `ReadContactsFile` rejects a number listed twice. A contact with the
  empty number and no name would not be stable, but no parser produces
  one.
- **The older parser drops a letter of a one-way name.** It slices a
  one-way title after `"Me to "` from position 7, so the first letter of
  the name is lost. The current parser slices after `"Me to"` from
  position 6, which keeps the whole name.
- **The older parser relies on optional content.** It reads a
  recording's duration and description text without checking that they
  are present. When either is missing, it fails.

## Model

| member | source | states |
|---|---|---|
| Strings.ParseDecimal | gvParserLib.py:344 | `int()` of a string succeeds exactly on a non-empty all-digit string |
| Strings.ParseHex | gvParserLib.py:342 | `int(s, 16)` succeeds exactly on a non-empty string of hex digits or on `0x`/`0X` followed by one or more hex digits, and then yields the hexadecimal value of the digits; it fails on everything else, the empty string included |
| Strings.StrLessIrreflexive | gvproc.py:160-161 | Python string order is irreflexive |
| Strings.StrLessTransitive | gvproc.py:160-161 | Python string order is transitive |
| Strings.StrLessTotal | gvproc.py:160-161 | two different strings are always ordered one way or the other |
| Contacts.Me | gvParserLib.py:296-297 | the owner's contact is one of the owner's own numbers (the first), is truthy, and is equal (`__eq__`) to exactly the contacts with that number |
| Contacts.DigitRun | gvParserLib.py:50 | `re.search('\d+')` finds nothing exactly when there is no digit; otherwise it finds the leftmost maximal run of digits |
| Contacts.PhoneOf | gvParserLib.py:50-52 | the phone number is the leftmost maximal digit run of the href: it starts at the first digit and ends before a non-digit or the end; there is none exactly when the href has no digit |
| Contacts.FromTel | gvParserLib.py:44-54 | the name is absent exactly when the `fn` text is missing or empty, and otherwise is that text; the number is `PhoneOf(href)` |
| Contacts.Locate | gvParserLib.py:30-37 | the sender link is used when it is present and truthy; otherwise the contributor link is used |
| Contacts.FromLookup | gvParserLib.py:40-54 | it fails with AttributeError exactly when no link is found; otherwise the contact is read from the link |
| Contacts.FromTelNormalised | gvParserLib.py:21-23 | a parsed contact never has an empty name, so it is truthy exactly when it is not `Contact()` |
| ParseTools.FindTimeMatch | gvParserLib.py:365 | it finds the leftmost position where `(\d\d+):(\d\d):(\d\d)` matches, and finds none exactly when no position matches |
| ParseTools.ParseSeconds | src/gvoiceParser/gvoiceParser.py:190-197 | the older `parse_time` fails, and then with AttributeError, exactly when the duration text has no `(\d\d+):(\d\d):(\d\d)` match; its sum of plain integers has no upper bound |
| ParseTools.ParseTime | gvParserLib.py:363-370 | the current `parse_time` raises AttributeError exactly when there is no match, and OverflowError exactly when the matched span is 10^9 days or more, the most a `timedelta` holds; otherwise it returns the older parser's value, which is then below that bound |
| ParseTools.ParseTimeValue | gvParserLib.py:365-370 | the older parser yields hours*3600 + minutes*60 + seconds of the leftmost match, the hour group taking the whole digit run there; the current parser yields the same, or OverflowError from 10^9 days on |
| ParseTools.MatchSecondsOf | gvParserLib.py:366-370 | a match counts hours·3600 + minutes·60 + seconds of its three groups |
| ParseTools.ParseTimeOfFields | gvParserLib.py:363-370 | any text `pre + h:mm:ss + post` with no digit in `pre` and at least two hour digits parses to exactly that number of seconds, whatever follows; the current parser raises OverflowError instead when that is 10^9 days or more |
| ParseTools.ParseTimeOverflowExample | gvParserLib.py:366-370 | "24000000000:00:00" is 10^9 days: the older parser returns its seconds and the current one raises OverflowError |
| ParseTools.ParseTimeAt | gvParserLib.py:365-370 | the same for fields found at a position of the text before which there is no digit, in both parsers |
| ParseTools.ParseTimeRejects | gvParserLib.py:365 | a one-digit hour or a text without digits has no match and fails in both parsers |
| ParseTools.EntityLen | gvParserLib.py:354 | a positive result is the length of a prefix of the form `&#?\w+;`, and 0 means there is no such prefix |
| ParseTools.EntityLenComplete | gvParserLib.py:354 | every `&#?\w+;` prefix is the one found: the result is its length |
| ParseTools.Fixup | gvParserLib.py:336-353 | a reference is replaced by one character or left as it is; it raises OverflowError for a numeric code above the C int range, and ValueError only for a named entity beyond the `unichr` limit, because the named branch catches only KeyError |
| ParseTools.Unescape | gvParserLib.py:334-354 | unescaping never lengthens the text; the only possible errors are OverflowError and ValueError from `unichr` (the older parser's copy at src/gvoiceParser/gvoiceParser.py:161-180 is identical) |
| ParseTools.UnescapeWithoutAmpersand | gvParserLib.py:354 | a text without `&` is returned unchanged |
| ParseTools.UnescapeWithoutHashNeverRaises | gvParserLib.py:347-353 | a text without `#` can hold only named references, which never raise when every entity is a code point `unichr` accepts, as in the real `name2codepoint` table |
| ParseTools.UnescapeOne | gvParserLib.py:336-354 | a text that is one whole reference is replaced by `fixup` of it |
| ParseTools.UnescapeDecimalRef | gvParserLib.py:343-344 | `&#digits;` becomes the character with that code; above the `unichr` limit it is kept (ValueError caught), and above the C int range it raises OverflowError |
| ParseTools.UnescapeHexRef | gvParserLib.py:341-342 | `&#xhex;` becomes the character with that hexadecimal code, with the same two limits |
| ParseTools.UnescapeNamedRef | gvParserLib.py:347-353 | `&name;` becomes the entity's character when the name is known, raises ValueError when that character is beyond the `unichr` limit, and is kept when the name is unknown |
| ParseTools.FixupNamedSucceeds | gvParserLib.py:347-353 | with every entity in range, `fixup` never raises on a named reference |
| ParseTools.UnescapeNamedExamples | gvParserLib.py:347-353 | `&amp;` becomes `&`; an unknown `&bogus;` stays |
| ParseTools.UnescapeDecimalExample | gvParserLib.py:343-344 | `&#65;` becomes `A` |
| ParseTools.UnescapeHexExample | gvParserLib.py:341-342 | `&#x41;` becomes `A` |
| ParseTools.UnescapeUpperXExample | gvParserLib.py:340-346 | `&#X41;` is read as a decimal reference, `int()` fails on "X41", and the text is kept as it is |
| ParseTools.UnescapeBadHexExample | gvParserLib.py:340-346 | `&#xZZ;` makes the hexadecimal `int()` fail, so the text is kept as it is |
| ParseTools.UnescapeRefThen | gvParserLib.py:354 | a leading reference is replaced and the scan goes on after it |
| ParseTools.ReplacementNotRescanned | gvParserLib.py:354 | a named reference replaced by `&` and followed by text without `&` yields `&` plus that text: the `&` produced is never the start of a new reference |
| ParseTools.UnescapeIsSinglePass | gvParserLib.py:354 | replacements are not rescanned: `&amp;lt;` becomes `&lt;`, not `<` |
| ParseTools.HashSegment | gvParserLib.py:380 | `rsplit("#")[1]` exists exactly when the href holds `#`; it is the text after the first `#`, up to the second `#` or the end |
| ParseTools.GetLabel | gvParserLib.py:376-383 | the label is one of the five valid tags or None; the only error is IndexError (the older parser's loop at src/gvoiceParser/gvoiceParser.py:204-211 is the same) |
| ParseTools.GetLabelFirstValid | gvParserLib.py:378-382 | the first valid tag is returned when every earlier href has a `#` and no valid tag |
| ParseTools.GetLabelNone | gvParserLib.py:380-383 | the result is None exactly when every href has a `#` and no valid tag |
| ParseTools.GetLabelRaises | gvParserLib.py:380 | an href without `#` before any valid tag raises IndexError |
| ParseTools.AsXhtml | gvParserLib.py:389-391 | it never shortens the path, and it leaves the path unchanged exactly when no `/` is followed by a word character (the older parser's copy at src/gvoiceParser/gvoiceParser.py:217-218 is identical) |
| ParseTools.AsXhtmlRoundTrip | gvParserLib.py:391 | removing the inserted namespace gives back any path without `{` |
| ParseTools.AsXhtmlNotIdempotent | gvParserLib.py:391 | applying it twice differs from applying it once |
| Records.TelephonyNode | gvParserLib.py:101-107 | the telephony container is found exactly when it is present and truthy |
| Records.CallAudioComplementary | gvParserLib.py:143-150 | a found container is a call or an audio record, never both; with no container there is neither |
| Records.TelephonyFields | gvParserLib.py:76-124 | it fails exactly when the contact lookup fails, the `abbr.published` element is missing (AttributeError) or has no `title` (KeyError), or a present duration text does not parse or overflows `timedelta`; a good contact and a bad date give the date's error; otherwise the contact is the looked-up contact, the date is the `published` title's date, and the duration is absent without its element and is otherwise the parsed duration |
| Records.CallFromNode | gvParserLib.py:153-164 | it fails exactly when the contact, the `published` date element, the duration or `get_label` fails; otherwise the call has that contact, the published date, that duration and the `get_label` value as its type, and it is truthy exactly when a valid label was found |
| Records.Transcript | gvParserLib.py:213-218 | the transcript is the non-empty full text of a truthy description, except the no-transcript notice |
| Records.AudioFromNode | gvParserLib.py:203-225 | it fails exactly when the contact, the `published` date element, the duration or `get_label` fails, a read transcription has no confidence spans, or `src` is missing; otherwise it has that contact, date, duration, `src` file name and transcript, the `get_label` value as its type, and is truthy exactly when it has a label |
| Records.CallFromDocument | gvParserLib.py:153-164 | a page without a call container yields no call; with one, the result is the call read from that container, or its error |
| Records.AudioFromDocument | gvParserLib.py:203-209 | a page without an audio container yields no recording; with one, the result is the recording read from that container, or its error |
| Records.TextFromNode | gvParserLib.py:243-249 | it fails exactly when the sender lookup fails, the `abbr.dt` element is missing (AttributeError) or has no `title` (KeyError), the quote is missing, or unescaping it fails; a good sender and a bad date give the date's error; otherwise the sender is the looked-up (normalised) contact, the text is the unescaped quote, the date is the `dt` title's date and the receiver is empty; a quote without `&` is kept verbatim |
| Conversations.Relabel | gvParserLib.py:296-297 | a sender with one of the owner's numbers becomes the owner's contact; any other message is unchanged |
| Conversations.KeptMessages | gvParserLib.py:287-300 | only non-notice messages with a truthy sender are kept, in order, and every kept owner message is relabelled |
| Conversations.KeptMessagesAppend | gvParserLib.py:287-300 | filtering works message by message, so the kept messages of a concatenation are the concatenation of the kept messages |
| Conversations.KeptMessagesSingle | gvParserLib.py:290-300 | one message is kept, relabelled, exactly when it passes the filter |
| Conversations.Representatives | gvParserLib.py:303 | `set(...)` keeps exactly one contact per phone number, the first one seen |
| Conversations.DistinctKeysCount | gvParserLib.py:303 | the number of unique contacts is the number of distinct phone numbers |
| Conversations.LastOther | gvParserLib.py:286-299 | `conv_with` is absent exactly when every kept sender is the owner; otherwise it is the sender of a kept non-owner message after which every kept message is the owner's, i.e. the last sender who is not the owner |
| Conversations.Parties | gvParserLib.py:303-313 | there are always at least two parties; more than two exactly when the senders have more than two numbers; two parties have different numbers |
| Conversations.PartiesDistinct | gvParserLib.py:310-312 | a lone non-owner sender gets the owner as the second party, and the two have different numbers |
| Conversations.PartiesOneWay | gvParserLib.py:305-308 | when only the owner wrote, there is at most one sender number, and it is present |
| Conversations.AssignReceivers | gvParserLib.py:322-325 | each message is given as receiver the party whose number differs from its sender's |
| Conversations.Assemble | gvParserLib.py:284-327 | multi-party threads keep the kept messages with an empty contact; otherwise the contact is `conv_with` and each receiver is the other party |
| Conversations.Addressed | gvParserLib.py:318-327 | in a thread of at most two numbers each kept message keeps its sender and text and gets as receiver the party of the other number; the conversation is with the last sender who is not the owner |
| Conversations.ReceiversOfTwo | gvParserLib.py:324-327 | between two parties of distinct numbers each message goes from one party to the other |
| Conversations.KeptMessagesAll | gvParserLib.py:290-300 | when every message passes the filter, each is kept in place, relabelled |
| Conversations.KeptSenderKey | gvParserLib.py:296-303 | the number of a kept sender who is not the owner is among the unique contacts |
| Conversations.FromPairOther | gvParserLib.py:298-299 | in a thread between the owner and b, `conv_with` is b |
| Conversations.TwoPartyExchange | gvParserLib.py:296-325 | between the owner and b, owner messages go to b, b's messages go to the owner, and the thread is with b |
| Conversations.MultiPartyThread | gvParserLib.py:313-317 | three senders with different numbers make a multi-party thread with no receivers and an empty contact |
| Conversations.ChatLog | gvParserLib.py:261-266 | the chat log is found exactly when it is present and truthy |
| Conversations.ParseMessages | gvParserLib.py:287-288 | every message node is parsed in order, the i-th record being the i-th node's; the batch fails exactly when one message fails |
| Conversations.ParseMessagesFirstFailure | gvParserLib.py:287-288 | when the batch fails, its error is that of a message that fails to parse while every earlier message parses |
| Conversations.ConversationFromDocument | gvParserLib.py:269-283 | no chat log or no messages yields nothing; otherwise the result is the error of the first message that fails to parse, every earlier one having parsed, or else the assembled conversation of the parsed messages |
| Dispatch.OneWayName | gvParserLib.py:413-414 | there is a one-way name exactly when the title starts with `Me to`, and it is the rest of the title after the following character |
| Dispatch.OneWayNameExample | gvParserLib.py:414 | "Me to Bob" gives "Bob"; "Bob" gives none |
| Dispatch.ProcessTree | gvParserLib.py:408-428 | a missing title fails; otherwise a non-empty conversation wins, then a truthy call, then a truthy recording, otherwise nothing; an error in the branch that runs escapes as the result; anything yielded is truthy; a single record is never a text |
| Dispatch.CallOrAudio | gvParserLib.py:420-425 | a page never yields both a call and a recording |
| Dispatch.AudioPage | gvParserLib.py:408-428 | a titled page with only a labelled audio container yields that recording |
| Legacy.TestVersusTruthy | src/gvoiceParser/gvoiceParser.py:19-20 | `test()` holds whenever the contact is truthy; the two agree on parsed contacts but not on a contact whose only field is an empty-string number |
| Legacy.Locate | src/gvoiceParser/gvoiceParser.py:28-30 | the sender link is used when it is present, even if it is empty; otherwise the contributor link |
| Legacy.LocateRevisions | src/gvoiceParser/gvoiceParser.py:28-30 | both parsers pick the same link, except when the sender link is present but childless |
| Legacy.FromLookup | src/gvoiceParser/gvoiceParser.py:24-41 | it fails with AttributeError exactly when there is no link; otherwise it reads a normalised contact from the link |
| Legacy.TextFromNode | src/gvoiceParser/gvoiceParser.py:53-59 | it fails exactly when the sender lookup fails, the `abbr.dt` element is missing (AttributeError) or has no `title` (KeyError), the quote is missing (TypeError) or unescaping fails; after a good sender a bad date gives the date's error, before the quote is looked at; otherwise it has the `dt` title's date, the looked-up sender and the unescaped quote |
| Legacy.ParseTexts | src/gvoiceParser/gvoiceParser.py:79-84 | every message is parsed in order, with no filtering; the batch fails exactly when one message fails |
| Legacy.ParseTextsFirstFailure | src/gvoiceParser/gvoiceParser.py:79-84 | when the batch fails, its error is that of a message `Text.fromNode` rejects while it accepts every earlier one |
| Legacy.FirstNamed | src/gvoiceParser/gvoiceParser.py:81-83 | the conversation contact is the first sender with a name, or none when no sender has a name |
| Legacy.ConversationFromNode | src/gvoiceParser/gvoiceParser.py:74-87 | no messages yields nothing; otherwise all texts are kept and the contact is the first named sender, else the one-way name |
| Legacy.CallFromNode | src/gvoiceParser/gvoiceParser.py:102-113 | it fails exactly when the contact, the `published` date element (AttributeError without it, KeyError without its `title`), a present duration or the label fails, and after a good contact a bad date gives the date's error; otherwise it has the looked-up contact, the published date, the duration in plain seconds when its element is present and none otherwise, and the label |
| Legacy.AudioFromNode | src/gvoiceParser/gvoiceParser.py:130-155 | it fails exactly when the contact fails, the mandatory duration is missing, unparsable or too long for `timedelta(0, duration)`, the `published` date element is missing or has no `title`, the transcript handling fails, or the `<audio>` element, its `src` or the label fails; a bad date is reported after a bad duration text and before the `timedelta` overflow; otherwise it has the looked-up contact, the duration, date + duration = published, the transcript, the file name and the label |
| Legacy.LegacyTranscript | src/gvoiceParser/gvoiceParser.py:139-150 | no description or an empty full text gives no text; a description without full text raises TypeError; a non-empty text with no confidence spans divides by zero; otherwise the text, except that the no-transcript notice gives none |
| Legacy.OneWayName | src/gvoiceParser/gvoiceParser.py:232-233 | there is a one-way name exactly when the title starts with `Me to `, and it is the title after position 7 |
| Legacy.OneWayNameDropsFirstCharacter | src/gvoiceParser/gvoiceParser.py:233 | the current parser's one-way name is the older parser's with the first letter put back |
| Legacy.OneWayNameExample | src/gvoiceParser/gvoiceParser.py:233 | "Me to Bob" gives "ob" |
| Legacy.ProcessTree | src/gvoiceParser/gvoiceParser.py:227-243 | a chat log decides the result on its own; without one, a container with no `<audio>` child yields its call and one with such a child yields its recording, each with its error when reading fails; no container fails |
| Legacy.EmptyChatLogHidesCall | src/gvoiceParser/gvoiceParser.py:229-235 | a page with an empty chat log yields nothing, even when it also holds a call |
| Reconcile.NumberCount | gvproc.py:64 | the frequency of a number is at most the record count, and it is zero exactly when no contact has that number |
| Reconcile.NameCount | gvproc.py:65 | the frequency of a name is at most the record count, and it is zero exactly when no contact has that name |
| Reconcile.Vote | gvproc.py:73-81 | one vote sets only its own key, either to the candidate or to the value the key already had |
| Reconcile.VoteMap | gvproc.py:68-92 | every entry of a voted table comes from some (key, candidate) pair |
| Reconcile.RunningMax | gvproc.py:73-79 | the winner is the first candidate of maximal frequency |
| Reconcile.FirstMaxUnique | gvproc.py:75 | there is only one first position of maximal frequency |
| Reconcile.VoteMapSpec | gvproc.py:68-92 | a key is in the table exactly when it had a candidate, and it holds the earliest candidate of highest frequency |
| Reconcile.NamePairs | gvproc.py:68-71 | only contacts with a non-empty name and a non-empty number are offered |
| Reconcile.NumberPairs | gvproc.py:68-71 | only contacts with a non-empty name and a non-empty number are offered |
| Reconcile.BuildTables | gvproc.py:58-92 | every table entry pairs a name and a number that some complete contact carries together |
| Reconcile.IncompleteContactIgnored | gvproc.py:69-71 | a contact without a name or without a number changes nothing in the vote |
| Reconcile.BuildTablesVoting | gvproc.py:63-92 | both tables hold exactly the complete names and numbers, each mapped to its voted partner |
| Reconcile.SharedNumber | gvproc.py:68-92 | the two tables need not be inverse: two names sharing a number both map to it, and the number maps back to only the first name |
| Reconcile.RegisterMe | gvproc.py:94 | the owner's name maps to the first owner number; nothing else changes |
| Reconcile.LeastFrequent | gvproc.py:110-111 | the picked number is the first of least frequency among the CSV numbers |
| Reconcile.MapAll | gvproc.py:106-107 | every CSV number maps to the CSV name; other numbers keep their names |
| Reconcile.MergeEntry | gvproc.py:105-117 | an empty number list fails with IndexError; otherwise numbers map to the name, and a new name gets its least frequent number |
| Reconcile.MergeCsv | gvproc.py:98-117 | the merge fails exactly when some name has no numbers; names already known keep their numbers |
| Reconcile.MergeCsvKeepsNumber | gvproc.py:98-117 | a number no CSV entry lists keeps its name |
| Reconcile.MergeCsvNumber | gvproc.py:106-107 | a CSV number ends up mapped to the name of the last entry that lists it |
| Reconcile.MergeCsvName | gvproc.py:110-115 | every CSV name has a number after the merge; a name new to the tables gets its least frequent number |
| Reconcile.MergeCsvSettled | gvproc.py:98-117 | when no number is listed under two CSV names, a CSV entry with the empty name leaves its chosen number mapped back to the empty name, and later entries keep it so |
| Reconcile.Fill | gvproc.py:120-123 | a contact with both fields is unchanged; otherwise a missing name is filled from the number, and failing that a missing number from the name |
| Reconcile.FillIdempotent | gvproc.py:119-129 | filling twice is filling once for every contact the parsers can produce; only a contact with the empty name needs a condition on the tables, namely that the empty name is settled |
| Reconcile.FillRecord | gvproc.py:119-129 | a record keeps its kind and date; its contact is filled, and so is a text's receiver |
| Reconcile.FillRecords | gvproc.py:119-129 | every record is filled in place |
| Reconcile.FillRecordsIdempotent | gvproc.py:119-129 | the back-fill pass over records whose contacts are ready is idempotent when the tables settle the empty name |
| Reconcile.RecordContacts | gvproc.py:58 | the contacts are those of the records, in order |
| Reconcile.ResolveTables | gvproc.py:55-117 | resolving fails exactly when a CSV name has no numbers; the owner's name maps to the first owner number |
| Reconcile.ResolveTablesSettled | gvproc.py:94-117 | the voted names and the owner's name are never empty, so when no number is listed under two CSV names the resolved tables settle the empty name |
| Reconcile.FixContactNumbers | gvproc.py:55-131 | it fails exactly when resolving fails; it returns the filled records and the number table; complete contacts are unchanged |
| Reconcile.FixContactNumbersStable | gvproc.py:119-131 | for records the parsers produced and a contacts dictionary read from rows that passed the uniqueness check, back-filling the output again changes nothing |
| Reconcile.NumbersOf | gvproc.py:47-50 | a name has numbers exactly when some row carries that name |
| Reconcile.NumbersOfMember | gvproc.py:47-50 | every number listed under a name comes from a row with that name and number |
| Reconcile.CsvFromDisjoint | gvproc.py:39-50 | after the uniqueness check no number is listed under two names of the dictionary |
| Reconcile.CheckUnique | gvproc.py:40-45 | the check passes exactly when no number occurs twice |
| Reconcile.BuildNameDict | gvproc.py:47-50 | the names are exactly the row names, each mapped to its numbers in row order |
| Reconcile.BuildNoteDict | gvproc.py:47-51 | every row's number maps to that row's notes, and only row numbers are keys |
| Reconcile.ReadContacts | gvproc.py:33-53 | a repeated number exits; otherwise both dictionaries are built, with a non-empty number list per name |
| Export.ExplodeTextRecords | gvproc.py:169-178 | the non-conversation records come first and the conversation messages follow |
| Export.ExplodeLength | gvproc.py:169-178 | the flat list has one entry per non-conversation page plus one per message |
| Export.ExplodeAppend | gvproc.py:175-176 | order is kept within each group across batches |
| Export.ExplodeOne | gvproc.py:170-176 | a record stays itself; a conversation becomes its messages |
| Export.ExplodeMembership | gvproc.py:169-178 | a record is in the flat list exactly when it was a page of its own or a message of a conversation |
| Export.ExplodePartition | gvproc.py:169-178 | calls and recordings form a prefix, of exactly their count, and texts the rest |
| Export.RowOf | gvproc.py:133-157 | a text goes out under the receiver's number exactly when the owner sent it, else in under the sender's; a missed call stores no duration; other missing durations fail |
| Export.Rows | gvproc.py:133-157 | rows are written in record order, one per record and of the same kind; the first record that cannot be written fails the batch |
| Export.MissedCallWritten | gvproc.py:152-153 | a missed call is written with no duration, whatever its duration field holds |
| Export.ThreadRowsNumber | gvproc.py:136-145 | in a two-party thread every row carries the other party's number, outgoing exactly for the owner's messages |
| Export.PairLessTransitive | gvproc.py:161 | tuple order is transitive |
| Export.PairLessTotal | gvproc.py:161 | two different tuples are ordered one way or the other |
| Export.Insert | gvproc.py:161 | inserting into a sorted list keeps it strictly sorted and adds exactly the new pair |
| Export.ContactPairs | gvproc.py:160-161 | it yields one (name, number) pair per table number, strictly sorted by name and then number |
| Export.SortedUnique | gvproc.py:181-183 | a strictly sorted list is determined by its elements |
| Export.DedupUnchanged | gvproc.py:181-183 | the `set()` pass changes nothing: the contacts file and the contacts table get the same rows in the same order |
| Export.ContactRows | gvproc.py:164-167 | each row carries its pair and the number's note, or the empty string |
| Export.WriteContacts | gvproc.py:159-167 | there is one sorted row per table number, with its name and its note |
| Pipeline.ParsedContactsFillReady | gvParserLib.py:50-52 | extracted contacts (numbers from `\d+` matches), the owner (gvParserLib.py:296-297), the one-way party and the empty contact never carry an empty number without a name |
| Pipeline.FromLookupFillReady | gvParserLib.py:40-54 | a contact read from a page is ready for the back-fill |
| Pipeline.PartiesFillReady | gvParserLib.py:302-312 | the parties of a conversation are its kept senders, the one-way party and the owner, all ready for the back-fill |
| Pipeline.AssembleFillReady | gvParserLib.py:286-325 | the senders and receivers of an assembled conversation are ready for the back-fill |
| Pipeline.ConversationFillReady | gvParserLib.py:268-325 | every message of a conversation read from a page, sender and receiver, is ready for the back-fill |
| Pipeline.SingleFillReady | gvParserLib.py:109-124 | the contact of a call or recording read from a page is ready for the back-fill |
| Pipeline.ProcessTreeFillReady | gvParserLib.py:408-427 | every record `process_tree` yields, the messages of a conversation included, is ready for the back-fill |
| Pipeline.ExplodeFillReady | gvproc.py:169-178 | flattening ready pages yields ready records |
| Pipeline.ProcessedRecordsStable | gvproc.py:221-223 | back-filling the exploded records of processed pages again changes nothing, given a contacts dictionary that passed the uniqueness check |

## Left out

- HTML parsing (html5lib, ElementTree `find`/`findall`/`findtext`) is abstracted. A page is the located elements the code reads.
- The self-match branches of the `get_node` methods are not modelled as separate cases. `TelephonyRecord.get_node` takes its branch (gvParserLib.py:103-104) whenever a call or audio extractor hands it the container it has already located (lines 161 and 210). It then returns that same container, which is what the model passes on. `Contact.get_node` (gvParserLib.py:32-33) is only given a record node, never the link itself, and `TextConversationList.get_node` (gvParserLib.py:263-264) is only given the document root, so those two branches are never taken.
- `parse_date` (dateutil and time zones) is left out. Dates are opaque integers; what is modelled is whether the `abbr` element and its `title` attribute are there.
- Legacy.AudioFromNode: does not raise the OverflowError of a date moved before year 1 by a long duration, because dates are opaque integers; only the `timedelta(0, duration)` bound is modelled.
- `float()` on confidence values, and the resulting average, are left out. Only the number of confidence spans is modelled, which decides the division by zero. The ValueError of a malformed float is left out too.
- Records.AudioFromNode: does not return the confidence average, because it is a floating-point value.
- Export.RowOf: the audio row has no confidence column, for the same reason.
- The `htmlentitydefs` table and `unichr` are a parameter (`CharTable`), not the real tables.
- The difference between Python 2 byte strings and unicode strings is not modelled. All text is one string type. In the source, CSV names, CSV numbers and `mynumbers` are byte strings, while text parsed from the pages is unicode. A non-ASCII CSV name therefore never equals a parsed name, and sorting the `(name, number)` tuples (gvproc.py:161, gvproc.py:183) can raise `UnicodeDecodeError` when byte and unicode names with non-ASCII characters are compared.
- Export.ContactPairs: always succeeds, because the `UnicodeDecodeError` of comparing byte and unicode names during the sort is not modelled.
- Export.WriteContacts: always succeeds, for the same reason.
- The `KeyError` raised when a tel link or a tag link has no `href` attribute (gvParserLib.py:50, gvParserLib.py:380) is not modelled. `TelNode.href` and `HaudioNode.tagHrefs` are plain strings, so every link is assumed to carry an `href`.
- File and directory I/O is left out. This covers `process_file`, the directory walk of `ReadGVoiceRecords`, CSV reading and writing, sqlite, argparse and the top-level script.
- The CSV header row is left out. The code writes a two-column header (`Name`, `Number`) above three-column rows.
- `print` output is left out: ambiguity reports, "No number for" messages and the multiway report.
- Object aliasing is left out. Contacts are values: receivers that share an object with a sender, and the in-place edit of `csvcontacts`, are not modelled. Under the conditions of `Reconcile.FixContactNumbersStable` the back-fill is idempotent, so the result is the same.
- Dictionary and set iteration order is not modelled. The CSV dictionary is a sequence of entries in iteration order. `set(...)` of contacts keeps the first-seen contact of each number (the model lists them in first-seen order), and the receiver map does not depend on that order.
- The `sqlite3.IntegrityError` handler of `ContactsToDB` is left out. With distinct numbers no row repeats (`Export.DedupUnchanged`).
- `str(i.date)` formatting of times is left out. A row holds the date itself.
- `__repr__`, `dump` and `__str__` are left out. They are debug output.
- The base-class `__nonzero__` rules (date for `GVoiceRecord`, contact for `TelephonyRecord`) are left out. The subclasses reach them through `super(...)`, which is always truthy, so they never decide anything.

=== FILE: contacts.dfy ===
/** The Contact entity of gvParserLib.py: a name and a phone number, either
    of which may be missing, with identity keyed on the phone number alone.
 */
module Contacts {
  import opened Wrappers
  import opened Strings

  datatype Contact = Contact(name: Option<string>, phonenumber: Option<string>)

  /** `Contact()`: both fields None. */
  const EmptyContact := Contact(None, None)

  /** The name the parser gives the account owner. */
  const MeName := "###ME###"

  /** `phonenumber in mynumbers`; a missing number is never one of them. */
  predicate IsMine(c: Contact, mynumbers: seq<string>) {
    c.phonenumber.Some? && c.phonenumber.value in mynumbers
  }

  /** The synthetic contact for the account owner: `Contact(name="###ME###",
      phonenumber=mynumbers[0])`. It is one of the owner's numbers, it is the
      same party as exactly the contacts with the first of them, and it is
      recognised by its name. */
  function Me(mynumbers: seq<string>): (c: Contact)
    requires |mynumbers| > 0
    ensures IsMine(c, mynumbers) && Truthy(c)
    ensures forall d :: Same(c, d) <==> d.phonenumber == Some(mynumbers[0])
    ensures c.name == Some(MeName)
  {
    Contact(Some(MeName), Some(mynumbers[0]))
  }

  /** `__nonzero__`: the contact carries information when its number or its
      name is a non-empty string. */
  predicate Truthy(c: Contact) {
    NonEmpty(c.phonenumber) || NonEmpty(c.name)
  }

  /** `__hash__` hashes the phone number, so the number is the key. */
  function Key(c: Contact): Option<string> {
    c.phonenumber
  }

  /** `__eq__`: two contacts are the same party when their numbers are equal. */
  predicate Same(a: Contact, b: Contact) {
    a.phonenumber == b.phonenumber
  }

  /** An `<a class="tel">` element as the contact extraction sees it: whether
      it has child elements (ElementTree truthiness), the text of its
      `span.fn` child (None when there is no such span) and its href. */
  datatype TelNode = TelNode(hasChildren: bool, nameText: Option<string>, href: string)

  /** The two places a contact can sit below a record node: the
      `cite.sender.vcard > a.tel` and the `div.contributor.vcard > a.tel`
      lookups, each None when `find` returns None. */
  datatype ContactLookup = ContactLookup(sender: Option<TelNode>, contributor: Option<TelNode>)

  /** Position and length of the leftmost maximal digit run of s, the match
      of `re.search('\d+', s)`. */
  function DigitRun(s: string): (r: Option<(nat, nat)>)
    ensures r.None? <==> forall k :: 0 <= k < |s| ==> !IsDigit(s[k])
    ensures r.Some? ==>
              var (i, n) := r.value;
              && n > 0 && i + n <= |s|
              && (forall k :: 0 <= k < i ==> !IsDigit(s[k]))
              && (forall k :: i <= k < i + n ==> IsDigit(s[k]))
              && (i + n == |s| || !IsDigit(s[i + n]))
  {
    if |s| == 0 then None
    else if IsDigit(s[0]) then Some((0, DigitRunLen(s, 0)))
    else match DigitRun(s[1..])
      case None => None
      case Some((i, n)) => Some((i + 1, n))
  }

  predicate OccursAt(sub: string, s: string, i: nat) {
    i + |sub| <= |s| && s[i..i + |sub|] == sub
  }

  /** The digits `sub` sit at i in s, no digit comes before them and none
      directly after: the match of `re.search('\d+', s)`. */
  predicate FirstDigitRunAt(sub: string, s: string, i: nat) {
    && OccursAt(sub, s, i)
    && (forall k :: 0 <= k < i ==> !IsDigit(s[k]))
    && (i + |sub| == |s| || !IsDigit(s[i + |sub|]))
  }

  /** The phone number of an href: its first maximal digit run, or None. */
  function PhoneOf(href: string): (r: Option<string>)
    ensures r.None? <==> forall k :: 0 <= k < |href| ==> !IsDigit(href[k])
    ensures r.Some? ==> |r.value| > 0 && AllDigits(r.value)
    ensures r.Some? ==> exists i :: FirstDigitRunAt(r.value, href, i)
  {
    match DigitRun(href)
    case None => None
    case Some((i, n)) =>
      assert FirstDigitRunAt(href[i..i + n], href, i);
      Some(href[i..i + n])
  }

  /** `Contact.from_node` after the element is located: a blank or missing
      name becomes None, the number is the first digit run of the href. */
  function FromTel(t: TelNode): (c: Contact)
    ensures c.name.None? <==> !NonEmpty(t.nameText)
    ensures c.name.Some? ==> c.name == t.nameText
    ensures c.phonenumber == PhoneOf(t.href)
  {
    Contact(if NonEmpty(t.nameText) then t.nameText else None, PhoneOf(t.href))
  }

  /** `Contact.get_node` of gvParserLib.py: the sender lookup is kept only
      when it is truthy (found and with children), otherwise the contributor
      lookup is used, whatever it gives. */
  function Locate(l: ContactLookup): (r: Option<TelNode>)
    ensures l.sender.Some? && l.sender.value.hasChildren ==> r == l.sender
    ensures !(l.sender.Some? && l.sender.value.hasChildren) ==> r == l.contributor
  {
    if l.sender.Some? && l.sender.value.hasChildren then l.sender else l.contributor
  }

  /** `Contact.from_node`: locating nothing makes the attribute access on None
      raise. */
  function FromLookup(l: ContactLookup): (r: Result<Contact>)
    ensures r.Failure? <==> Locate(l).None?
    ensures r.Failure? ==> r.error == AttributeError
    ensures r.Success? ==> r.value == FromTel(Locate(l).value)
  {
    match Locate(l)
    case None => Failure(AttributeError)
    case Some(t) => Success(FromTel(t))
  }

  /** Every extracted contact has a name that is None or non-empty and a
      number that is None or a non-empty digit string. */
  predicate Normalised(c: Contact) {
    && (c.name.Some? ==> |c.name.value| > 0)
    && (c.phonenumber.Some? ==> |c.phonenumber.value| > 0 && AllDigits(c.phonenumber.value))
  }

  lemma FromTelNormalised(t: TelNode)
    ensures Normalised(FromTel(t))
    ensures Truthy(FromTel(t)) <==> FromTel(t) != EmptyContact
  {
  }
}

=== FILE: conversations.dfy ===
/** `TextConversationList.from_node` of gvParserLib.py: turning the messages
    of a chat log into a conversation, dropping notices and anonymous
    senders, relabelling the account owner, finding the other party and
    giving every message its receiver.
 */
module Conversations {
  import opened Wrappers
  import opened Strings
  import opened Contacts
  import opened ParseTools
  import opened Records

  /** A text message record. */
  type TextRecord = r: Record | r.Text? witness Text(EmptyContact, 0, "", EmptyContact)

  /** `TextConversationList`: the messages and the party they are with. */
  datatype Conversation = Conversation(texts: seq<TextRecord>, contact: Contact)

  /** The sender name of system notices, which are dropped. */
  const SystemSender := "Google Voice"

  /** A message survives the filter: not a notice, and its sender has a name
      or a number. */
  predicate Kept(m: TextRecord) {
    m.contact.name != Some(SystemSender) && Truthy(m.contact)
  }

  /** The message with its sender replaced. */
  function WithContact(m: TextRecord, c: Contact): (r: TextRecord)
    ensures r.contact == c && r.date == m.date && r.text == m.text && r.receiver == m.receiver
  {
    Text(c, m.date, m.text, m.receiver)
  }

  /** The message with its receiver set. */
  function WithReceiver(m: TextRecord, c: Contact): (r: TextRecord)
    ensures r.receiver == c && r.date == m.date && r.text == m.text && r.contact == m.contact
  {
    Text(m.contact, m.date, m.text, c)
  }

  /** A message from one of the owner's numbers is relabelled as the owner. */
  function Relabel(m: TextRecord, mynumbers: seq<string>): (r: TextRecord)
    requires |mynumbers| > 0
    ensures r == WithContact(m, r.contact)
    ensures IsMine(m.contact, mynumbers) ==> r.contact == Me(mynumbers)
    ensures !IsMine(m.contact, mynumbers) ==> r == m
  {
    if IsMine(m.contact, mynumbers) then WithContact(m, Me(mynumbers)) else m
  }

  /** Every message from one of the owner's numbers carries the owner
      contact. */
  predicate Relabelled(kept: seq<TextRecord>, mynumbers: seq<string>)
    requires |mynumbers| > 0
  {
    forall i :: 0 <= i < |kept| ==> IsMine(kept[i].contact, mynumbers) ==> kept[i].contact == Me(mynumbers)
  }

  /** No message has been given a receiver yet. */
  predicate Unassigned(ms: seq<TextRecord>) {
    forall i :: 0 <= i < |ms| ==> ms[i].receiver == EmptyContact
  }

  /** The messages the loop appends, in order. */
  function KeptMessages(msgs: seq<TextRecord>, mynumbers: seq<string>): (r: seq<TextRecord>)
    requires |mynumbers| > 0
    ensures |r| <= |msgs|
    ensures forall i :: 0 <= i < |r| ==> Kept(r[i])
    ensures Relabelled(r, mynumbers)
    ensures Unassigned(msgs) ==> Unassigned(r)
  {
    if |msgs| == 0 then []
    else
      var head := if Kept(msgs[0]) then [Relabel(msgs[0], mynumbers)] else [];
      head + KeptMessages(msgs[1..], mynumbers)
  }

  /** The filter works message by message: it distributes over
      concatenation, so the kept messages keep their order. */
  lemma {:induction false} KeptMessagesAppend(a: seq<TextRecord>, b: seq<TextRecord>, mynumbers: seq<string>)
    requires |mynumbers| > 0
    ensures KeptMessages(a + b, mynumbers) == KeptMessages(a, mynumbers) + KeptMessages(b, mynumbers)
  {
    if |a| > 0 {
      assert (a + b)[0] == a[0];
      assert (a + b)[1..] == a[1..] + b;
      KeptMessagesAppend(a[1..], b, mynumbers);
    } else {
      assert a + b == b;
    }
  }

  /** A single message is kept (relabelled) exactly when it passes the filter. */
  lemma KeptMessagesSingle(m: TextRecord, mynumbers: seq<string>)
    requires |mynumbers| > 0
    ensures KeptMessages([m], mynumbers) == if Kept(m) then [Relabel(m, mynumbers)] else []
  {
    assert [m][1..] == [];
  }

  /** The senders of a message sequence. */
  function Senders(msgs: seq<TextRecord>): (r: seq<Contact>)
    ensures |r| == |msgs| && forall i :: 0 <= i < |r| ==> r[i] == msgs[i].contact
  {
    seq(|msgs|, i requires 0 <= i < |msgs| => msgs[i].contact)
  }

  /** The distinct numbers (keys) among some contacts. */
  function KeySet(cs: seq<Contact>): set<Option<string>> {
    set i | 0 <= i < |cs| :: Key(cs[i])
  }

  predicate DistinctKeys(cs: seq<Contact>) {
    forall i, j :: 0 <= i < j < |cs| ==> Key(cs[i]) != Key(cs[j])
  }

  /** The first contact carrying key k. */
  function FirstWithKey(cs: seq<Contact>, k: Option<string>): (c: Contact)
    requires k in KeySet(cs)
    ensures c in cs && Key(c) == k
  {
    if Key(cs[0]) == k then cs[0]
    else
      assert k in KeySet(cs[1..]) by {
        var i :| 0 <= i < |cs| && Key(cs[i]) == k;
        assert cs[1..][i - 1] == cs[i];
      }
      FirstWithKey(cs[1..], k)
  }

  lemma {:induction false} FirstWithKeyPrefix(cs: seq<Contact>, n: nat, k: Option<string>)
    requires n <= |cs| && k in KeySet(cs[..n])
    ensures k in KeySet(cs) && FirstWithKey(cs, k) == FirstWithKey(cs[..n], k)
  {
    var i :| 0 <= i < n && Key(cs[..n][i]) == k;
    assert cs[i] == cs[..n][i];
    if Key(cs[0]) != k {
      assert cs[..n][1..] == cs[1..][..n - 1];
      assert cs[1..][i - 1] == cs[i];
      FirstWithKeyPrefix(cs[1..], n - 1, k);
    }
  }

  lemma {:induction false} FirstWithKeyLast(cs: seq<Contact>)
    requires |cs| > 0 && Key(cs[|cs| - 1]) !in KeySet(cs[..|cs| - 1])
    ensures Key(cs[|cs| - 1]) in KeySet(cs)
    ensures FirstWithKey(cs, Key(cs[|cs| - 1])) == cs[|cs| - 1]
  {
    var k := Key(cs[|cs| - 1]);
    if |cs| > 1 {
      assert Key(cs[0]) != k by { assert cs[..|cs| - 1][0] == cs[0]; }
      var t := cs[1..];
      assert t[..|t| - 1] == cs[..|cs| - 1][1..];
      var ti := t[..|t| - 1];
      assert forall i :: 0 <= i < |ti| ==> Key(ti[i]) != k by {
        forall i | 0 <= i < |ti| ensures Key(ti[i]) != k {
          assert cs[..|cs| - 1][i + 1] == ti[i];
        }
      }
      FirstWithKeyLast(t);
    }
  }

  /** Appending a contact adds its number to the key set. */
  lemma KeySetSnoc(cs: seq<Contact>, x: Contact)
    ensures KeySet(cs + [x]) == KeySet(cs) + {Key(x)}
  {
    var r := cs + [x];
    forall k | k in KeySet(r) ensures k in KeySet(cs) + {Key(x)} {
      var i :| 0 <= i < |r| && Key(r[i]) == k;
      if i < |cs| { assert r[i] == cs[i]; }
    }
    assert Key(r[|cs|]) == Key(x);
    forall k | k in KeySet(cs) ensures k in KeySet(r) {
      var i :| 0 <= i < |cs| && Key(cs[i]) == k;
      assert r[i] == cs[i];
    }
  }

  /** `list(set(contacts))`: one contact per distinct number, the first one
      seen (a set keeps the element it already holds). Python's set order is
      arbitrary; the model lists them in order of first appearance, which
      nothing below depends on. */
  function Representatives(cs: seq<Contact>): (r: seq<Contact>)
    ensures DistinctKeys(r)
    ensures KeySet(r) == KeySet(cs)
    ensures forall i :: 0 <= i < |r| ==> r[i] in cs
    ensures forall i :: 0 <= i < |r| ==> Key(r[i]) in KeySet(cs) && r[i] == FirstWithKey(cs, Key(r[i]))
  {
    if |cs| == 0 then []
    else
      var init := cs[..|cs| - 1];
      var last := cs[|cs| - 1];
      var p := Representatives(init);
      assert cs == init + [last];
      KeySetSnoc(init, last);
      forall i | 0 <= i < |p|
        ensures Key(p[i]) in KeySet(cs) && p[i] == FirstWithKey(cs, Key(p[i]))
      {
        FirstWithKeyPrefix(cs, |cs| - 1, Key(p[i]));
      }
      if Key(last) in KeySet(p) then p
      else
        FirstWithKeyLast(cs);
        KeySetSnoc(p, last);
        p + [last]
  }

  lemma {:induction false} DistinctKeysCount(cs: seq<Contact>)
    requires DistinctKeys(cs)
    ensures |KeySet(cs)| == |cs|
  {
    if |cs| > 0 {
      var init := cs[..|cs| - 1];
      assert DistinctKeys(init);
      DistinctKeysCount(init);
      assert KeySet(cs) == KeySet(init) + {Key(cs[|cs| - 1])} by {
        forall k | k in KeySet(cs) ensures k in KeySet(init) + {Key(cs[|cs| - 1])} {
          var i :| 0 <= i < |cs| && Key(cs[i]) == k;
          if i < |cs| - 1 { assert init[i] == cs[i]; }
        }
      }
      assert Key(cs[|cs| - 1]) !in KeySet(init);
    }
  }

  /** Every kept message after position i is the owner's. */
  predicate MineAfter(kept: seq<TextRecord>, mynumbers: seq<string>, i: nat) {
    forall j :: i < j < |kept| ==> IsMine(kept[j].contact, mynumbers)
  }

  /** c sent a kept message that is not the owner's, and every later kept
      message is the owner's: c is the last assignment the loop makes. */
  predicate IsLastOther(kept: seq<TextRecord>, mynumbers: seq<string>, c: Contact) {
    exists i :: 0 <= i < |kept| && kept[i].contact == c && !IsMine(c, mynumbers) && MineAfter(kept, mynumbers, i)
  }

  /** The contact of the last kept message that is not the owner's: the
      `conv_with` of the loop. */
  function LastOther(kept: seq<TextRecord>, mynumbers: seq<string>): (r: Option<Contact>)
    ensures r.None? <==> forall i :: 0 <= i < |kept| ==> IsMine(kept[i].contact, mynumbers)
    ensures r.Some? ==> IsLastOther(kept, mynumbers, r.value)
    ensures r.Some? ==> !IsMine(r.value, mynumbers) && r.value in Senders(kept)
    ensures |kept| > 0 && !IsMine(kept[|kept| - 1].contact, mynumbers) ==> r == Some(kept[|kept| - 1].contact)
  {
    if |kept| == 0 then None
    else if !IsMine(kept[|kept| - 1].contact, mynumbers) then
      assert MineAfter(kept, mynumbers, |kept| - 1);
      Some(kept[|kept| - 1].contact)
    else
      var r := LastOther(kept[..|kept| - 1], mynumbers);
      assert forall i :: 0 <= i < |kept| - 1 ==> kept[..|kept| - 1][i] == kept[i];
      assert r.Some? ==> IsLastOther(kept, mynumbers, r.value) by {
        if r.Some? {
          var i :| 0 <= i < |kept| - 1 && kept[..|kept| - 1][i].contact == r.value && !IsMine(r.value, mynumbers)
                   && MineAfter(kept[..|kept| - 1], mynumbers, i);
          assert MineAfter(kept, mynumbers, i);
        }
      }
      assert r.Some? ==> r.value in Senders(kept) by {
        if r.Some? {
          var i :| 0 <= i < |kept| - 1 && Senders(kept[..|kept| - 1])[i] == r.value;
          assert Senders(kept)[i] == r.value;
        }
      }
      r
  }

  /** The party of a one-way outgoing thread: `Contact(None, onewayname)`,
      i.e. named after the page title and without a number. */
  function OneWayParty(onewayname: Option<string>): Contact {
    Contact(onewayname, None)
  }

  /** `unique_contacts` after the two fix-ups: the one-way party when nobody
      but the owner wrote, and the owner when only one party is left. */
  function Parties(kept: seq<TextRecord>, onewayname: Option<string>, mynumbers: seq<string>): (r: seq<Contact>)
    requires |mynumbers| > 0 && Relabelled(kept, mynumbers)
    ensures |r| >= 2
    ensures |r| > 2 <==> |KeySet(Senders(kept))| > 2
    ensures |r| == 2 ==> Key(r[0]) != Key(r[1])
    ensures KeySet(Senders(kept)) <= KeySet(r)
    ensures forall c :: c in r ==> c in Senders(kept) || c == OneWayParty(onewayname) || c == Me(mynumbers)
  {
    var senders := Senders(kept);
    var reps := Representatives(senders);
    DistinctKeysCount(reps);
    var other := LastOther(kept, mynumbers);
    var withOneWay := if other.None? then reps + [OneWayParty(onewayname)] else reps;
    if |withOneWay| == 1 then
      assert Key(withOneWay[0]) != Key(Me(mynumbers)) by {
        if other.Some? { PartiesDistinct(kept, reps, mynumbers); }
      }
      withOneWay + [Me(mynumbers)]
    else if other.None? then
      PartiesOneWay(kept, reps, mynumbers);
      withOneWay
    else
      withOneWay
  }

  /** With a non-owner sender and one distinct number, that number is not the
      owner's. */
  lemma PartiesDistinct(kept: seq<TextRecord>, reps: seq<Contact>, mynumbers: seq<string>)
    requires |mynumbers| > 0
    requires reps == Representatives(Senders(kept))
    requires LastOther(kept, mynumbers).Some? && |reps| == 1
    ensures Key(reps[0]) != Key(Me(mynumbers))
  {
    var c := LastOther(kept, mynumbers).value;
    var i :| 0 <= i < |kept| && Senders(kept)[i] == c;
    assert Key(c) in KeySet(Senders(kept));
    assert Key(c) in KeySet(reps);
  }

  /** When only the owner wrote, the owner is the only number, so adding the
      number-less one-way party makes exactly two distinct parties. */
  lemma PartiesOneWay(kept: seq<TextRecord>, reps: seq<Contact>, mynumbers: seq<string>)
    requires |mynumbers| > 0
    requires reps == Representatives(Senders(kept))
    requires LastOther(kept, mynumbers).None? && Relabelled(kept, mynumbers)
    ensures |reps| <= 1
    ensures forall i :: 0 <= i < |reps| ==> Key(reps[i]).Some?
  {
    var senders := Senders(kept);
    var me := Some(mynumbers[0]);
    forall k | k in KeySet(senders) ensures k == me {
      var i :| 0 <= i < |senders| && Key(senders[i]) == k;
      assert IsMine(kept[i].contact, mynumbers);
    }
    assert KeySet(reps) == {} || KeySet(reps) == {me};
    DistinctKeysCount(reps);
  }

  /** The receiver of a message from c: the other of the two parties. */
  function Other(a: Contact, b: Contact, c: Contact): Contact {
    if Key(c) == Key(a) then b else a
  }

  /** Gives each message its receiver. */
  function AssignReceivers(kept: seq<TextRecord>, a: Contact, b: Contact): (r: seq<TextRecord>)
    ensures |r| == |kept|
    ensures forall i :: 0 <= i < |r| ==> r[i] == WithReceiver(kept[i], Other(a, b, kept[i].contact))
  {
    seq(|kept|, i requires 0 <= i < |kept| => WithReceiver(kept[i], Other(a, b, kept[i].contact)))
  }

  /** The loop and the receiver assignment of `TextConversationList.from_node`
      after the messages are parsed. */
  function Assemble(msgs: seq<TextRecord>, onewayname: Option<string>, mynumbers: seq<string>): (r: Conversation)
    requires |mynumbers| > 0
    // the kept messages, in order, with only their receivers touched
    ensures |r.texts| == |KeptMessages(msgs, mynumbers)|
    ensures forall i :: 0 <= i < |r.texts| ==>
              r.texts[i] == WithReceiver(KeptMessages(msgs, mynumbers)[i], r.texts[i].receiver)
    // more than two numbers: returned as they are, with an empty contact
    ensures |KeySet(Senders(KeptMessages(msgs, mynumbers)))| > 2 ==>
              r == Conversation(KeptMessages(msgs, mynumbers), EmptyContact)
    // otherwise each message goes to the party of the other number, and the
    // conversation is with the last sender who is not the owner
    ensures |KeySet(Senders(KeptMessages(msgs, mynumbers)))| <= 2 ==>
              var parties := Parties(KeptMessages(msgs, mynumbers), onewayname, mynumbers);
              && |parties| == 2
              && r.contact == LastOther(KeptMessages(msgs, mynumbers), mynumbers).GetOr(OneWayParty(onewayname))
              && forall i :: 0 <= i < |r.texts| ==>
                   && Key(r.texts[i].contact) in KeySet(parties)
                   && r.texts[i].receiver in parties
                   && Key(r.texts[i].receiver) != Key(r.texts[i].contact)
  {
    var kept := KeptMessages(msgs, mynumbers);
    if |Parties(kept, onewayname, mynumbers)| > 2 then Conversation(kept, EmptyContact)
    else Addressed(kept, onewayname, mynumbers)
  }

  /** The two-party case of `Assemble`: each message gets the other party as
      its receiver and the conversation is with `conv_with`. */
  function Addressed(kept: seq<TextRecord>, onewayname: Option<string>, mynumbers: seq<string>): (r: Conversation)
    requires |mynumbers| > 0 && Relabelled(kept, mynumbers) && |KeySet(Senders(kept))| <= 2
    ensures |r.texts| == |kept|
    ensures forall i :: 0 <= i < |r.texts| ==> r.texts[i] == WithReceiver(kept[i], r.texts[i].receiver)
    ensures var parties := Parties(kept, onewayname, mynumbers);
            && |parties| == 2
            && r.contact == LastOther(kept, mynumbers).GetOr(OneWayParty(onewayname))
            && forall i :: 0 <= i < |r.texts| ==>
                 && Key(r.texts[i].contact) in KeySet(parties)
                 && r.texts[i].receiver in parties
                 && Key(r.texts[i].receiver) != Key(r.texts[i].contact)
  {
    var parties := Parties(kept, onewayname, mynumbers);
    var convWith := LastOther(kept, mynumbers).GetOr(OneWayParty(onewayname));
    var texts := AssignReceivers(kept, parties[0], parties[1]);
    assert parties == [parties[0], parties[1]];
    ReceiversOfTwo(kept, parties[0], parties[1]);
    Conversation(texts, Contact(convWith.name, convWith.phonenumber))
  }

  /** Between two parties of distinct numbers, every message goes from one
      to the other. */
  lemma ReceiversOfTwo(kept: seq<TextRecord>, a: Contact, b: Contact)
    requires Key(a) != Key(b)
    requires KeySet(Senders(kept)) <= KeySet([a, b])
    ensures var texts := AssignReceivers(kept, a, b);
            forall i :: 0 <= i < |texts| ==>
              && Key(texts[i].contact) in KeySet([a, b])
              && texts[i].receiver in [a, b]
              && Key(texts[i].receiver) != Key(texts[i].contact)
  {
    var texts := AssignReceivers(kept, a, b);
    forall i | 0 <= i < |texts|
      ensures Key(texts[i].contact) in KeySet([a, b])
    {
      assert Senders(kept)[i] == texts[i].contact;
    }
  }

  lemma SubsetCardinality<T>(a: set<T>, b: set<T>)
    requires a <= b
    ensures |a| <= |b|
  {
    assert b == a + (b - a);
  }

  /** When every message passes the filter, the kept messages are all of
      them, relabelled. */
  lemma {:induction false} KeptMessagesAll(msgs: seq<TextRecord>, mynumbers: seq<string>)
    requires |mynumbers| > 0
    requires forall i :: 0 <= i < |msgs| ==> Kept(msgs[i])
    ensures |KeptMessages(msgs, mynumbers)| == |msgs|
    ensures forall i :: 0 <= i < |msgs| ==> KeptMessages(msgs, mynumbers)[i] == Relabel(msgs[i], mynumbers)
  {
    if |msgs| > 0 {
      KeptMessagesAll(msgs[1..], mynumbers);
    }
  }

  /** A kept message from someone other than the owner contributes its
      sender's number to the thread. */
  lemma KeptSenderKey(msgs: seq<TextRecord>, i: nat, mynumbers: seq<string>)
    requires |mynumbers| > 0 && i < |msgs|
    requires Kept(msgs[i]) && !IsMine(msgs[i].contact, mynumbers)
    ensures Key(msgs[i].contact) in KeySet(Senders(KeptMessages(msgs, mynumbers)))
  {
    assert msgs == msgs[..i] + [msgs[i]] + msgs[i + 1..];
    KeptMessagesAppend(msgs[..i] + [msgs[i]], msgs[i + 1..], mynumbers);
    KeptMessagesAppend(msgs[..i], [msgs[i]], mynumbers);
    KeptMessagesSingle(msgs[i], mynumbers);
    var k := KeptMessages(msgs, mynumbers);
    var j := |KeptMessages(msgs[..i], mynumbers)|;
    assert k[j] == msgs[i];
    assert Senders(k)[j] == msgs[i].contact;
  }

  /** Messages all from b or from the owner. */
  predicate FromPair(kept: seq<TextRecord>, b: Contact, mynumbers: seq<string>)
    requires |mynumbers| > 0
  {
    forall i :: 0 <= i < |kept| ==> kept[i].contact == b || kept[i].contact == Me(mynumbers)
  }

  lemma FromPairKeys(kept: seq<TextRecord>, b: Contact, mynumbers: seq<string>)
    requires |mynumbers| > 0 && FromPair(kept, b, mynumbers)
    ensures |KeySet(Senders(kept))| <= 2
  {
    var me := Me(mynumbers);
    assert KeySet(Senders(kept)) <= {Key(b), Key(me)};
    SubsetCardinality(KeySet(Senders(kept)), {Key(b), Key(me)});
  }

  lemma FromPairOther(kept: seq<TextRecord>, b: Contact, mynumbers: seq<string>, w: nat)
    requires |mynumbers| > 0 && FromPair(kept, b, mynumbers) && !IsMine(b, mynumbers)
    requires w < |kept| && kept[w].contact == b
    ensures LastOther(kept, mynumbers) == Some(b)
  {
    assert !IsMine(kept[w].contact, mynumbers);
    var o := LastOther(kept, mynumbers).value;
    assert o in Senders(kept);
  }

  /** Between the owner and b the two parties are b and the owner. */
  lemma PairParties(kept: seq<TextRecord>, onewayname: Option<string>, mynumbers: seq<string>, b: Contact)
    requires |mynumbers| > 0 && Relabelled(kept, mynumbers) && FromPair(kept, b, mynumbers)
    requires LastOther(kept, mynumbers) == Some(b)
    ensures forall c :: c in Parties(kept, onewayname, mynumbers) ==> c == b || c == Me(mynumbers)
  {
    forall c | c in Parties(kept, onewayname, mynumbers) ensures c == b || c == Me(mynumbers) {
      if c in Senders(kept) {
        var n :| 0 <= n < |kept| && Senders(kept)[n] == c;
      }
    }
  }

  /** A two-party exchange: the owner writes from one of their numbers and a
      single other contact b replies. Every message of the owner then goes
      to b, every message of b goes to the owner, and the conversation is
      with b. */
  lemma TwoPartyExchange(msgs: seq<TextRecord>, onewayname: Option<string>, mynumbers: seq<string>, b: Contact)
    requires |mynumbers| > 0
    requires !IsMine(b, mynumbers) && Truthy(b) && b.name != Some(SystemSender)
    requires forall i :: 0 <= i < |msgs| ==> Kept(msgs[i]) && (msgs[i].contact == b || IsMine(msgs[i].contact, mynumbers))
    requires exists i :: 0 <= i < |msgs| && msgs[i].contact == b
    ensures var r := Assemble(msgs, onewayname, mynumbers);
            && |r.texts| == |msgs|
            && r.contact == b
            && forall i :: 0 <= i < |msgs| ==>
                 && (IsMine(msgs[i].contact, mynumbers) ==> r.texts[i] == WithReceiver(WithContact(msgs[i], Me(mynumbers)), b))
                 && (msgs[i].contact == b ==> r.texts[i] == WithReceiver(msgs[i], Me(mynumbers)))
  {
    KeptMessagesAll(msgs, mynumbers);
    var kept := KeptMessages(msgs, mynumbers);
    var me := Me(mynumbers);
    assert FromPair(kept, b, mynumbers);
    FromPairKeys(kept, b, mynumbers);
    var w :| 0 <= w < |msgs| && msgs[w].contact == b;
    FromPairOther(kept, b, mynumbers, w);
    var r := Assemble(msgs, onewayname, mynumbers);
    var parties := Parties(kept, onewayname, mynumbers);
    PairParties(kept, onewayname, mynumbers, b);
    forall n | 0 <= n < |msgs|
      ensures IsMine(msgs[n].contact, mynumbers) ==> r.texts[n] == WithReceiver(WithContact(msgs[n], me), b)
      ensures msgs[n].contact == b ==> r.texts[n] == WithReceiver(msgs[n], me)
    {
      var t := r.texts[n];
      assert t == WithReceiver(kept[n], t.receiver);
      assert t.receiver in parties && Key(t.receiver) != Key(t.contact);
    }
  }

  /** Three senders with pairwise different numbers, none of them the owner's,
      make the thread multi-party: nothing gets a receiver and the
      conversation contact stays empty. */
  lemma MultiPartyThread(msgs: seq<TextRecord>, onewayname: Option<string>, mynumbers: seq<string>, i: nat, j: nat, k: nat)
    requires |mynumbers| > 0 && Unassigned(msgs)
    requires i < |msgs| && j < |msgs| && k < |msgs|
    requires Kept(msgs[i]) && Kept(msgs[j]) && Kept(msgs[k])
    requires !IsMine(msgs[i].contact, mynumbers) && !IsMine(msgs[j].contact, mynumbers) && !IsMine(msgs[k].contact, mynumbers)
    requires Key(msgs[i].contact) != Key(msgs[j].contact) && Key(msgs[j].contact) != Key(msgs[k].contact)
    requires Key(msgs[i].contact) != Key(msgs[k].contact)
    ensures var r := Assemble(msgs, onewayname, mynumbers);
            && r.contact == EmptyContact
            && forall n :: 0 <= n < |r.texts| ==> r.texts[n].receiver == EmptyContact
  {
    KeptSenderKey(msgs, i, mynumbers);
    KeptSenderKey(msgs, j, mynumbers);
    KeptSenderKey(msgs, k, mynumbers);
    var three := {Key(msgs[i].contact), Key(msgs[j].contact), Key(msgs[k].contact)};
    assert |three| == 3;
    SubsetCardinality(three, KeySet(Senders(KeptMessages(msgs, mynumbers))));
  }

  /** `TextConversationList.get_node`: the chat log, kept only when truthy. */
  function ChatLog(doc: Document): (r: Option<ChatLogNode>)
    ensures r.Some? <==> doc.chatLog.Some? && doc.chatLog.value.hasChildren
    ensures r.Some? ==> r == doc.chatLog
  {
    if doc.chatLog.Some? && doc.chatLog.value.hasChildren then doc.chatLog else None
  }

  /** e is the error of the first message node that does not parse: every
      node before it parses. */
  predicate FirstFailure(t: CharTable, ms: seq<MessageNode>, e: PyError) {
    exists i :: 0 <= i < |ms| && TextFromNode(t, ms[i]) == Failure(e) && ParsesBefore(t, ms, i)
  }

  /** Every message node before position i parses. */
  predicate ParsesBefore(t: CharTable, ms: seq<MessageNode>, i: int) {
    forall j :: 0 <= j < i && j < |ms| ==> TextFromNode(t, ms[j]).Success?
  }

  /** `TextRecord.from_node` over every message node, in order; the first
      failure escapes. */
  function ParseMessages(t: CharTable, ms: seq<MessageNode>): (r: Result<seq<TextRecord>>)
    ensures r.Success? ==> |r.value| == |ms|
    ensures r.Success? ==> forall i :: 0 <= i < |ms| ==> TextFromNode(t, ms[i]) == Success(r.value[i])
    ensures r.Failure? <==> exists i :: 0 <= i < |ms| && TextFromNode(t, ms[i]).Failure?
  {
    if |ms| == 0 then Success([])
    else
      var head :- TextFromNode(t, ms[0]);
      var rest :- ParseMessages(t, ms[1..]);
      assert forall i :: 1 <= i < |ms| ==> ms[1..][i - 1] == ms[i];
      Success([head] + rest)
  }

  /** The error that escapes ParseMessages is the first failing node's: every
      node before it parses. */
  lemma {:induction false} ParseMessagesFirstFailure(t: CharTable, ms: seq<MessageNode>)
    ensures ParseMessages(t, ms).Failure? ==> FirstFailure(t, ms, ParseMessages(t, ms).error)
  {
    if |ms| > 0 {
      if TextFromNode(t, ms[0]).Failure? {
        assert ParsesBefore(t, ms, 0);
      } else if ParseMessages(t, ms[1..]).Failure? {
        ParseMessagesFirstFailure(t, ms[1..]);
        var i :| 0 <= i < |ms| - 1 && TextFromNode(t, ms[1..][i]) == Failure(ParseMessages(t, ms[1..]).error)
                 && ParsesBefore(t, ms[1..], i);
        assert ParsesBefore(t, ms, i + 1);
      }
    }
  }

  /** `TextConversationList.from_node(tree, onewayname, ...)`: None without a
      chat log or without messages, else the assembled conversation. */
  function ConversationFromDocument(t: CharTable, doc: Document, onewayname: Option<string>, mynumbers: seq<string>)
    : (r: Result<Option<Conversation>>)
    requires |mynumbers| > 0
    ensures ChatLog(doc).None? ==> r == Success(None)
    ensures ChatLog(doc).Some? && |ChatLog(doc).value.messages| == 0 ==> r == Success(None)
    ensures r.Success? && r.value.Some? ==>
              && ChatLog(doc).Some?
              && var ms := ChatLog(doc).value.messages;
              && ParseMessages(t, ms).Success?
              && r.value.value == Assemble(ParseMessages(t, ms).value, onewayname, mynumbers)
    ensures r.Failure? ==> ChatLog(doc).Some? && ParseMessages(t, ChatLog(doc).value.messages).Failure?
    ensures r.Failure? ==> ChatLog(doc).Some? && FirstFailure(t, ChatLog(doc).value.messages, r.error)
    ensures ChatLog(doc).Some? && |ChatLog(doc).value.messages| > 0 ==>
              r == match ParseMessages(t, ChatLog(doc).value.messages)
                   case Failure(e) => Failure(e)
                   case Success(msgs) => Success(Some(Assemble(msgs, onewayname, mynumbers)))
  {
    match ChatLog(doc)
    case None => Success(None)
    case Some(chat) =>
      if |chat.messages| == 0 then Success(None)
      else
        ParseMessagesFirstFailure(t, chat.messages);
        var msgs :- ParseMessages(t, chat.messages);
        Success(Some(Assemble(msgs, onewayname, mynumbers)))
  }
}

=== FILE: dispatch.dfy ===
/** `Parser.process_tree` of gvParserLib.py: which object a page yields.
    A non-empty conversation wins, then a truthy call record, then a truthy
    audio record; otherwise the page yields nothing.
 */
module Dispatch {
  import opened Wrappers
  import opened Strings
  import opened Contacts
  import opened ParseTools
  import opened Records
  import opened Conversations

  /** What a page yields. */
  datatype Parsed = Thread(conversation: Conversation) | Single(record: Record)

  /** Python truthiness of the yielded object: a conversation is a list, a
      record follows its `__nonzero__`. */
  predicate Yielded(p: Parsed) {
    match p
    case Thread(c) => |c.texts| > 0
    case Single(r) => Meaningful(r)
  }

  /** The title of a one-way thread reads "Me to <name>"; the name is the
      title from position 6 on. */
  function OneWayName(title: string): (r: Option<string>)
    ensures r.Some? <==> StartsWith(title, "Me to")
    ensures r.Some? && |title| > 5 ==> title == "Me to" + [title[5]] + r.value
    ensures r.Some? && |title| <= 6 ==> r.value == []
  {
    if StartsWith(title, "Me to") then Some(Drop(title, 6)) else None
  }

  lemma OneWayNameExample()
    ensures OneWayName("Me to Bob") == Some("Bob")
    ensures OneWayName("Bob") == None
  {
    assert "Me to Bob"[..5] == "Me to";
  }

  /** A text branch result that stops the search. */
  predicate ThreadFound(c: Result<Option<Conversation>>) {
    c.Success? && c.value.Some? && |c.value.value.texts| > 0
  }

  /** A call or audio branch result that stops the search. */
  predicate RecordFound(c: Result<Option<Record>>) {
    c.Success? && c.value.Some? && Meaningful(c.value.value)
  }

  /** `process_tree(tree, filename, mynumbers)`. A page without a title makes
      `startswith` fail on None. */
  function ProcessTree(t: CharTable, doc: Document, mynumbers: seq<string>): (r: Result<Option<Parsed>>)
    requires |mynumbers| > 0
    ensures doc.title.None? ==> r == Failure(AttributeError)
    ensures r.Success? && r.value.Some? ==> Yielded(r.value.value)
    ensures r.Success? && r.value.Some? && r.value.value.Single? ==> !r.value.value.record.Text?
    ensures doc.title.Some? ==>
              var conv := ConversationFromDocument(t, doc, OneWayName(doc.title.value), mynumbers);
              var call := CallFromDocument(doc);
              var audio := AudioFromDocument(doc);
              && (ThreadFound(conv) ==> r == Success(Some(Thread(conv.value.value))))
              && (conv.Success? && !ThreadFound(conv) ==>
                    && (RecordFound(call) ==> r == Success(Some(Single(call.value.value))))
                    && (call.Success? && !RecordFound(call) ==>
                          && (RecordFound(audio) ==> r == Success(Some(Single(audio.value.value))))
                          && (audio.Success? && !RecordFound(audio) ==> r == Success(None))))
    ensures doc.title.Some? ==>
              var conv := ConversationFromDocument(t, doc, OneWayName(doc.title.value), mynumbers);
              var call := CallFromDocument(doc);
              var audio := AudioFromDocument(doc);
              && (conv.Failure? ==> r == Failure(conv.error))
              && (conv.Success? && !ThreadFound(conv) && call.Failure? ==> r == Failure(call.error))
              && (conv.Success? && !ThreadFound(conv) && call.Success? && !RecordFound(call) && audio.Failure? ==>
                    r == Failure(audio.error))
    ensures r.Failure? ==>
              || doc.title.None?
              || ConversationFromDocument(t, doc, OneWayName(doc.title.value), mynumbers).Failure?
              || CallFromDocument(doc).Failure?
              || AudioFromDocument(doc).Failure?
  {
    if doc.title.None? then Failure(AttributeError)
    else
      var onewayname := OneWayName(doc.title.value);
      var conv :- ConversationFromDocument(t, doc, onewayname, mynumbers);
      if conv.Some? && |conv.value.texts| > 0 then Success(Some(Thread(conv.value)))
      else
        var call :- CallFromDocument(doc);
        if call.Some? && Meaningful(call.value) then Success(Some(Single(call.value)))
        else
          var audio :- AudioFromDocument(doc);
          if audio.Some? && Meaningful(audio.value) then Success(Some(Single(audio.value)))
          else Success(None)
  }

  /** The call and audio branches never compete: a page whose container
      yields a call record has no audio record, and the other way round. */
  lemma CallOrAudio(doc: Document)
    ensures CallFromDocument(doc).Success? && CallFromDocument(doc).value.Some? ==> AudioFromDocument(doc) == Success(None)
    ensures AudioFromDocument(doc).Success? && AudioFromDocument(doc).value.Some? ==> CallFromDocument(doc) == Success(None)
  {
    CallAudioComplementary(doc);
  }

  /** A page whose only content is a telephony container with an `<audio>`
      child and a valid tag yields the audio record. */
  lemma AudioPage(t: CharTable, doc: Document, mynumbers: seq<string>)
    requires |mynumbers| > 0 && doc.title.Some? && doc.chatLog.None?
    requires AudioNode(doc).Some? && AudioFromNode(AudioNode(doc).value).Success?
    requires GetLabel(AudioNode(doc).value.tagHrefs).Success? && GetLabel(AudioNode(doc).value.tagHrefs).value.Some?
    ensures ProcessTree(t, doc, mynumbers) == Success(Some(Single(AudioFromNode(AudioNode(doc).value).value)))
  {
    CallAudioComplementary(doc);
  }
}

=== FILE: export.dfy ===
/** The batch shaping and export rules of gvproc.py: flattening the parsed
    pages into one record list, the table row each record becomes, and the
    sorted contact rows written to the contacts file and table.
 */
module Export {
  import opened Wrappers
  import opened Strings
  import opened Contacts
  import opened Records
  import opened Conversations
  import opened Dispatch

  // ---------------------------------------------------------------------
  // ExplodeTextRecords
  // ---------------------------------------------------------------------

  /** The pages that are not conversations, in order. */
  function Singles(ps: seq<Parsed>): (r: seq<Record>)
    ensures |r| <= |ps|
  {
    if |ps| == 0 then []
    else (if ps[0].Single? then [ps[0].record] else []) + Singles(ps[1..])
  }

  /** The messages of all conversations, conversation after conversation. */
  function ThreadTexts(ps: seq<Parsed>): (r: seq<Record>)
    ensures forall i :: 0 <= i < |r| ==> r[i].Text?
  {
    if |ps| == 0 then []
    else (if ps[0].Thread? then ps[0].conversation.texts else []) + ThreadTexts(ps[1..])
  }

  /** `ExplodeTextRecords`: the non-conversation records first, then every
      conversation's messages. */
  function ExplodeTextRecords(ps: seq<Parsed>): (r: seq<Record>)
    ensures |r| == |Singles(ps)| + |ThreadTexts(ps)|
    ensures r[..|Singles(ps)|] == Singles(ps) && r[|Singles(ps)|..] == ThreadTexts(ps)
  {
    Singles(ps) + ThreadTexts(ps)
  }

  /** Number of pages that are not conversations. */
  function SingleCount(ps: seq<Parsed>): nat {
    if |ps| == 0 then 0 else (if ps[0].Single? then 1 else 0) + SingleCount(ps[1..])
  }

  /** Total number of messages over all conversations. */
  function MessageCount(ps: seq<Parsed>): nat {
    if |ps| == 0 then 0
    else (if ps[0].Thread? then |ps[0].conversation.texts| else 0) + MessageCount(ps[1..])
  }

  /** The flattened list has one entry per non-conversation page plus one per
      message. */
  lemma {:induction false} ExplodeLength(ps: seq<Parsed>)
    ensures |ExplodeTextRecords(ps)| == SingleCount(ps) + MessageCount(ps)
  {
    SinglesLength(ps);
    ThreadTextsLength(ps);
  }

  lemma {:induction false} SinglesLength(ps: seq<Parsed>)
    ensures |Singles(ps)| == SingleCount(ps)
  {
    if |ps| > 0 { SinglesLength(ps[1..]); }
  }

  lemma {:induction false} ThreadTextsLength(ps: seq<Parsed>)
    ensures |ThreadTexts(ps)| == MessageCount(ps)
  {
    if |ps| > 0 { ThreadTextsLength(ps[1..]); }
  }

  lemma {:induction false} SinglesAppend(a: seq<Parsed>, b: seq<Parsed>)
    ensures Singles(a + b) == Singles(a) + Singles(b)
  {
    if |a| == 0 {
      assert a + b == b;
    } else {
      assert (a + b)[0] == a[0] && (a + b)[1..] == a[1..] + b;
      SinglesAppend(a[1..], b);
      var h := (if a[0].Single? then [a[0].record] else []);
      assert Singles(a + b) == h + Singles(a[1..] + b);
      assert Singles(a) == h + Singles(a[1..]);
    }
  }

  lemma {:induction false} ThreadTextsAppend(a: seq<Parsed>, b: seq<Parsed>)
    ensures ThreadTexts(a + b) == ThreadTexts(a) + ThreadTexts(b)
  {
    if |a| == 0 {
      assert a + b == b;
    } else {
      assert (a + b)[0] == a[0] && (a + b)[1..] == a[1..] + b;
      ThreadTextsAppend(a[1..], b);
      var h := (if a[0].Thread? then a[0].conversation.texts else []);
      assert ThreadTexts(a + b) == h + ThreadTexts(a[1..] + b);
      assert ThreadTexts(a) == h + ThreadTexts(a[1..]);
    }
  }

  /** Order: of two batches, the non-conversation records of the first come
      before those of the second, all of them before any message, and the
      messages of the first batch before those of the second. */
  lemma ExplodeAppend(a: seq<Parsed>, b: seq<Parsed>)
    ensures ExplodeTextRecords(a + b) == Singles(a) + Singles(b) + ThreadTexts(a) + ThreadTexts(b)
  {
    SinglesAppend(a, b);
    ThreadTextsAppend(a, b);
  }

  /** Exploding one page: a record stays itself, a conversation becomes its
      messages. */
  lemma ExplodeOne(p: Parsed)
    ensures p.Single? ==> ExplodeTextRecords([p]) == [p.record]
    ensures p.Thread? ==> ExplodeTextRecords([p]) == p.conversation.texts
  {
    assert [p][1..] == [];
    assert Singles([p]) == (if p.Single? then [p.record] else []) + Singles([]);
    assert ThreadTexts([p]) == (if p.Thread? then p.conversation.texts else []) + ThreadTexts([]);
  }

  /** Nothing is lost or invented: a record is in the flattened list exactly
      when it is a non-conversation page or a message of a conversation. */
  lemma {:induction false} ExplodeMembership(ps: seq<Parsed>, x: Record)
    ensures x in ExplodeTextRecords(ps) <==>
              exists i :: 0 <= i < |ps| && (ps[i] == Single(x) || (ps[i].Thread? && x in ps[i].conversation.texts))
  {
    if |ps| > 0 {
      ExplodeMembership(ps[1..], x);
      assert forall i :: 1 <= i < |ps| ==> ps[1..][i - 1] == ps[i];
      if x in ExplodeTextRecords(ps[1..]) {
        var i :| 0 <= i < |ps[1..]| && (ps[1..][i] == Single(x) || (ps[1..][i].Thread? && x in ps[1..][i].conversation.texts));
        assert ps[i + 1] == ps[1..][i];
      }
    }
  }

  /** Pages that are processed never yield a text as a single record, so in
      the flattened list the calls and recordings form a prefix and the
      messages the rest. */
  lemma ExplodePartition(ps: seq<Parsed>)
    requires forall i :: 0 <= i < |ps| && ps[i].Single? ==> !ps[i].record.Text?
    ensures forall i :: 0 <= i < |ExplodeTextRecords(ps)| ==>
              (ExplodeTextRecords(ps)[i].Text? <==> i >= SingleCount(ps))
  {
    SinglesLength(ps);
    SinglesNotText(ps);
    var r := ExplodeTextRecords(ps);
    var k := |Singles(ps)|;
    forall i | 0 <= i < |r| ensures r[i].Text? <==> i >= k {
      if i < k { assert r[i] == Singles(ps)[i]; } else { assert r[i] == ThreadTexts(ps)[i - k]; }
    }
  }

  lemma {:induction false} SinglesNotText(ps: seq<Parsed>)
    requires forall i :: 0 <= i < |ps| && ps[i].Single? ==> !ps[i].record.Text?
    ensures forall i :: 0 <= i < |Singles(ps)| ==> !Singles(ps)[i].Text?
  {
    if |ps| > 0 {
      assert forall i :: 1 <= i < |ps| ==> ps[1..][i - 1] == ps[i];
      SinglesNotText(ps[1..]);
    }
  }

  // ---------------------------------------------------------------------
  // WriteRecordsToSQL
  // ---------------------------------------------------------------------

  /** The `texttype` column. */
  datatype Direction = In | Out

  /** One row of the `texts`, `audio` or `calls` table. Times are the record
      dates, durations are whole seconds. */
  datatype Row =
    | TextRow(time: Date, number: Option<string>, message: string, texttype: Direction)
    | AudioRow(time: Date, number: Option<string>, seconds: nat, audiotype: Option<string>,
               text: Option<string>, filename: string)
    | CallRow(time: Date, number: Option<string>, duration: Option<nat>, calltype: Option<string>)

  /** The call type whose duration is not stored. */
  const Missed := "missed"

  /** The row a record is inserted as. A text sent by the owner is outgoing
      and filed under its receiver's number, any other text is incoming and
      filed under its sender's; a recording and an answered or placed call
      need a duration (`total_seconds` of None raises), a missed call stores
      none. */
  function RowOf(r: Record): (row: Result<Row>)
    ensures row.Success? ==> row.value.time == r.date
    ensures r.Text? ==> row.Success? && row.value.TextRow? && row.value.message == r.text
    ensures r.Text? ==> (row.value.texttype == Out <==> r.contact.name == Some(MeName))
    ensures r.Text? ==> row.value.number == (if row.value.texttype == Out then r.receiver.phonenumber else r.contact.phonenumber)
    ensures r.Audio? ==> (row.Success? <==> r.duration.Some?)
    ensures r.Audio? && row.Success? ==>
              row.value == AudioRow(r.date, r.contact.phonenumber, r.duration.value, r.audiotype, r.transcript, r.filename)
    ensures r.Call? ==> (row.Success? <==> r.calltype == Some(Missed) || r.duration.Some?)
    ensures r.Call? && row.Success? ==>
              && row.value.CallRow? && row.value.number == r.contact.phonenumber && row.value.calltype == r.calltype
              && (row.value.duration.None? <==> r.calltype == Some(Missed))
              && (row.value.duration.Some? ==> row.value.duration == r.duration)
  {
    match r
    case Text(contact, date, text, receiver) =>
      if contact.name == Some(MeName) then Success(TextRow(date, receiver.phonenumber, text, Out))
      else Success(TextRow(date, contact.phonenumber, text, In))
    case Audio(contact, date, duration, audiotype, transcript, filename) =>
      if duration.None? then Failure(AttributeError)
      else Success(AudioRow(date, contact.phonenumber, duration.value, audiotype, transcript, filename))
    case Call(contact, date, duration, calltype) =>
      if calltype == Some(Missed) then Success(CallRow(date, contact.phonenumber, None, calltype))
      else if duration.None? then Failure(AttributeError)
      else Success(CallRow(date, contact.phonenumber, duration, calltype))
  }

  /** The table a record goes to matches its kind. */
  predicate SameKind(r: Record, row: Row) {
    (r.Text? <==> row.TextRow?) && (r.Audio? <==> row.AudioRow?) && (r.Call? <==> row.CallRow?)
  }

  /** `WriteRecordsToSQL`: the rows in record order; the first record that
      cannot be written stops the batch. */
  function Rows(rs: seq<Record>): (r: Result<seq<Row>>)
    ensures r.Success? <==> forall i :: 0 <= i < |rs| ==> RowOf(rs[i]).Success?
    ensures r.Success? ==> |r.value| == |rs|
    ensures r.Success? ==> forall i :: 0 <= i < |rs| ==> r.value[i] == RowOf(rs[i]).value && SameKind(rs[i], r.value[i])
    ensures r.Failure? ==> exists i :: 0 <= i < |rs| && RowOf(rs[i]).Failure? && r == Failure(RowOf(rs[i]).error)
                                       && forall j :: 0 <= j < i ==> RowOf(rs[j]).Success?
  {
    if |rs| == 0 then Success([])
    else
      var head :- RowOf(rs[0]);
      var tail :- Rows(rs[1..]);
      assert forall i :: 1 <= i < |rs| ==> rs[1..][i - 1] == rs[i];
      Success([head] + tail)
  }

  /** A missed call is always written, whatever its duration field holds. */
  lemma MissedCallWritten(c: Contact, date: Date, duration: Option<nat>)
    ensures RowOf(Call(c, date, duration, Some(Missed))) == Success(CallRow(date, c.phonenumber, None, Some(Missed)))
  {
  }

  /** In a two-party thread every row is filed under the other party's
      number: the owner's messages go out to it, its own come in from it. */
  lemma ThreadRowsNumber(msgs: seq<TextRecord>, onewayname: Option<string>, mynumbers: seq<string>, b: Contact)
    requires |mynumbers| > 0
    requires !IsMine(b, mynumbers) && Truthy(b) && b.name != Some(SystemSender) && b.name != Some(MeName)
    requires forall i :: 0 <= i < |msgs| ==> Kept(msgs[i]) && (msgs[i].contact == b || IsMine(msgs[i].contact, mynumbers))
    requires exists i :: 0 <= i < |msgs| && msgs[i].contact == b
    ensures var rows := Rows(Assemble(msgs, onewayname, mynumbers).texts);
            && rows.Success? && |rows.value| == |msgs|
            && forall i :: 0 <= i < |msgs| ==>
                 && rows.value[i].number == b.phonenumber
                 && (rows.value[i].texttype == Out <==> IsMine(msgs[i].contact, mynumbers))
  {
    TwoPartyExchange(msgs, onewayname, mynumbers, b);
    var texts := Assemble(msgs, onewayname, mynumbers).texts;
    var rows := Rows(texts);
    forall i | 0 <= i < |msgs|
      ensures rows.value[i].number == b.phonenumber
      ensures rows.value[i].texttype == Out <==> IsMine(msgs[i].contact, mynumbers)
    {
      assert rows.value[i] == RowOf(texts[i]).value;
      if IsMine(msgs[i].contact, mynumbers) {
        assert texts[i].contact == Me(mynumbers) && texts[i].receiver == b;
      } else {
        assert texts[i].contact == b && b.name != Some(MeName);
      }
    }
  }

  // ---------------------------------------------------------------------
  // WriteContactRecords and ContactsToDB
  // ---------------------------------------------------------------------

  /** Python's ordering of `(name, number)` tuples: by name, then by number. */
  predicate PairLess(a: (string, string), b: (string, string)) {
    StrLess(a.0, b.0) || (a.0 == b.0 && StrLess(a.1, b.1))
  }

  lemma PairLessIrreflexive(a: (string, string))
    ensures !PairLess(a, a)
  {
    StrLessIrreflexive(a.0);
    StrLessIrreflexive(a.1);
  }

  lemma PairLessTransitive(a: (string, string), b: (string, string), c: (string, string))
    requires PairLess(a, b) && PairLess(b, c)
    ensures PairLess(a, c)
  {
    if StrLess(a.0, b.0) && StrLess(b.0, c.0) { StrLessTransitive(a.0, b.0, c.0); }
    if a.0 == b.0 && b.0 == c.0 && StrLess(a.1, b.1) && StrLess(b.1, c.1) { StrLessTransitive(a.1, b.1, c.1); }
  }

  lemma PairLessTotal(a: (string, string), b: (string, string))
    requires a != b
    ensures PairLess(a, b) || PairLess(b, a)
  {
    if a.0 != b.0 { StrLessTotal(a.0, b.0); } else { StrLessTotal(a.1, b.1); }
  }

  /** Sorted in strictly increasing tuple order, hence free of duplicates. */
  predicate SortedStrict(s: seq<(string, string)>) {
    forall i, j :: 0 <= i < j < |s| ==> PairLess(s[i], s[j])
  }

  /** Inserting a new pair into a strictly sorted list. */
  function Insert(s: seq<(string, string)>, x: (string, string)): (r: seq<(string, string)>)
    requires SortedStrict(s) && x !in s
    ensures SortedStrict(r)
    ensures |r| == |s| + 1
    ensures forall y :: y in r <==> y in s || y == x
  {
    if |s| == 0 then [x]
    else if PairLess(x, s[0]) then
      assert forall j :: 0 <= j < |s| ==> PairLess(x, s[j]) by {
        forall j | 0 < j < |s| ensures PairLess(x, s[j]) { PairLessTransitive(x, s[0], s[j]); }
      }
      [x] + s
    else
      PairLessTotal(x, s[0]);
      var rest := Insert(s[1..], x);
      assert forall y :: y in rest ==> PairLess(s[0], y) by {
        forall y | y in rest ensures PairLess(s[0], y) {
          if y != x { var j :| 0 <= j < |s[1..]| && s[1..][j] == y; assert s[j + 1] == y; }
        }
      }
      [s[0]] + rest
  }

  /** The pairs `(numbers_to_names[x], x)` of a number table. */
  ghost predicate TablePairs(m: map<string, string>, s: seq<(string, string)>) {
    forall p :: p in s <==> p.1 in m && p.0 == m[p.1]
  }

  /** The contact list of `WriteContactRecords`: one `(name, number)` pair
      per number of the table, in sorted order. */
  method ContactPairs(m: map<string, string>) returns (s: seq<(string, string)>)
    ensures SortedStrict(s)
    ensures |s| == |m|
    ensures forall p :: p in s <==> p.1 in m && p.0 == m[p.1]
  {
    var keys := m.Keys;
    s := [];
    while keys != {}
      invariant keys <= m.Keys
      invariant SortedStrict(s)
      invariant |s| + |keys| == |m.Keys|
      invariant forall p :: p in s <==> p.1 in m.Keys - keys && p.0 == m[p.1]
      decreases |keys|
    {
      var k :| k in keys;
      s := Insert(s, (m[k], k));
      keys := keys - {k};
    }
  }

  /** A strictly sorted list is determined by its elements. */
  lemma {:induction false} SortedUnique(a: seq<(string, string)>, b: seq<(string, string)>)
    requires SortedStrict(a) && SortedStrict(b)
    requires forall p :: p in a <==> p in b
    ensures a == b
    decreases |a|
  {
    assert |a| > 0 ==> a[0] in a;
    assert |b| > 0 ==> b[0] in b;
    if |a| > 0 && |b| > 0 {
      assert a[0] == b[0] by {
        if a[0] != b[0] {
          var i :| 0 <= i < |b| && b[i] == a[0];
          var j :| 0 <= j < |a| && a[j] == b[0];
          assert i > 0 && j > 0;
          PairLessTransitive(a[0], a[j], b[i]);
          PairLessIrreflexive(a[0]);
        }
      }
      assert a == [a[0]] + a[1..] && b == [b[0]] + b[1..];
      forall p ensures p in a[1..] <==> p in b[1..] {
        if p in a[1..] {
          var j :| 0 <= j < |a[1..]| && a[1..][j] == p;
          assert PairLess(a[0], a[j + 1]);
          PairLessIrreflexive(p);
          assert p in b && p != b[0];
        }
        if p in b[1..] {
          var j :| 0 <= j < |b[1..]| && b[1..][j] == p;
          assert PairLess(b[0], b[j + 1]);
          PairLessIrreflexive(p);
          assert p in a && p != a[0];
        }
      }
      SortedUnique(a[1..], b[1..]);
    }
  }

  /** `ContactsToDB` passes the pairs through `set()` before sorting. The
      table keys are distinct numbers, so no pair repeats; any sorted list
      of the same pairs is the very list `WriteContactRecords` writes, and
      the file and the table receive the same contacts in the same order. */
  lemma DedupUnchanged(m: map<string, string>, fileRows: seq<(string, string)>, dbRows: seq<(string, string)>)
    requires SortedStrict(fileRows) && TablePairs(m, fileRows)
    requires SortedStrict(dbRows) && TablePairs(m, dbRows)
    ensures fileRows == dbRows
  {
    SortedUnique(fileRows, dbRows);
  }

  /** `number_notes.get(number, "")`. */
  function NoteFor(notes: map<string, string>, number: string): (r: string)
    ensures number in notes ==> r == notes[number]
    ensures number !in notes ==> r == ""
  {
    if number in notes then notes[number] else ""
  }

  /** The `(name, number, note)` rows written for sorted contact pairs. */
  function ContactRows(pairs: seq<(string, string)>, notes: map<string, string>): (r: seq<(string, string, string)>)
    ensures |r| == |pairs|
    ensures forall i :: 0 <= i < |pairs| ==>
              r[i].0 == pairs[i].0 && r[i].1 == pairs[i].1 && r[i].2 == NoteFor(notes, pairs[i].1)
  {
    if |pairs| == 0 then []
    else [(pairs[0].0, pairs[0].1, NoteFor(notes, pairs[0].1))] + ContactRows(pairs[1..], notes)
  }

  /** `WriteContactRecords`/`ContactsToDB`: every number of the table gets a
      row carrying its name and its note (empty when it has none), sorted
      by name and then number. */
  method WriteContacts(m: map<string, string>, notes: map<string, string>) returns (rows: seq<(string, string, string)>)
    ensures |rows| == |m|
    ensures forall i, j :: 0 <= i < j < |rows| ==> PairLess((rows[i].0, rows[i].1), (rows[j].0, rows[j].1))
    ensures forall i :: 0 <= i < |rows| ==> rows[i].1 in m && rows[i].0 == m[rows[i].1] && rows[i].2 == NoteFor(notes, rows[i].1)
    ensures forall n :: n in m ==> exists i :: 0 <= i < |rows| && rows[i].1 == n
  {
    var pairs := ContactPairs(m);
    rows := ContactRows(pairs, notes);
    forall n | n in m ensures exists i :: 0 <= i < |rows| && rows[i].1 == n {
      assert (m[n], n) in pairs;
      var i :| 0 <= i < |pairs| && pairs[i] == (m[n], n);
      assert rows[i].1 == n;
    }
    forall i | 0 <= i < |rows| ensures rows[i].1 in m && rows[i].0 == m[rows[i].1] {
      assert pairs[i] in pairs;
    }
  }
}

=== FILE: legacy.dfy ===
/** The older parser, src/gvoiceParser/gvoiceParser.py. It shares the field
    extractors of gvParserLib.py (`unescape`, `parse_time`, `get_label` and
    `as_xhtml` are the same code, modelled once in ParseTools) but differs
    in its rules:
    - elements are tested for presence (`is None`), not for truthiness;
    - `Contact.test` asks whether a field is not None, empty or not;
    - a conversation keeps every message and is with the first named sender;
    - an audio record's date is moved back by its (mandatory) duration;
    - the one-way title is sliced from position 7;
    - once a chat log is found, its result is final, even when it is None.
 */
module Legacy {
  import opened Wrappers
  import opened Strings
  import opened Contacts
  import opened ParseTools
  import opened Records
  import Dispatch

  /** `Contact.test`: some field is present, possibly as an empty string. */
  predicate Test(c: Contact) {
    c.phonenumber.Some? || c.name.Some?
  }

  /** On extracted contacts, whose fields are never empty strings, `test`
      and the newer truthiness coincide; in general `test` is weaker. */
  lemma TestVersusTruthy(c: Contact)
    ensures Truthy(c) ==> Test(c)
    ensures Normalised(c) ==> (Test(c) <==> Truthy(c))
    ensures Test(Contact(None, Some(""))) && !Truthy(Contact(None, Some("")))
  {
  }

  /** `Contact.fromNode` lookup: the sender element when it exists, else the
      contributor element. */
  function Locate(l: ContactLookup): (r: Option<TelNode>)
    ensures l.sender.Some? ==> r == l.sender
    ensures l.sender.None? ==> r == l.contributor
  {
    if l.sender.Some? then l.sender else l.contributor
  }

  /** The two revisions locate the same element except when the sender
      element exists but has no children: the old one keeps it, the new one
      moves on to the contributor. */
  lemma LocateRevisions(l: ContactLookup)
    ensures l.sender.None? || l.sender.value.hasChildren ==> Locate(l) == Contacts.Locate(l)
    ensures l.sender.Some? && !l.sender.value.hasChildren ==>
              Locate(l) == l.sender && Contacts.Locate(l) == l.contributor
  {
  }

  /** `Contact.fromNode`: the fields are normalised exactly as in the newer
      parser (a blank name becomes None, the number is the first digit run);
      nothing located makes `findtext` fail on None. */
  function FromLookup(l: ContactLookup): (r: Result<Contact>)
    ensures r.Failure? <==> Locate(l).None?
    ensures r.Failure? ==> r.error == AttributeError
    ensures r.Success? ==> r.value == FromTel(Locate(l).value) && Normalised(r.value)
  {
    match Locate(l)
    case None => Failure(AttributeError)
    case Some(tel) =>
      FromTelNormalised(tel);
      Success(FromTel(tel))
  }

  /** `Text`. */
  datatype TextMessage = TextMessage(contact: Contact, date: Date, text: string)

  datatype TextConversation = TextConversation(contact: Contact, texts: seq<TextMessage>)

  /** `Call`. */
  datatype PhoneCall = PhoneCall(contact: Contact, date: Date, duration: Option<nat>, calltype: Option<string>)

  /** `Audio`. */
  datatype Recording = Recording(contact: Contact, audiotype: Option<string>, date: Date, duration: nat,
                                 text: Option<string>, filename: string)

  /** What `process_tree` returns when it returns something. */
  datatype Parsed = Conversation(conversation: TextConversation) | CallRecord(call: PhoneCall) | AudioRecord(audio: Recording)

  /** `Text.fromNode`: a missing quote makes `re.sub` fail. */
  function TextFromNode(t: CharTable, m: MessageNode): (r: Result<TextMessage>)
    ensures r.Failure? <==> || FromLookup(m.contact).Failure? || !m.date.Stamped? || m.quote.None?
                            || Unescape(t, m.quote.value).Failure?
    ensures FromLookup(m.contact).Success? && !m.date.Stamped? ==> r == Failure(ReadDate(m.date).error)
    ensures FromLookup(m.contact).Success? && m.date.Stamped? && m.quote.None? ==> r == Failure(TypeError)
    ensures r.Success? ==> m.date == Stamped(r.value.date) && Normalised(r.value.contact)
    ensures r.Success? ==> FromLookup(m.contact) == Success(r.value.contact)
    ensures r.Success? ==> Unescape(t, m.quote.value) == Success(r.value.text)
  {
    var contact :- FromLookup(m.contact);
    var date :- ReadDate(m.date);
    if m.quote.None? then Failure(TypeError)
    else
      var text :- Unescape(t, m.quote.value);
      Success(TextMessage(contact, date, text))
  }

  /** e is the error of the first message node `Text.fromNode` rejects:
      every node before it is accepted. */
  predicate FirstTextFailure(t: CharTable, ms: seq<MessageNode>, e: PyError) {
    exists i :: 0 <= i < |ms| && TextFromNode(t, ms[i]) == Failure(e) && AcceptedBefore(t, ms, i)
  }

  /** `Text.fromNode` accepts every message node before position i. */
  predicate AcceptedBefore(t: CharTable, ms: seq<MessageNode>, i: int) {
    forall j :: 0 <= j < i && j < |ms| ==> TextFromNode(t, ms[j]).Success?
  }

  /** Every message node parsed in order; the first failure escapes. */
  function ParseTexts(t: CharTable, ms: seq<MessageNode>): (r: Result<seq<TextMessage>>)
    ensures r.Success? ==> |r.value| == |ms|
    ensures r.Success? ==> forall i :: 0 <= i < |ms| ==> TextFromNode(t, ms[i]) == Success(r.value[i])
    ensures r.Failure? <==> exists i :: 0 <= i < |ms| && TextFromNode(t, ms[i]).Failure?
  {
    if |ms| == 0 then Success([])
    else
      var head :- TextFromNode(t, ms[0]);
      var rest :- ParseTexts(t, ms[1..]);
      assert forall i :: 1 <= i < |ms| ==> ms[1..][i - 1] == ms[i];
      Success([head] + rest)
  }

  /** The error that escapes ParseTexts is the first failing node's: every
      node before it parses. */
  lemma {:induction false} ParseTextsFirstFailure(t: CharTable, ms: seq<MessageNode>)
    ensures ParseTexts(t, ms).Failure? ==> FirstTextFailure(t, ms, ParseTexts(t, ms).error)
  {
    if |ms| > 0 {
      if TextFromNode(t, ms[0]).Failure? {
        assert AcceptedBefore(t, ms, 0);
      } else if ParseTexts(t, ms[1..]).Failure? {
        ParseTextsFirstFailure(t, ms[1..]);
        var i :| 0 <= i < |ms| - 1 && TextFromNode(t, ms[1..][i]) == Failure(ParseTexts(t, ms[1..]).error)
                 && AcceptedBefore(t, ms[1..], i);
        assert AcceptedBefore(t, ms, i + 1);
      }
    }
  }

  /** The sender of the first message whose sender has a name. */
  function FirstNamed(texts: seq<TextMessage>): (r: Option<Contact>)
    ensures r.None? <==> forall i :: 0 <= i < |texts| ==> texts[i].contact.name.None?
    ensures r.Some? ==> exists i :: 0 <= i < |texts| && texts[i].contact == r.value && FirstNamedAt(texts, i)
  {
    if |texts| == 0 then None
    else if texts[0].contact.name.Some? then
      assert FirstNamedAt(texts, 0);
      Some(texts[0].contact)
    else
      var r := FirstNamed(texts[1..]);
      assert forall i :: 1 <= i < |texts| ==> texts[1..][i - 1] == texts[i];
      assert r.Some? ==> exists i :: 0 <= i < |texts| && texts[i].contact == r.value && FirstNamedAt(texts, i) by {
        if r.Some? {
          var i :| 0 <= i < |texts| - 1 && texts[1..][i].contact == r.value && FirstNamedAt(texts[1..], i);
          assert FirstNamedAt(texts, i + 1);
        }
      }
      r
  }

  /** Message i is the first with a named sender. */
  predicate FirstNamedAt(texts: seq<TextMessage>, i: nat) {
    && i < |texts|
    && texts[i].contact.name.Some?
    && forall j :: 0 <= j < i ==> texts[j].contact.name.None?
  }

  /** `TextConversation.fromNode`: None without message nodes; otherwise one
      text per node, in order and unfiltered, with the first named sender as
      the contact, or a contact named after the title when nobody is named. */
  function ConversationFromNode(t: CharTable, chat: ChatLogNode, onewayname: Option<string>)
    : (r: Result<Option<TextConversation>>)
    ensures |chat.messages| == 0 <==> r == Success(None)
    ensures r.Success? && r.value.Some? ==>
              var c := r.value.value;
              && ParseTexts(t, chat.messages) == Success(c.texts)
              && |c.texts| == |chat.messages|
              && (FirstNamed(c.texts).Some? ==> c.contact == FirstNamed(c.texts).value)
              && (FirstNamed(c.texts).None? ==> c.contact == Contact(onewayname, None))
    ensures r.Failure? <==> ParseTexts(t, chat.messages).Failure?
  {
    if |chat.messages| == 0 then Success(None)
    else
      var texts :- ParseTexts(t, chat.messages);
      var contact := match FirstNamed(texts)
        case Some(c) => c
        case None => Contact(onewayname, None);
      Success(Some(TextConversation(contact, texts)))
  }

  /** The duration element is present and the older `parse_time` raises on
      it. */
  predicate CallDurationFails(n: HaudioNode) {
    n.durationText.Some? && ParseSeconds(n.durationText.value).Failure?
  }

  /** `Call.fromNode`. The duration is a plain number of seconds, so it
      cannot overflow. */
  function CallFromNode(n: HaudioNode): (r: Result<PhoneCall>)
    ensures r.Failure? <==> || FromLookup(n.contact).Failure? || !n.published.Stamped? || CallDurationFails(n)
                            || GetLabel(n.tagHrefs).Failure?
    ensures FromLookup(n.contact).Success? && !n.published.Stamped? ==> r == Failure(ReadDate(n.published).error)
    ensures r.Success? ==> n.published == Stamped(r.value.date) && FromLookup(n.contact) == Success(r.value.contact)
    ensures r.Success? ==> if n.durationText.None? then r.value.duration.None?
                           else r.value.duration.Some? && ParseSeconds(n.durationText.value) == Success(r.value.duration.value)
    ensures r.Success? ==> GetLabel(n.tagHrefs) == Success(r.value.calltype)
  {
    var contact :- FromLookup(n.contact);
    var date :- ReadDate(n.published);
    var duration :- if n.durationText.None? then Success(None)
                    else (var s :- ParseSeconds(n.durationText.value); Success(Some(s)));
    var calltype :- GetLabel(n.tagHrefs);
    Success(PhoneCall(contact, date, duration, calltype))
  }

  /** The mandatory duration of a recording cannot be had: the element is
      missing (`re.search` on None), its text does not parse, or it is too
      long for the `timedelta` it is turned into. */
  predicate AudioDurationFails(n: HaudioNode) {
    || n.durationText.None?
    || ParseSeconds(n.durationText.value).Failure?
    || ParseSeconds(n.durationText.value).value >= TimedeltaLimit
  }

  /** `Audio.fromNode`. The duration is mandatory and the date is the
      published time moved back by it, through `timedelta(0, duration)`; the
      published date is read after the duration is parsed and before that
      `timedelta` is built. A
      description element without a full-text span makes `len(None)` fail;
      a non-empty full text averages the confidence values, which divides
      by zero when there are none. */
  function AudioFromNode(n: HaudioNode): (r: Result<Recording>)
    ensures r.Failure? <==>
              || FromLookup(n.contact).Failure? || AudioDurationFails(n) || !n.published.Stamped?
              || LegacyTranscript(n.description).Failure?
              || n.audio.None? || n.audio.value.src.None? || GetLabel(n.tagHrefs).Failure?
    ensures r.Success? ==> FromLookup(n.contact) == Success(r.value.contact)
    ensures r.Success? ==> n.durationText.Some? && ParseTime(n.durationText.value) == Success(r.value.duration)
    ensures (&& FromLookup(n.contact).Success? && n.durationText.Some?
             && ParseSeconds(n.durationText.value).Success? && !n.published.Stamped?) ==>
              r == Failure(ReadDate(n.published).error)
    ensures r.Success? ==> n.published == Stamped(r.value.date + r.value.duration)
    ensures r.Success? ==> LegacyTranscript(n.description) == Success(r.value.text)
    ensures r.Success? ==> n.audio.Some? && n.audio.value.src == Some(r.value.filename)
    ensures r.Success? ==> GetLabel(n.tagHrefs) == Success(r.value.audiotype)
  {
    var contact :- FromLookup(n.contact);
    if n.durationText.None? then Failure(TypeError)
    else
      var duration :- ParseSeconds(n.durationText.value);
      var published :- ReadDate(n.published);
      if duration >= TimedeltaLimit then Failure(OverflowError)
      else
        var date := published - duration;
        var text :- LegacyTranscript(n.description);
        if n.audio.None? then Failure(AttributeError)
        else if n.audio.value.src.None? then Failure(KeyError)
        else
          var audiotype :- GetLabel(n.tagHrefs);
          Success(Recording(contact, audiotype, date, duration, text, n.audio.value.src.value))
  }

  /** The description handling of `Audio.fromNode`. */
  function LegacyTranscript(d: Option<DescriptionNode>): (r: Result<Option<string>>)
    ensures d.None? ==> r == Success(None)
    ensures d.Some? && d.value.fullText.None? ==> r == Failure(TypeError)
    ensures d.Some? && d.value.fullText == Some([]) ==> r == Success(None)
    ensures r.Success? && r.value.Some? ==>
              d.Some? && d.value.fullText == r.value && |r.value.value| > 0 && r.value.value != NoTranscript
    ensures d.Some? && d.value.fullText.Some? && |d.value.fullText.value| > 0 && d.value.confidenceCount == 0 ==>
              r == Failure(ZeroDivisionError)
    ensures d.Some? && d.value.fullText.Some? && |d.value.fullText.value| > 0 && d.value.confidenceCount > 0 ==>
              r == Success(if d.value.fullText.value == NoTranscript then None else d.value.fullText)
  {
    if d.None? then Success(None)
    else if d.value.fullText.None? then Failure(TypeError)
    else if |d.value.fullText.value| == 0 then Success(None)
    else if d.value.confidenceCount == 0 then Failure(ZeroDivisionError)
    else if d.value.fullText.value != NoTranscript then Success(d.value.fullText)
    else Success(None)
  }

  /** The one-way name: the title after "Me to " and one more character. */
  function OneWayName(title: string): (r: Option<string>)
    ensures r.Some? <==> StartsWith(title, "Me to ")
    ensures r.Some? && |title| > 6 ==> title == "Me to " + [title[6]] + r.value
  {
    if StartsWith(title, "Me to ") then Some(Drop(title, 7)) else None
  }

  /** The slice starts one character too late: "Me to Bob" gives "ob", where
      the newer parser gives "Bob". */
  lemma OneWayNameDropsFirstCharacter(title: string)
    requires StartsWith(title, "Me to ") && |title| > 6
    ensures Dispatch.OneWayName(title) == Some([title[6]] + OneWayName(title).value)
  {
    assert title[..5] == title[..6][..5] == "Me to";
    assert title[6..] == [title[6]] + title[7..];
  }

  lemma OneWayNameExample()
    ensures OneWayName("Me to Bob") == Some("ob")
  {
    assert "Me to Bob"[..6] == "Me to ";
  }

  /** `process_tree`. A page with a chat log is a conversation (or None when
      the log holds no messages) whatever else it holds; otherwise its
      telephony container is a call when it has no `<audio>` element and an
      audio record when it has one. A page with neither fails on None. */
  function ProcessTree(t: CharTable, doc: Document): (r: Result<Option<Parsed>>)
    ensures doc.chatLog.Some? && doc.title.None? ==> r == Failure(AttributeError)
    ensures doc.chatLog.Some? && doc.title.Some? ==>
              match ConversationFromNode(t, doc.chatLog.value, OneWayName(doc.title.value))
              case Failure(e) => r == Failure(e)
              case Success(None) => r == Success(None)
              case Success(Some(c)) => r == Success(Some(Conversation(c)))
    ensures doc.chatLog.None? && doc.haudio.None? ==> r == Failure(AttributeError)
    ensures r.Success? && r.value.Some? && r.value.value.CallRecord? ==>
              doc.chatLog.None? && doc.haudio.Some? && doc.haudio.value.audio.None?
    ensures r.Success? && r.value.Some? && r.value.value.AudioRecord? ==>
              doc.chatLog.None? && doc.haudio.Some? && doc.haudio.value.audio.Some?
    ensures doc.chatLog.None? && doc.haudio.Some? && doc.haudio.value.audio.None? ==>
              r == match CallFromNode(doc.haudio.value)
                   case Failure(e) => Failure(e)
                   case Success(call) => Success(Some(CallRecord(call)))
    ensures doc.chatLog.None? && doc.haudio.Some? && doc.haudio.value.audio.Some? ==>
              r == match AudioFromNode(doc.haudio.value)
                   case Failure(e) => Failure(e)
                   case Success(audio) => Success(Some(AudioRecord(audio)))
  {
    if doc.chatLog.Some? then
      if doc.title.None? then Failure(AttributeError)
      else
        var conv :- ConversationFromNode(t, doc.chatLog.value, OneWayName(doc.title.value));
        match conv
        case None => Success(None)
        case Some(c) => Success(Some(Conversation(c)))
    else if doc.haudio.None? then Failure(AttributeError)
    else if doc.haudio.value.audio.None? then
      var call :- CallFromNode(doc.haudio.value);
      Success(Some(CallRecord(call)))
    else
      var audio :- AudioFromNode(doc.haudio.value);
      Success(Some(AudioRecord(audio)))
  }

  /** No fallback: a page whose chat log holds no messages yields None even
      when it also holds a call. */
  lemma EmptyChatLogHidesCall(t: CharTable, doc: Document)
    requires doc.chatLog.Some? && |doc.chatLog.value.messages| == 0 && doc.title.Some?
    ensures ProcessTree(t, doc) == Success(None)
  {
  }
}

=== FILE: parsetools.dfy ===
/** The field extractors of `ParseTools` and `Parser.as_xhtml`. Both
    revisions of the parser carry the same text for `unescape`, `get_label`
    and `as_xhtml`, and the same pattern for `parse_time`, so they are
    defined once here; only the current `parse_time` builds a `timedelta`.
 */
module ParseTools {
  import opened Wrappers
  import opened Strings

  // ---------------------------------------------------------------------
  // parse_time: re.search('(\d\d+):(\d\d):(\d\d)', s)
  // ---------------------------------------------------------------------

  /** The duration pattern matches at position p. Backtracking cannot help
      the greedy hour group, since giving back a digit leaves a digit where
      the ':' must be, so the hours are exactly the maximal digit run at p. */
  predicate TimeMatchAt(s: string, p: nat)
    requires p <= |s|
  {
    var n := DigitRunLen(s, p);
    && n >= 2 && p + n + 6 <= |s|
    && s[p + n] == ':' && IsDigit(s[p + n + 1]) && IsDigit(s[p + n + 2])
    && s[p + n + 3] == ':' && IsDigit(s[p + n + 4]) && IsDigit(s[p + n + 5])
  }

  /** The leftmost match position at or after `from`. */
  function FindTimeMatch(s: string, from: nat): (r: Option<nat>)
    requires from <= |s|
    ensures r.None? <==> forall p :: from <= p <= |s| ==> !TimeMatchAt(s, p)
    ensures r.Some? ==> from <= r.value <= |s| && TimeMatchAt(s, r.value)
    ensures r.Some? ==> forall p :: from <= p < r.value ==> !TimeMatchAt(s, p)
    decreases |s| - from
  {
    if TimeMatchAt(s, from) then Some(from)
    else if from == |s| then None
    else FindTimeMatch(s, from + 1)
  }

  /** The length of a span of hours, minutes and seconds. */
  function Seconds(hours: nat, minutes: nat, seconds: nat): nat {
    hours * 3600 + minutes * 60 + seconds
  }

  /** The seconds encoded by the match at p. */
  function MatchSeconds(s: string, p: nat): nat
    requires p <= |s| && TimeMatchAt(s, p)
  {
    FieldSeconds(s, p, DigitRunLen(s, p))
  }

  function FieldSeconds(s: string, p: nat, n: nat): nat
    requires p + n + 6 <= |s|
    requires AllDigits(s[p..p + n])
    requires AllDigits(s[p + n + 1..p + n + 3]) && AllDigits(s[p + n + 4..p + n + 6])
  {
    Seconds(DecimalValue(s[p..p + n]),
            DecimalValue(s[p + n + 1..p + n + 3]),
            DecimalValue(s[p + n + 4..p + n + 6]))
  }

  /** The pattern matches at p and nowhere before it. */
  predicate LeftmostTimeMatch(s: string, p: nat) {
    p <= |s| && TimeMatchAt(s, p) && forall q :: 0 <= q < p ==> !TimeMatchAt(s, q)
  }

  /** The older parser's `parse_time`: the seconds of the leftmost match,
      summed as plain integers; without a match the `.group` call on None
      raises AttributeError. */
  function ParseSeconds(s: string): (r: Result<nat>)
    ensures r.Failure? <==> forall p :: 0 <= p <= |s| ==> !TimeMatchAt(s, p)
    ensures r.Failure? ==> r.error == AttributeError
  {
    match FindTimeMatch(s, 0)
    case None => Failure(AttributeError)
    case Some(p) => Success(MatchSeconds(s, p))
  }

  /** `timedelta` holds at most 999999999 days and 86399 seconds; a span of
      this many seconds or more raises OverflowError. */
  const TimedeltaLimit: nat := 86400 * 1000000000

  /** The current parser's `parse_time`: the same seconds, built into a
      `timedelta`, which overflows from `TimedeltaLimit` on. */
  function ParseTime(s: string): (r: Result<nat>)
    ensures r.Failure? && r.error == AttributeError <==> forall p :: 0 <= p <= |s| ==> !TimeMatchAt(s, p)
    ensures r.Failure? ==> r.error == AttributeError || r.error == OverflowError
    ensures r.Failure? && r.error == OverflowError <==> ParseSeconds(s).Success? && ParseSeconds(s).value >= TimedeltaLimit
    ensures r.Success? ==> ParseSeconds(s) == r && r.value < TimedeltaLimit
  {
    var seconds :- ParseSeconds(s);
    if seconds >= TimedeltaLimit then Failure(OverflowError) else Success(seconds)
  }

  /** The current parser's result given the older one's. */
  function Bounded(r: Result<nat>): Result<nat> {
    if r.Success? && r.value >= TimedeltaLimit then Failure(OverflowError) else r
  }

  lemma {:induction false} DigitRunLenOf(s: string, p: nat, k: nat)
    requires p + k <= |s|
    requires forall i :: p <= i < p + k ==> IsDigit(s[i])
    requires p + k == |s| || !IsDigit(s[p + k])
    ensures DigitRunLen(s, p) == k
    decreases k
  {
    if k > 0 {
      DigitRunLenOf(s, p + 1, k - 1);
    }
  }

  lemma MatchSecondsOf(s: string, p: nat, h: string, m: string, sec: string)
    requires p <= |s| && TimeMatchAt(s, p)
    requires DigitRunLen(s, p) == |h|
    requires s[p..p + |h|] == h
    requires s[p + |h| + 1..p + |h| + 3] == m && s[p + |h| + 4..p + |h| + 6] == sec
    ensures AllDigits(h) && AllDigits(m) && AllDigits(sec)
    ensures MatchSeconds(s, p) == Seconds(DecimalValue(h), DecimalValue(m), DecimalValue(sec))
  {
  }

  /** The value of `parse_time` is the value of the leftmost match, unless
      the current parser's `timedelta` overflows on it. */
  lemma ParseTimeValue(s: string, p: nat)
    requires LeftmostTimeMatch(s, p)
    ensures ParseSeconds(s) == Success(MatchSeconds(s, p))
    ensures ParseTime(s) == Bounded(Success(MatchSeconds(s, p)))
  {
    assert FindTimeMatch(s, 0) == Some(p);
  }

  /** A text holding `h:mm:ss` (hours of two or more digits) after a prefix
      without digits parses to that number of seconds, whatever follows;
      the current parser raises OverflowError when that is 10^9 days or
      more. */
  lemma ParseTimeOfFields(pre: string, h: string, m: string, sec: string, post: string)
    requires forall k :: 0 <= k < |pre| ==> !IsDigit(pre[k])
    requires |h| >= 2 && AllDigits(h)
    requires |m| == 2 && AllDigits(m) && |sec| == 2 && AllDigits(sec)
    ensures var s := pre + h + ":" + m + ":" + sec + post;
            var v := Seconds(DecimalValue(h), DecimalValue(m), DecimalValue(sec));
            && ParseSeconds(s) == Success(v)
            && ParseTime(s) == if v >= TimedeltaLimit then Failure(OverflowError) else Success(v)
  {
    TimeTextSplit(pre, h, m, sec, post);
    ParseTimeAt(pre + h + ":" + m + ":" + sec + post, |pre|, h, m, sec);
  }

  /** 24000000000 hours are 10^9 days: the older parser returns the seconds,
      the current one raises OverflowError. */
  lemma ParseTimeOverflowExample(s: string)
    requires s == "24000000000:00:00"
    ensures ParseSeconds(s) == Success(TimedeltaLimit)
    ensures ParseTime(s) == Failure(OverflowError)
  {
    HourDigitsValue();
    OverflowTextSplit();
    ParseTimeOfFields("", "24000000000", "00", "00", "");
  }

  lemma OverflowTextSplit()
    ensures "" + "24000000000" + ":" + "00" + ":" + "00" + "" == "24000000000:00:00"
  {
  }

  lemma HourDigitsValue()
    ensures AllDigits("24000000000") && DecimalValue("24000000000") == 24000000000
    ensures AllDigits("00") && DecimalValue("00") == 0
  {
    LowHourDigitsValue();
    assert "2400000"[..6] == "240000";
    assert "24000000"[..7] == "2400000";
    assert "240000000"[..8] == "24000000";
    assert "2400000000"[..9] == "240000000";
    assert "24000000000"[..10] == "2400000000";
    assert "00"[..1] == "0" && "0"[..0] == "";
  }

  lemma LowHourDigitsValue()
    ensures AllDigits("240000") && DecimalValue("240000") == 240000
  {
    assert "2"[..0] == "";
    assert "24"[..1] == "2";
    assert "240"[..2] == "24";
    assert "2400"[..3] == "240";
    assert "24000"[..4] == "2400";
    assert "240000"[..5] == "24000";
  }

  /** Where each piece of `pre + h:mm:ss + post` sits in the text. */
  lemma TimeTextSplit(pre: string, h: string, m: string, sec: string, post: string)
    requires |m| == 2 && |sec| == 2
    ensures var s, p, n := pre + h + ":" + m + ":" + sec + post, |pre|, |h|;
            && p + n + 6 <= |s| && (forall k :: 0 <= k < p ==> s[k] == pre[k])
            && s[p..p + n] == h && s[p + n] == ':' && s[p + n + 1..p + n + 3] == m
            && s[p + n + 3] == ':' && s[p + n + 4..p + n + 6] == sec
  {
    var s, p, n := pre + h + ":" + m + ":" + sec + post, |pre|, |h|;
    assert forall k :: 0 <= k < p ==> s[k] == pre[k];
    assert s[p..p + n] == h;
    assert s[p + n] == ':' && s[p + n + 3] == ':';
    assert s[p + n + 1..p + n + 3] == m && s[p + n + 4..p + n + 6] == sec;
  }

  /** The same, with the fields given by their positions in the text. */
  lemma ParseTimeAt(s: string, p: nat, h: string, m: string, sec: string)
    requires |h| >= 2 && AllDigits(h)
    requires |m| == 2 && AllDigits(m) && |sec| == 2 && AllDigits(sec)
    requires p + |h| + 6 <= |s| && forall k :: 0 <= k < p ==> !IsDigit(s[k])
    requires s[p..p + |h|] == h && s[p + |h|] == ':' && s[p + |h| + 1..p + |h| + 3] == m
    requires s[p + |h| + 3] == ':' && s[p + |h| + 4..p + |h| + 6] == sec
    ensures ParseSeconds(s) == Success(Seconds(DecimalValue(h), DecimalValue(m), DecimalValue(sec)))
    ensures ParseTime(s) == Bounded(ParseSeconds(s))
  {
    TimeMatchOfFields(s, p, h, m, sec);
    NoTimeMatchBefore(s, p);
    ParseTimeValue(s, p);
    MatchSecondsOf(s, p, h, m, sec);
  }

  lemma TimeMatchOfFields(s: string, p: nat, h: string, m: string, sec: string)
    requires |h| >= 2 && AllDigits(h)
    requires |m| == 2 && AllDigits(m) && |sec| == 2 && AllDigits(sec)
    requires p + |h| + 6 <= |s|
    requires s[p..p + |h|] == h && s[p + |h|] == ':' && s[p + |h| + 1..p + |h| + 3] == m
    requires s[p + |h| + 3] == ':' && s[p + |h| + 4..p + |h| + 6] == sec
    ensures DigitRunLen(s, p) == |h| && TimeMatchAt(s, p)
  {
    var n := |h|;
    assert forall k :: p <= k < p + n ==> s[k] == h[k - p];
    assert s[p + n + 1] == m[0] && s[p + n + 2] == m[1];
    assert s[p + n + 4] == sec[0] && s[p + n + 5] == sec[1];
    DigitRunLenOf(s, p, n);
  }

  /** Without a digit before p the pattern cannot match before p. */
  lemma NoTimeMatchBefore(s: string, p: nat)
    requires p <= |s| && forall k :: 0 <= k < p ==> !IsDigit(s[k])
    ensures forall q :: 0 <= q < p ==> !TimeMatchAt(s, q)
  {
    forall q | 0 <= q < p
      ensures !TimeMatchAt(s, q)
    {
      DigitRunLenOf(s, q, 0);
    }
  }

  /** A one-digit hour does not match, nor does a text without digits. */
  lemma ParseTimeRejects()
    ensures ParseSeconds("1:02:03").Failure? && ParseTime("1:02:03").Failure?
    ensures ParseSeconds("abc").Failure? && ParseTime("abc").Failure?
  {
    var t := "1:02:03";
    forall p | 0 <= p <= |t|
      ensures !TimeMatchAt(t, p)
    {
      if p < |t| && IsDigit(t[p]) {
        if p == 0 { DigitRunLenOf(t, 0, 1); }
        else if p == 2 { DigitRunLenOf(t, 2, 2); }
        else if p == 3 { DigitRunLenOf(t, 3, 1); }
        else if p == 5 { DigitRunLenOf(t, 5, 2); }
        else { DigitRunLenOf(t, 6, 1); }
      }
    }
  }

  // ---------------------------------------------------------------------
  // unescape: re.sub("&#?\w+;", fixup, text)
  // ---------------------------------------------------------------------

  /** The largest value Python 2's `unichr` accepts before its C-int argument
      conversion raises OverflowError. */
  const IntMax: nat := 0x7FFF_FFFF

  /** What the code gets from the platform: the largest code point `unichr`
      accepts (0xFFFF or 0x10FFFF depending on the build), the character for
      a code point, and the `htmlentitydefs.name2codepoint` table. */
  datatype CharTable = CharTable(maxCode: nat, chr: nat -> char, entities: map<string, nat>)

  /** Every named entity is a code point `unichr` accepts. This holds for
      the real `name2codepoint` table, whose largest code point (9830) is
      below 0xFFFF. */
  predicate EntitiesInRange(t: CharTable) {
    forall name :: name in t.entities ==> t.entities[name] <= t.maxCode
  }

  /** m is a whole match of `&#?\w+;`. When m[1] is '#' the optional group
      must take it, since `\w` cannot match '#'. */
  predicate IsReference(m: string) {
    && |m| >= 3 && m[0] == '&' && m[|m| - 1] == ';'
    && var j := if m[1] == '#' then 2 else 1;
       && j < |m| - 1
       && forall k :: j <= k < |m| - 1 ==> IsWordChar(m[k])
  }

  /** Length of the entity reference that starts s, 0 when the pattern does
      not match there. Together with `EntityLenComplete`: n is positive
      exactly when some prefix of s is a reference, and then it is that
      prefix's length. */
  function EntityLen(s: string): (n: nat)
    ensures n == 0 || (3 <= n <= |s| && s[0] == '&' && s[n - 1] == ';')
    ensures n > 0 ==> IsReference(s[..n])
    ensures n > 0 && s[1] == '#' ==> n >= 4
    ensures n > 0 ==> forall k :: 1 <= k < n - 1 ==> IsWordChar(s[k]) || (k == 1 && s[k] == '#')
  {
    if |s| == 0 || s[0] != '&' then 0
    else
      var j := if |s| > 1 && s[1] == '#' then 2 else 1;
      var k := WordRunLen(s, j);
      if k > 0 && j + k < |s| && s[j + k] == ';' then j + k + 1 else 0
  }

  /** `fixup` on one matched reference m: a numeric reference becomes its
      character, a known name its entity's character; a malformed number,
      a numeric code point above `maxCode` (ValueError) or an unknown name
      (KeyError) leaves m as it is. OverflowError is not caught, nor is the
      ValueError of a named entity above `maxCode`, since the named branch
      catches only KeyError. */
  function Fixup(t: CharTable, m: string): (r: Result<string>)
    requires |m| > 0 && EntityLen(m) == |m|
    ensures r.Failure? ==> r.error == OverflowError || r.error == ValueError
    ensures r.Failure? && r.error == ValueError ==> m[1] != '#'
    ensures r.Success? ==> |r.value| == 1 || r.value == m
  {
    if m[..2] == "&#" then
      var digits := if m[2] == 'x' then m[3..|m| - 1] else m[2..|m| - 1];
      var v := if m[2] == 'x' then ParseHex(digits) else ParseDecimal(digits);
      match v
      case None => Success(m)
      case Some(code) =>
        if code > IntMax then Failure(OverflowError)
        else if code > t.maxCode then Success(m)
        else Success([t.chr(code)])
    else
      var name := m[1..|m| - 1];
      if name !in t.entities then Success(m)
      else if t.entities[name] > t.maxCode then Failure(ValueError)
      else Success([t.chr(t.entities[name])])
  }

  /** `unescape`: one left-to-right pass replacing each reference; the text a
      reference is replaced by is never scanned again. */
  function Unescape(t: CharTable, s: string): (r: Result<string>)
    ensures r.Failure? ==> r.error == OverflowError || r.error == ValueError
    ensures r.Success? ==> |r.value| <= |s|
  {
    if |s| == 0 then Success([])
    else
      var n := EntityLen(s);
      if n == 0 then
        var rest :- Unescape(t, s[1..]);
        Success([s[0]] + rest)
      else
        var head :- Fixup(t, s[..n]);
        var rest :- Unescape(t, s[n..]);
        Success(head + rest)
  }

  /** Text without '&' comes back unchanged. */
  lemma {:induction false} UnescapeWithoutAmpersand(t: CharTable, s: string)
    requires '&' !in s
    ensures Unescape(t, s) == Success(s)
  {
    if |s| > 0 {
      assert s[0] != '&' && EntityLen(s) == 0;
      assert '&' !in s[1..];
      UnescapeWithoutAmpersand(t, s[1..]);
      assert [s[0]] + s[1..] == s;
    }
  }

  /** With every entity in range, only a numeric reference can raise: text
      without '#' always unescapes. */
  lemma {:induction false} UnescapeWithoutHashNeverRaises(t: CharTable, s: string)
    requires EntitiesInRange(t) && '#' !in s
    ensures Unescape(t, s).Success?
  {
    if |s| > 0 {
      var n := EntityLen(s);
      if n == 0 {
        assert '#' !in s[1..];
        UnescapeWithoutHashNeverRaises(t, s[1..]);
      } else {
        assert '#' !in s[n..];
        UnescapeWithoutHashNeverRaises(t, s[n..]);
        UnescapeNamedStep(t, s);
      }
    }
  }

  /** A reference without '#' at the front cannot raise: the text raises
      only if what follows the reference does. */
  lemma UnescapeNamedStep(t: CharTable, s: string)
    requires EntitiesInRange(t) && EntityLen(s) > 0 && s[1] != '#'
    requires Unescape(t, s[EntityLen(s)..]).Success?
    ensures Unescape(t, s).Success?
  {
    var n := EntityLen(s);
    var m := s[..n];
    EntityPrefix(s);
    assert m[1] == s[1];
    FixupNamedSucceeds(t, m);
  }

  /** `fixup` cannot raise on a named reference whose entities are all in
      range. */
  lemma FixupNamedSucceeds(t: CharTable, m: string)
    requires EntitiesInRange(t) && |m| > 0 && EntityLen(m) == |m| && m[1] != '#'
    ensures Fixup(t, m).Success?
  {
    assert m[..2] != "&#" by { assert m[..2][1] == m[1]; }
    var name := m[1..|m| - 1];
    assert name in t.entities ==> t.entities[name] <= t.maxCode;
  }

  /** A reference at the front of a text is what `EntityLen` finds: the
      pattern cannot stop earlier or run on, since ';' is not a word
      character. */
  lemma EntityLenComplete(s: string, k: nat)
    requires k <= |s| && IsReference(s[..k])
    ensures EntityLen(s) == k
  {
    var m := s[..k];
    var j := if s[1] == '#' then 2 else 1;
    assert m[1] == s[1];
    assert forall i :: j <= i < k - 1 ==> IsWordChar(s[i]) by {
      forall i | j <= i < k - 1 ensures IsWordChar(s[i]) { assert s[i] == m[i]; }
    }
    assert s[k - 1] == m[k - 1] == ';';
    WordRunLenOf(s, j, k - 1 - j);
  }

  /** The reference found at the front of a text is a whole reference on
      its own. */
  lemma EntityPrefix(s: string)
    requires EntityLen(s) > 0
    ensures EntityLen(s[..EntityLen(s)]) == EntityLen(s)
  {
    var n := EntityLen(s);
    var m := s[..n];
    var j := if s[1] == '#' then 2 else 1;
    var k := WordRunLen(s, j);
    assert j + k + 1 == n;
    assert forall i :: j <= i < j + k ==> IsWordChar(m[i]);
    WordRunLenOf(m, j, k);
  }

  /** A lone reference followed by nothing: the value of `unescape` on it is
      the value of `fixup`. */
  lemma UnescapeOne(t: CharTable, m: string)
    requires |m| > 0 && EntityLen(m) == |m|
    ensures Unescape(t, m) == Fixup(t, m)
  {
    assert m[..|m|] == m;
    assert Unescape(t, m[|m|..]) == Success([]);
    if Fixup(t, m).Success? {
      assert Fixup(t, m).value + [] == Fixup(t, m).value;
    }
  }

  lemma {:induction false} WordRunLenOf(s: string, p: nat, k: nat)
    requires p + k <= |s|
    requires forall i :: p <= i < p + k ==> IsWordChar(s[i])
    requires p + k == |s| || !IsWordChar(s[p + k])
    ensures WordRunLen(s, p) == k
    decreases k
  {
    if k > 0 {
      WordRunLenOf(s, p + 1, k - 1);
    }
  }

  /** `lead + body + ";"` is one whole reference when the body is a run of
      word characters. */
  lemma EntityLenOf(lead: string, body: string)
    requires lead == "&" || lead == "&#"
    requires |body| > 0 && forall i :: 0 <= i < |body| ==> IsWordChar(body[i])
    ensures var m := lead + body + ";"; EntityLen(m) == |m|
  {
    var m := lead + body + ";";
    var j := |lead|;
    assert forall i :: j <= i < j + |body| ==> m[i] == body[i - j];
    assert m[j + |body|] == ';';
    WordRunLenOf(m, j, |body|);
  }

  /** A decimal reference `&#ddd;` becomes the character of its code point;
      above `maxCode` it stays as it is, and above the C int range it raises. */
  lemma UnescapeDecimalRef(t: CharTable, ds: string)
    requires |ds| > 0 && AllDigits(ds)
    ensures var m := "&#" + ds + ";";
            Unescape(t, m)
            == if DecimalValue(ds) > IntMax then Failure(OverflowError)
               else if DecimalValue(ds) > t.maxCode then Success(m)
               else Success([t.chr(DecimalValue(ds))])
  {
    var m := "&#" + ds + ";";
    EntityLenOf("&#", ds);
    UnescapeOne(t, m);
    assert m[..2] == "&#" && m[2] == ds[0] && m[2..|m| - 1] == ds;
  }

  /** `&#x` followed by hex digits and `;` is one whole reference. */
  lemma HexRefLen(hs: string)
    requires |hs| > 0 && AllHexDigits(hs)
    ensures var m := "&#x" + hs + ";"; EntityLen(m) == |m|
  {
    var body := "x" + hs;
    assert "&#x" + hs + ";" == "&#" + body + ";";
    assert forall i :: 0 <= i < |body| ==> IsWordChar(body[i]) by {
      forall i | 0 <= i < |body| ensures IsWordChar(body[i]) {
        if i > 0 { assert body[i] == hs[i - 1]; }
      }
    }
    EntityLenOf("&#", body);
  }

  /** A hexadecimal reference `&#xhh;` (lower-case x) works the same way. */
  lemma UnescapeHexRef(t: CharTable, hs: string)
    requires |hs| > 0 && AllHexDigits(hs)
    ensures var m := "&#x" + hs + ";";
            Unescape(t, m)
            == if HexValue(hs) > IntMax then Failure(OverflowError)
               else if HexValue(hs) > t.maxCode then Success(m)
               else Success([t.chr(HexValue(hs))])
  {
    var m := "&#x" + hs + ";";
    HexRefLen(hs);
    UnescapeOne(t, m);
    assert m[..2] == "&#" && m[2] == 'x' && m[3..|m| - 1] == hs;
    assert ParseHex(hs) == Some(HexValue(hs));
  }

  /** A named reference becomes its entity's character when the table knows
      the name, raises ValueError when that character is beyond `unichr`,
      and stays as it is otherwise. */
  lemma UnescapeNamedRef(t: CharTable, name: string)
    requires |name| > 0 && forall i :: 0 <= i < |name| ==> IsWordChar(name[i])
    ensures var m := "&" + name + ";";
            Unescape(t, m)
            == if name !in t.entities then Success(m)
               else if t.entities[name] > t.maxCode then Failure(ValueError)
               else Success([t.chr(t.entities[name])])
  {
    var m := "&" + name + ";";
    EntityLenOf("&", name);
    FixupNamed(t, name);
    UnescapeOne(t, m);
  }

  /** `fixup` on `&name;` looks the name up. */
  lemma FixupNamed(t: CharTable, name: string)
    requires |name| > 0 && forall i :: 0 <= i < |name| ==> IsWordChar(name[i])
    requires var m := "&" + name + ";"; EntityLen(m) == |m|
    ensures var m := "&" + name + ";";
            Fixup(t, m)
            == if name !in t.entities then Success(m)
               else if t.entities[name] > t.maxCode then Failure(ValueError)
               else Success([t.chr(t.entities[name])])
  {
    var m := "&" + name + ";";
    assert m[1] == name[0] && m[..2] != "&#";
    assert m[1..|m| - 1] == name;
  }

  lemma UnescapeNamedExamples(t: CharTable)
    requires "amp" in t.entities && t.entities["amp"] == 38 && 38 <= t.maxCode && t.chr(38) == '&'
    requires "bogus" !in t.entities
    ensures Unescape(t, "&amp;") == Success("&")
    ensures Unescape(t, "&bogus;") == Success("&bogus;")
  {
    UnescapeNamedRef(t, "amp");
    assert "&" + "amp" + ";" == "&amp;";
    UnescapeNamedRef(t, "bogus");
    assert "&" + "bogus" + ";" == "&bogus;";
  }

  lemma UnescapeDecimalExample(t: CharTable)
    requires 65 <= t.maxCode && t.chr(65) == 'A'
    ensures Unescape(t, "&#65;") == Success("A")
  {
    assert DecimalValue("6") == 6 by { assert "6"[..0] == []; }
    assert "65"[..1] == "6";
    UnescapeDecimalRef(t, "65");
    assert "&#" + "65" + ";" == "&#65;";
  }

  lemma UnescapeHexExample(t: CharTable)
    requires 65 <= t.maxCode && t.chr(65) == 'A'
    ensures Unescape(t, "&#x41;") == Success("A")
  {
    assert HexValue("4") == 4 by { assert "4"[..0] == []; }
    assert "41"[..1] == "4";
    UnescapeHexRef(t, "41");
    assert "&#x" + "41" + ";" == "&#x41;";
  }

  /** An upper-case X is not the hexadecimal marker: the reference is a
      malformed decimal one and stays as it is. */
  lemma UnescapeUpperXExample(t: CharTable)
    ensures Unescape(t, "&#X41;") == Success("&#X41;")
  {
    EntityLenOf("&#", "X41");
    assert "&#" + "X41" + ";" == "&#X41;";
    UnescapeOne(t, "&#X41;");
    assert "&#X41;"[2..5] == "X41";
  }

  /** A non-hexadecimal digit after the marker leaves the reference as it is. */
  lemma UnescapeBadHexExample(t: CharTable)
    ensures Unescape(t, "&#xZZ;") == Success("&#xZZ;")
  {
    EntityLenOf("&#", "xZZ");
    assert "&#" + "xZZ" + ";" == "&#xZZ;";
    UnescapeOne(t, "&#xZZ;");
    assert "&#xZZ;"[3..5] == "ZZ";
  }

  /** A reference at the front is replaced and the scan resumes after it. */
  lemma UnescapeRefThen(t: CharTable, m: string, rest: string)
    requires |m| > 0 && EntityLen(m) == |m|
    ensures Unescape(t, m + rest)
            == match Fixup(t, m)
               case Failure(e) => Failure(e)
               case Success(head) =>
                 match Unescape(t, rest)
                 case Failure(e) => Failure(e)
                 case Success(tail) => Success(head + tail)
  {
    var s := m + rest;
    var j := if m[1] == '#' then 2 else 1;
    var k := WordRunLen(m, j);
    assert forall i :: 0 <= i < |m| ==> s[i] == m[i];
    WordRunLenOf(s, j, k);
    assert EntityLen(s) == |m|;
    assert s[..|m|] == m && s[|m|..] == rest;
  }

  /** The output of a replacement is not scanned again: "&amp;lt;" becomes
      "&lt;", not "<". */
  lemma UnescapeIsSinglePass(t: CharTable)
    requires "amp" in t.entities && t.entities["amp"] == 38 && 38 <= t.maxCode && t.chr(38) == '&'
    ensures Unescape(t, "&amp;lt;") == Success("&lt;")
  {
    AmpLtPieces();
    ReplacementNotRescanned(t, "amp", "lt;");
  }

  lemma AmpLtPieces()
    ensures forall i :: 0 <= i < |"amp"| ==> IsWordChar("amp"[i])
    ensures '&' !in "lt;"
    ensures "&" + "amp" + ";" + "lt;" == "&amp;lt;" && "&" + "lt;" == "&lt;"
  {
  }

  /** A name whose entity is '&' followed by text without '&': the '&' the
      replacement produces is not taken as the start of a new reference. */
  lemma ReplacementNotRescanned(t: CharTable, name: string, rest: string)
    requires |name| > 0 && forall i :: 0 <= i < |name| ==> IsWordChar(name[i])
    requires name in t.entities && t.entities[name] <= t.maxCode && t.chr(t.entities[name]) == '&'
    requires '&' !in rest
    ensures Unescape(t, "&" + name + ";" + rest) == Success("&" + rest)
  {
    var m := "&" + name + ";";
    EntityLenOf("&", name);
    FixupNamed(t, name);
    UnescapeWithoutAmpersand(t, rest);
    UnescapeRefThen(t, m, rest);
  }

  // ---------------------------------------------------------------------
  // get_label
  // ---------------------------------------------------------------------

  const ValidTags: seq<string> := ["placed", "received", "missed", "recorded", "voicemail"]

  /** `href.rsplit("#")[1]`: without a maxsplit, rsplit cuts at every '#',
      so this is the text between the first and the second '#' (or the end).
      None stands for the IndexError of an href without '#'. */
  function HashSegment(href: string): (r: Option<string>)
    ensures r.None? <==> '#' !in href
    ensures r.Some? ==> '#' !in r.value
    ensures r.Some? ==> IndexOf(href, '#').Some? && SegmentAfterFirstHash(r.value, href, IndexOf(href, '#').value)
  {
    match IndexOf(href, '#')
    case None => None
    case Some(i) =>
      var rest := href[i + 1..];
      match IndexOf(rest, '#')
      case None =>
        assert SegmentAfterFirstHash(rest, href, i);
        Some(rest)
      case Some(j) =>
        assert SegmentAfterFirstHash(rest[..j], href, i) by {
          assert href[i + 1..i + 1 + j] == rest[..j];
        }
        Some(rest[..j])
  }

  /** seg follows the first '#' of href, at i, and runs to the next '#' or to
      the end. */
  predicate SegmentAfterFirstHash(seg: string, href: string, i: nat) {
    && i < |href| && href[i] == '#' && '#' !in href[..i]
    && i + 1 + |seg| <= |href| && href[i + 1..i + 1 + |seg|] == seg
    && (i + 1 + |seg| == |href| || href[i + 1 + |seg|] == '#')
  }

  /** The tag link at this href names a valid category. */
  predicate IsValidLabel(href: string) {
    HashSegment(href).Some? && HashSegment(href).value in ValidTags
  }

  /** `get_label` over the hrefs of the `div.tags > a[rel=tag]` links, in
      document order: the first valid category, or None. The generator is
      lazy, so an href without '#' raises only if no earlier link was valid. */
  function GetLabel(hrefs: seq<string>): (r: Result<Option<string>>)
    ensures r.Failure? ==> r.error == IndexError
    ensures r.Success? && r.value.Some? ==> r.value.value in ValidTags
  {
    if |hrefs| == 0 then Success(None)
    else match HashSegment(hrefs[0])
      case None => Failure(IndexError)
      case Some(tag) =>
        if tag in ValidTags then Success(Some(tag)) else GetLabel(hrefs[1..])
  }

  /** The first valid link decides, whatever follows it. */
  lemma {:induction false} GetLabelFirstValid(hrefs: seq<string>, i: nat)
    requires i < |hrefs| && IsValidLabel(hrefs[i])
    requires forall j :: 0 <= j < i ==> '#' in hrefs[j] && !IsValidLabel(hrefs[j])
    ensures GetLabel(hrefs) == Success(HashSegment(hrefs[i]))
  {
    if i > 0 {
      GetLabelFirstValid(hrefs[1..], i - 1);
    }
  }

  /** None exactly when every link has a '#' and none names a category. */
  lemma {:induction false} GetLabelNone(hrefs: seq<string>)
    ensures GetLabel(hrefs) == Success(None)
            <==> forall j :: 0 <= j < |hrefs| ==> '#' in hrefs[j] && !IsValidLabel(hrefs[j])
  {
    if |hrefs| > 0 {
      GetLabelNone(hrefs[1..]);
      assert forall j :: 1 <= j < |hrefs| ==> hrefs[j] == hrefs[1..][j - 1];
      if '#' in hrefs[0] && !IsValidLabel(hrefs[0]) {
        assert GetLabel(hrefs) == GetLabel(hrefs[1..]);
      } else {
        assert GetLabel(hrefs) != Success(None);
      }
    }
  }

  /** IndexError exactly when a link without '#' comes before any valid one. */
  lemma {:induction false} GetLabelRaises(hrefs: seq<string>, i: nat)
    requires i < |hrefs| && '#' !in hrefs[i]
    requires forall j :: 0 <= j < i ==> '#' in hrefs[j] && !IsValidLabel(hrefs[j])
    ensures GetLabel(hrefs) == Failure(IndexError)
  {
    if i > 0 {
      GetLabelRaises(hrefs[1..], i - 1);
    }
  }

  // ---------------------------------------------------------------------
  // as_xhtml: re.sub('/(?=\w)', '/{http://www.w3.org/1999/xhtml}', path)
  // ---------------------------------------------------------------------

  const Namespace := "{http://www.w3.org/1999/xhtml}"

  /** A '/' at i that is followed by a word character. */
  predicate SlashWordAt(p: string, i: nat) {
    i + 1 < |p| && p[i] == '/' && IsWordChar(p[i + 1])
  }

  /** `as_xhtml`: the namespace goes after every '/' that precedes a word
      character; everything else is copied. */
  function AsXhtml(p: string): (r: string)
    ensures |r| >= |p|
    ensures |p| > 0 ==> |r| > 0 && r[0] == p[0]
    ensures r == p <==> forall i :: 0 <= i < |p| ==> !SlashWordAt(p, i)
  {
    if |p| == 0 then []
    else
      var rest := AsXhtml(p[1..]);
      assert forall i :: 0 <= i < |p| - 1 ==> (SlashWordAt(p, i + 1) <==> SlashWordAt(p[1..], i));
      if SlashWordAt(p, 0) then "/" + Namespace + rest
      else
        assert [p[0]] + rest == p <==> rest == p[1..] by {
          if rest == p[1..] { assert [p[0]] + p[1..] == p; }
          if [p[0]] + rest == p { assert ([p[0]] + rest)[1..] == rest; }
        }
        assert (forall i :: 0 <= i < |p| ==> !SlashWordAt(p, i))
               <==> (forall i :: 0 <= i < |p[1..]| ==> !SlashWordAt(p[1..], i)) by {
          if forall i :: 0 <= i < |p[1..]| ==> !SlashWordAt(p[1..], i) {
            forall i | 0 <= i < |p|
              ensures !SlashWordAt(p, i)
            {
              if i > 0 { assert SlashWordAt(p, i) <==> SlashWordAt(p[1..], i - 1); }
            }
          }
        }
        [p[0]] + rest
  }

  /** Undoes `as_xhtml`: drops the namespace after each '/' carrying it. */
  function StripNamespace(s: string): string
  {
    if |s| == 0 then []
    else if s[0] == '/' && StartsWith(s[1..], Namespace) then "/" + StripNamespace(s[1 + |Namespace|..])
    else [s[0]] + StripNamespace(s[1..])
  }

  /** On paths without '{' (every path the parser writes) stripping the
      namespace gives the original path back. */
  lemma {:induction false} AsXhtmlRoundTrip(p: string)
    requires '{' !in p
    ensures StripNamespace(AsXhtml(p)) == p
  {
    if |p| > 0 {
      assert '{' !in p[1..];
      AsXhtmlRoundTrip(p[1..]);
      var rest := AsXhtml(p[1..]);
      AsXhtmlStep(p);
      if SlashWordAt(p, 0) {
        StripAfterNamespace(rest);
        assert [p[0]] + p[1..] == p;
      } else {
        assert |rest| > 0 ==> rest[0] == p[1] != '{';
        StripAfterPlain(p[0], rest);
        assert [p[0]] + p[1..] == p;
      }
    }
  }

  /** One step of `as_xhtml`: the first character, then the rest. */
  lemma AsXhtmlStep(p: string)
    requires |p| > 0
    ensures AsXhtml(p) == if SlashWordAt(p, 0) then "/" + Namespace + AsXhtml(p[1..]) else [p[0]] + AsXhtml(p[1..])
  {
  }

  lemma StripAfterNamespace(rest: string)
    ensures StripNamespace("/" + Namespace + rest) == "/" + StripNamespace(rest)
  {
    var r := "/" + Namespace + rest;
    assert r[1..] == Namespace + rest;
    assert r[1..][..|Namespace|] == Namespace;
    assert r[1 + |Namespace|..] == rest;
  }

  lemma StripAfterPlain(c: char, rest: string)
    requires |rest| > 0 ==> rest[0] != '{'
    ensures StripNamespace([c] + rest) == [c] + StripNamespace(rest)
  {
    var r := [c] + rest;
    assert r[1..] == rest;
    if |rest| > 0 {
      assert Namespace[0] == '{';
      assert !StartsWith(rest, Namespace);
    } else {
      assert !StartsWith(rest, Namespace);
    }
  }

  /** `as_xhtml` is not idempotent: the namespace it inserts contains "/w",
      "/1" and "/x", which a second pass rewrites again. */
  lemma AsXhtmlNotIdempotent()
    ensures AsXhtml(AsXhtml("/a")) != AsXhtml("/a")
  {
    var q := AsXhtml("/a");
    assert SlashWordAt("/a", 0);
    assert AsXhtml("a") == "a";
    assert q == "/" + Namespace + "a";
    assert SlashWordAt(q, 8);
  }
}

=== FILE: pipeline.dfy ===
/** The main flow of gvproc.py from the back-fill's point of view: the pages
    `process_tree` yields, flattened by `ExplodeTextRecords`, carry only
    contacts that `FixContactNumbers` fills idempotently.
 */
module Pipeline {
  import opened Wrappers
  import opened Strings
  import opened Contacts
  import opened ParseTools
  import opened Records
  import opened Conversations
  import opened Dispatch
  import opened Export
  import opened Reconcile

  /** Every record a processed page yields is ready. */
  predicate ParsedFillReady(p: Parsed) {
    match p
    case Thread(c) => forall i :: 0 <= i < |c.texts| ==> RecordFillReady(c.texts[i])
    case Single(r) => RecordFillReady(r)
  }

  /** Every kind of contact the parsers produce is ready for the back-fill:
      an extracted contact, the owner, the one-way party and the empty
      contact. */
  lemma ParsedContactsFillReady(c: Contact, mynumbers: seq<string>, onewayname: Option<string>)
    requires |mynumbers| > 0
    ensures Normalised(c) ==> FillReady(c)
    ensures FillReady(Me(mynumbers)) && FillReady(OneWayParty(onewayname)) && FillReady(EmptyContact)
  {
  }

  /** A looked-up contact is an extracted one. */
  lemma FromLookupFillReady(l: ContactLookup)
    ensures FromLookup(l).Success? ==> FillReady(FromLookup(l).value)
  {
    if FromLookup(l).Success? {
      FromTelNormalised(Locate(l).value);
    }
  }

  /** The parties of a conversation whose senders are truthy are ready: each
      is a sender, the one-way party or the owner. */
  lemma PartiesFillReady(kept: seq<TextRecord>, onewayname: Option<string>, mynumbers: seq<string>)
    requires |mynumbers| > 0 && Relabelled(kept, mynumbers)
    requires forall i :: 0 <= i < |kept| ==> Truthy(kept[i].contact)
    ensures forall x :: x in Parties(kept, onewayname, mynumbers) ==> FillReady(x)
  {
    forall x | x in Parties(kept, onewayname, mynumbers) ensures FillReady(x) {
      if x in Senders(kept) {
        var j :| 0 <= j < |Senders(kept)| && Senders(kept)[j] == x;
        assert Truthy(kept[j].contact);
      } else {
        ParsedContactsFillReady(x, mynumbers, onewayname);
      }
    }
  }

  /** The messages of an assembled conversation are ready: their senders
      were kept, so they are truthy, and their receivers are the empty
      contact or one of the parties. */
  lemma AssembleFillReady(msgs: seq<TextRecord>, onewayname: Option<string>, mynumbers: seq<string>)
    requires |mynumbers| > 0 && Unassigned(msgs)
    ensures var c := Assemble(msgs, onewayname, mynumbers);
            forall i :: 0 <= i < |c.texts| ==> RecordFillReady(c.texts[i])
  {
    var kept := KeptMessages(msgs, mynumbers);
    var c := Assemble(msgs, onewayname, mynumbers);
    assert forall i :: 0 <= i < |kept| ==> Truthy(kept[i].contact) by {
      forall i | 0 <= i < |kept| ensures Truthy(kept[i].contact) {
        assert Kept(kept[i]);
      }
    }
    if |KeySet(Senders(kept))| <= 2 {
      PartiesFillReady(kept, onewayname, mynumbers);
    }
    forall i | 0 <= i < |c.texts| ensures RecordFillReady(c.texts[i]) {
      assert c.texts[i].contact == kept[i].contact;
    }
  }

  /** The messages of a conversation read from a page are ready. */
  lemma ConversationFillReady(t: CharTable, doc: Document, onewayname: Option<string>, mynumbers: seq<string>)
    requires |mynumbers| > 0
    ensures var conv := ConversationFromDocument(t, doc, onewayname, mynumbers);
            conv.Success? && conv.value.Some? ==>
              forall i :: 0 <= i < |conv.value.value.texts| ==> RecordFillReady(conv.value.value.texts[i])
  {
    var conv := ConversationFromDocument(t, doc, onewayname, mynumbers);
    if conv.Success? && conv.value.Some? {
      var ms := ChatLog(doc).value.messages;
      var msgs := ParseMessages(t, ms).value;
      assert Unassigned(msgs) by {
        forall i | 0 <= i < |msgs| ensures msgs[i].receiver == EmptyContact {
          assert TextFromNode(t, ms[i]) == Success(msgs[i]);
        }
      }
      AssembleFillReady(msgs, onewayname, mynumbers);
    }
  }

  /** A call or recording read from a page is ready. */
  lemma SingleFillReady(doc: Document)
    ensures CallFromDocument(doc).Success? && CallFromDocument(doc).value.Some? ==>
              RecordFillReady(CallFromDocument(doc).value.value)
    ensures AudioFromDocument(doc).Success? && AudioFromDocument(doc).value.Some? ==>
              RecordFillReady(AudioFromDocument(doc).value.value)
  {
    if CallNode(doc).Some? {
      FromLookupFillReady(CallNode(doc).value.contact);
    }
    if AudioNode(doc).Some? {
      FromLookupFillReady(AudioNode(doc).value.contact);
    }
  }

  /** Every record that `process_tree` yields is ready for the back-fill. */
  lemma ProcessTreeFillReady(t: CharTable, doc: Document, mynumbers: seq<string>)
    requires |mynumbers| > 0
    ensures ProcessTree(t, doc, mynumbers).Success? && ProcessTree(t, doc, mynumbers).value.Some? ==>
              ParsedFillReady(ProcessTree(t, doc, mynumbers).value.value)
  {
    if doc.title.Some? {
      ConversationFillReady(t, doc, OneWayName(doc.title.value), mynumbers);
      SingleFillReady(doc);
    }
  }

  /** The flattened records of processed pages are ready. */
  lemma ExplodeFillReady(ps: seq<Parsed>)
    requires forall i :: 0 <= i < |ps| ==> ParsedFillReady(ps[i])
    ensures RecordsFillReady(ExplodeTextRecords(ps))
  {
    var r := ExplodeTextRecords(ps);
    forall k | 0 <= k < |r| ensures RecordFillReady(r[k]) {
      ExplodeMembership(ps, r[k]);
      var i :| 0 <= i < |ps| && (ps[i] == Single(r[k]) || (ps[i].Thread? && r[k] in ps[i].conversation.texts));
      if ps[i] != Single(r[k]) {
        var j :| 0 <= j < |ps[i].conversation.texts| && ps[i].conversation.texts[j] == r[k];
      }
    }
  }

  /** The top-level flow: explode the processed pages, then back-fill. A
      second back-fill of the result changes nothing. */
  lemma ProcessedRecordsStable(ps: seq<Parsed>, csv: Option<seq<(string, seq<string>)>>, rows: seq<CsvRow>,
                               mynumbers: seq<string>)
    requires |mynumbers| > 0 && forall i :: 0 <= i < |ps| ==> ParsedFillReady(ps[i])
    requires csv.Some? ==> UniqueNumbers(rows) && CsvFrom(csv.value, rows)
    requires ResolveTables(ExplodeTextRecords(ps), csv, mynumbers).Success?
    ensures var records := ExplodeTextRecords(ps);
            var fixed := FixContactNumbers(records, csv, mynumbers).value.0;
            FillRecords(fixed, ResolveTables(records, csv, mynumbers).value) == fixed
  {
    ExplodeFillReady(ps);
    FixContactNumbersStable(ExplodeTextRecords(ps), csv, rows, mynumbers);
  }
}

=== FILE: reconcile.dfy ===
/** Contact reconciliation of gvproc.py: the contacts CSV reader and
    `FixContactNumbers`, which votes name/number tables out of the records,
    registers the owner, merges the CSV contacts and back-fills missing
    names and numbers.
 */
module Reconcile {
  import opened Wrappers
  import opened Strings
  import opened Contacts
  import opened Records

  // ---------------------------------------------------------------------
  // Frequencies

  /** `collections.Counter(x.contact.phonenumber for x in records)[x]`. */
  function NumberCount(cs: seq<Contact>, x: string): (n: nat)
    ensures n <= |cs|
    ensures n == 0 <==> forall i :: 0 <= i < |cs| ==> cs[i].phonenumber != Some(x)
  {
    if |cs| == 0 then 0
    else NumberCount(cs[..|cs| - 1], x) + (if cs[|cs| - 1].phonenumber == Some(x) then 1 else 0)
  }

  /** `collections.Counter(x.contact.name for x in records)[x]`. */
  function NameCount(cs: seq<Contact>, x: string): (n: nat)
    ensures n <= |cs|
    ensures n == 0 <==> forall i :: 0 <= i < |cs| ==> cs[i].name != Some(x)
  {
    if |cs| == 0 then 0
    else NameCount(cs[..|cs| - 1], x) + (if cs[|cs| - 1].name == Some(x) then 1 else 0)
  }

  // ---------------------------------------------------------------------
  // Voting

  /** One step of the voting loop for key k and candidate v: a new key takes
      v; a key already holding another value switches to v only when v is
      strictly more frequent. */
  function Vote(m: map<string, string>, k: string, v: string, freq: string -> nat): (r: map<string, string>)
    ensures k in r && (r[k] == v || (k in m && r[k] == m[k]))
    ensures forall k' :: k' != k ==> (k' in r <==> k' in m)
    ensures forall k' :: k' != k && k' in m ==> r[k'] == m[k']
  {
    if k in m && v != m[k] then
      if freq(v) > freq(m[k]) then m[k := v] else m
    else m[k := v]
  }

  /** The voting loop over (key, candidate) pairs, in order. */
  function VoteMap(pairs: seq<(string, string)>, freq: string -> nat): (r: map<string, string>)
    ensures forall k :: k in r ==> exists i :: 0 <= i < |pairs| && pairs[i] == (k, r[k])
  {
    if |pairs| == 0 then map[]
    else
      var init := pairs[..|pairs| - 1];
      var (k, v) := pairs[|pairs| - 1];
      var m := VoteMap(init, freq);
      var r := Vote(m, k, v, freq);
      assert forall k' :: k' in r ==> exists i :: 0 <= i < |pairs| && pairs[i] == (k', r[k']) by {
        forall k' | k' in r ensures exists i :: 0 <= i < |pairs| && pairs[i] == (k', r[k']) {
          if k' == k && r[k'] == v {
            assert pairs[|pairs| - 1] == (k', r[k']);
          } else {
            var i :| 0 <= i < |init| && init[i] == (k', m[k']);
            assert pairs[i] == init[i];
          }
        }
      }
      r
  }

  /** The candidates offered for key k, in order. */
  function Candidates(pairs: seq<(string, string)>, k: string): (c: seq<string>)
    ensures |c| > 0 <==> exists i :: 0 <= i < |pairs| && pairs[i].0 == k
  {
    if |pairs| == 0 then []
    else
      var init := pairs[..|pairs| - 1];
      var rest := Candidates(init, k);
      assert forall i :: 0 <= i < |init| ==> init[i] == pairs[i];
      if pairs[|pairs| - 1].0 == k then rest + [pairs[|pairs| - 1].1] else rest
  }

  /** Position j holds the first value of maximal frequency. */
  predicate IsFirstMax(c: seq<string>, j: nat, freq: string -> nat) {
    && j < |c|
    && (forall i :: 0 <= i < |c| ==> freq(c[i]) <= freq(c[j]))
    && (forall i :: 0 <= i < j ==> freq(c[i]) < freq(c[j]))
  }

  /** A running maximum that only moves on a strictly greater frequency. */
  function RunningMax(c: seq<string>, freq: string -> nat): (r: string)
    requires |c| > 0
    ensures exists j: nat :: IsFirstMax(c, j, freq) && c[j] == r
  {
    if |c| == 1 then
      assert IsFirstMax(c, 0, freq);
      c[0]
    else
      var init := c[..|c| - 1];
      var m := RunningMax(init, freq);
      var j: nat :| IsFirstMax(init, j, freq) && init[j] == m;
      assert forall i :: 0 <= i < |init| ==> init[i] == c[i];
      if freq(c[|c| - 1]) > freq(m) then
        assert IsFirstMax(c, |c| - 1, freq);
        c[|c| - 1]
      else
        assert IsFirstMax(c, j, freq);
        m
  }

  /** The first-maximum position is unique, so it fully determines the vote. */
  lemma FirstMaxUnique(c: seq<string>, j: nat, j': nat, freq: string -> nat)
    requires IsFirstMax(c, j, freq) && IsFirstMax(c, j', freq)
    ensures j == j'
  {
    assert freq(c[j]) <= freq(c[j']) && freq(c[j']) <= freq(c[j]);
  }

  /** The voting loop leaves each key with the earliest of its candidates of
      maximal frequency, and has exactly the keys that were offered. */
  lemma {:induction false} VoteMapSpec(pairs: seq<(string, string)>, freq: string -> nat, k: string)
    ensures k in VoteMap(pairs, freq) <==> |Candidates(pairs, k)| > 0
    ensures k in VoteMap(pairs, freq) ==> VoteMap(pairs, freq)[k] == RunningMax(Candidates(pairs, k), freq)
  {
    if |pairs| > 0 {
      var init := pairs[..|pairs| - 1];
      VoteMapSpec(init, freq, k);
      var c := Candidates(init, k);
      if pairs[|pairs| - 1].0 == k && |c| > 0 {
        assert (c + [pairs[|pairs| - 1].1])[..|c|] == c;
      }
    }
  }

  // ---------------------------------------------------------------------
  // Building the tables

  /** The two lookup tables of `FixContactNumbers`. */
  datatype Tables = Tables(namesToNumbers: map<string, string>, numbersToNames: map<string, string>)

  /** `i.phonenumber and i.name`: only contacts with both fields take part. */
  predicate Complete(c: Contact) {
    NonEmpty(c.phonenumber) && NonEmpty(c.name)
  }

  /** (name, number) of every complete contact, in order. */
  function NamePairs(cs: seq<Contact>): (r: seq<(string, string)>)
    ensures forall i :: 0 <= i < |r| ==> Contact(Some(r[i].0), Some(r[i].1)) in cs && |r[i].0| > 0 && |r[i].1| > 0
  {
    if |cs| == 0 then []
    else
      var rest := NamePairs(cs[..|cs| - 1]);
      var c := cs[|cs| - 1];
      assert forall x :: x in cs[..|cs| - 1] ==> x in cs;
      if Complete(c) then rest + [(c.name.value, c.phonenumber.value)] else rest
  }

  /** (number, name) of every complete contact, in order. */
  function NumberPairs(cs: seq<Contact>): (r: seq<(string, string)>)
    ensures forall i :: 0 <= i < |r| ==> Contact(Some(r[i].1), Some(r[i].0)) in cs && |r[i].0| > 0 && |r[i].1| > 0
  {
    if |cs| == 0 then []
    else
      var rest := NumberPairs(cs[..|cs| - 1]);
      var c := cs[|cs| - 1];
      assert forall x :: x in cs[..|cs| - 1] ==> x in cs;
      if Complete(c) then rest + [(c.phonenumber.value, c.name.value)] else rest
  }

  function NumberFreq(cs: seq<Contact>): string -> nat {
    x => NumberCount(cs, x)
  }

  function NameFreq(cs: seq<Contact>): string -> nat {
    x => NameCount(cs, x)
  }

  /** The voting loop of `FixContactNumbers` over the record contacts: names
      vote by number frequency, numbers by name frequency. */
  function BuildTables(cs: seq<Contact>): (t: Tables)
    ensures forall n :: n in t.namesToNumbers ==>
              |n| > 0 && |t.namesToNumbers[n]| > 0 && Contact(Some(n), Some(t.namesToNumbers[n])) in cs
    ensures forall p :: p in t.numbersToNames ==>
              |p| > 0 && |t.numbersToNames[p]| > 0 && Contact(Some(t.numbersToNames[p]), Some(p)) in cs
  {
    Tables(VoteMap(NamePairs(cs), NumberFreq(cs)), VoteMap(NumberPairs(cs), NameFreq(cs)))
  }

  /** A contact lacking a name or a number never takes part in the vote. */
  lemma IncompleteContactIgnored(cs: seq<Contact>, c: Contact)
    requires !Complete(c)
    ensures NamePairs(cs + [c]) == NamePairs(cs) && NumberPairs(cs + [c]) == NumberPairs(cs)
  {
    assert (cs + [c])[..|cs|] == cs;
  }

  /** Every complete name gets an entry, namely its earliest-seen number of
      maximal number frequency (and likewise for numbers). */
  lemma BuildTablesVoting(cs: seq<Contact>, n: string)
    ensures n in BuildTables(cs).namesToNumbers <==> |Candidates(NamePairs(cs), n)| > 0
    ensures n in BuildTables(cs).namesToNumbers ==>
              BuildTables(cs).namesToNumbers[n] == RunningMax(Candidates(NamePairs(cs), n), NumberFreq(cs))
    ensures n in BuildTables(cs).numbersToNames <==> |Candidates(NumberPairs(cs), n)| > 0
    ensures n in BuildTables(cs).numbersToNames ==>
              BuildTables(cs).numbersToNames[n] == RunningMax(Candidates(NumberPairs(cs), n), NameFreq(cs))
  {
    VoteMapSpec(NamePairs(cs), NumberFreq(cs), n);
    VoteMapSpec(NumberPairs(cs), NameFreq(cs), n);
  }

  lemma PairsOfTwo(a: string, b: string, p: string)
    requires |a| > 0 && |b| > 0 && |p| > 0
    ensures var cs := [Contact(Some(a), Some(p)), Contact(Some(b), Some(p))];
            && NamePairs(cs) == [(a, p), (b, p)]
            && NumberPairs(cs) == [(p, a), (p, b)]
            && NameCount(cs, a) >= 1 && (a != b ==> NameCount(cs, a) == 1 && NameCount(cs, b) == 1)
  {
    var ca := Contact(Some(a), Some(p));
    var cs := [ca, Contact(Some(b), Some(p))];
    assert cs[..1] == [ca];
    assert [ca][..0] == [];
    assert Complete(ca) && Complete(cs[1]);
    assert NamePairs([ca]) == [(a, p)];
    assert NumberPairs([ca]) == [(p, a)];
  }

  lemma VoteMapTwo(x: (string, string), y: (string, string), freq: string -> nat)
    ensures VoteMap([x, y], freq) == Vote(Vote(map[], x.0, x.1, freq), y.0, y.1, freq)
  {
    assert [x, y][..1] == [x];
    assert [x][..0] == [];
  }

  /** The tables need not be inverse: when two people a and b share one
      number p, both names map to p, but p maps back to a only (a tie on
      name frequency keeps the incumbent). */
  lemma SharedNumber(a: string, b: string, p: string)
    requires a != b && |a| > 0 && |b| > 0 && |p| > 0
    ensures var t := BuildTables([Contact(Some(a), Some(p)), Contact(Some(b), Some(p))]);
            && t.namesToNumbers == map[a := p, b := p]
            && t.numbersToNames == map[p := a]
  {
    var cs := [Contact(Some(a), Some(p)), Contact(Some(b), Some(p))];
    PairsOfTwo(a, b, p);
    VoteMapTwo((a, p), (b, p), NumberFreq(cs));
    VoteMapTwo((p, a), (p, b), NameFreq(cs));
    assert NameFreq(cs)(a) == 1 && NameFreq(cs)(b) == 1;
  }

  /** Line 94: the owner's name maps to the first of the owner's numbers. */
  function RegisterMe(t: Tables, mynumbers: seq<string>): (r: Tables)
    requires |mynumbers| > 0
    ensures MeName in r.namesToNumbers && r.namesToNumbers[MeName] == mynumbers[0]
    ensures r.numbersToNames == t.numbersToNames
    ensures forall n :: n != MeName ==> (n in r.namesToNumbers <==> n in t.namesToNumbers)
    ensures forall n :: n != MeName && n in t.namesToNumbers ==> r.namesToNumbers[n] == t.namesToNumbers[n]
  {
    Tables(t.namesToNumbers[MeName := mynumbers[0]], t.numbersToNames)
  }

  // ---------------------------------------------------------------------
  // Merging the CSV contacts

  /** The first number of least frequency: the head of the list after a
      stable ascending sort by frequency. */
  function LeastFrequent(ns: seq<string>, freq: string -> nat): (r: string)
    requires |ns| > 0
    ensures r in ns
    ensures forall i :: 0 <= i < |ns| ==> freq(r) <= freq(ns[i])
    ensures exists j :: 0 <= j < |ns| && ns[j] == r && forall i :: 0 <= i < j ==> freq(ns[i]) > freq(r)
  {
    if |ns| == 1 then ns[0]
    else
      var m := LeastFrequent(ns[1..], freq);
      assert forall i :: 1 <= i < |ns| ==> ns[1..][i - 1] == ns[i];
      if freq(ns[0]) <= freq(m) then ns[0]
      else
        var j :| 0 <= j < |ns| - 1 && ns[1..][j] == m && forall i :: 0 <= i < j ==> freq(ns[1..][i]) > freq(m);
        assert ns[j + 1] == m;
        m
  }

  /** `numbers_to_names[n] = c` for every n in ns. */
  function MapAll(m: map<string, string>, ns: seq<string>, c: string): (r: map<string, string>)
    ensures forall n :: n in r <==> n in m || n in ns
    ensures forall n :: n in ns ==> r[n] == c
    ensures forall n :: n in m && n !in ns ==> r[n] == m[n]
    decreases |ns|
  {
    if |ns| == 0 then m
    else
      assert forall n :: n in ns <==> n == ns[0] || n in ns[1..];
      MapAll(m[ns[0] := c], ns[1..], c)
  }

  /** One entry (name c, numbers ns) of the CSV loop. An empty number list
      makes `[0]` fail. */
  function MergeEntry(t: Tables, c: string, ns: seq<string>, freq: string -> nat): (r: Result<Tables>)
    ensures r.Failure? <==> |ns| == 0
    ensures r.Failure? ==> r.error == IndexError
    // every CSV number maps to its CSV name; no other key is added (the
    // last fill-in branch never fires)
    ensures r.Success? ==> r.value.numbersToNames == MapAll(t.numbersToNames, ns, c)
    // a name already present keeps its number; a new one gets the least
    // frequent of its numbers
    ensures r.Success? && c in t.namesToNumbers ==> r.value.namesToNumbers == t.namesToNumbers
    ensures r.Success? && c !in t.namesToNumbers ==> r.value.namesToNumbers == t.namesToNumbers[c := LeastFrequent(ns, freq)]
  {
    var numbersToNames := MapAll(t.numbersToNames, ns, c);
    if |ns| == 0 then Failure(IndexError)
    else
      var pick := LeastFrequent(ns, freq);
      var namesToNumbers := if c !in t.namesToNumbers then t.namesToNumbers[c := pick] else t.namesToNumbers;
      var numbersToNames' := if pick !in numbersToNames then numbersToNames[c := pick] else numbersToNames;
      Success(Tables(namesToNumbers, numbersToNames'))
  }

  /** Some entry of the contacts dictionary lists no number. */
  predicate HasEmptyEntry(csv: seq<(string, seq<string>)>) {
    exists i :: 0 <= i < |csv| && |csv[i].1| == 0
  }

  /** The CSV loop over the entries of the contacts dictionary, in its
      iteration order; the first failure escapes. */
  function MergeCsv(t: Tables, csv: seq<(string, seq<string>)>, freq: string -> nat): (r: Result<Tables>)
    ensures r.Failure? <==> HasEmptyEntry(csv)
    ensures r.Success? ==> forall n :: n in t.namesToNumbers ==> n in r.value.namesToNumbers && r.value.namesToNumbers[n] == t.namesToNumbers[n]
    decreases |csv|
  {
    if |csv| == 0 then Success(t)
    else
      var t1 :- MergeEntry(t, csv[0].0, csv[0].1, freq);
      assert forall i :: 1 <= i < |csv| ==> csv[1..][i - 1] == csv[i];
      MergeCsv(t1, csv[1..], freq)
  }

  /** A number listed by no CSV entry keeps its name. */
  lemma {:induction false} MergeCsvKeepsNumber(t: Tables, csv: seq<(string, seq<string>)>, freq: string -> nat, p: string)
    requires p in t.numbersToNames && forall i :: 0 <= i < |csv| ==> p !in csv[i].1
    ensures MergeCsv(t, csv, freq).Success? ==>
              p in MergeCsv(t, csv, freq).value.numbersToNames
              && MergeCsv(t, csv, freq).value.numbersToNames[p] == t.numbersToNames[p]
    decreases |csv|
  {
    if |csv| > 0 && MergeCsv(t, csv, freq).Success? {
      var t1 := MergeEntry(t, csv[0].0, csv[0].1, freq).value;
      var rest := csv[1..];
      assert forall i :: 1 <= i < |csv| ==> rest[i - 1] == csv[i];
      MergeCsvKeepsNumber(t1, rest, freq, p);
    }
  }

  /** After the merge a CSV number maps to its CSV name, overriding what
      the records voted, unless a later entry lists it again. */
  lemma {:induction false} MergeCsvNumber(t: Tables, csv: seq<(string, seq<string>)>, freq: string -> nat, i: nat, n: string)
    requires i < |csv| && n in csv[i].1
    requires forall j :: i < j < |csv| ==> n !in csv[j].1
    ensures MergeCsv(t, csv, freq).Success? ==>
              n in MergeCsv(t, csv, freq).value.numbersToNames && MergeCsv(t, csv, freq).value.numbersToNames[n] == csv[i].0
    decreases |csv|
  {
    if MergeCsv(t, csv, freq).Success? {
      var t1 := MergeEntry(t, csv[0].0, csv[0].1, freq).value;
      var rest := csv[1..];
      assert forall j :: 1 <= j < |csv| ==> rest[j - 1] == csv[j];
      if i == 0 {
        MergeCsvKeepsNumber(t1, rest, freq, n);
      } else {
        MergeCsvNumber(t1, rest, freq, i - 1, n);
      }
    }
  }

  /** After the merge every CSV name has a number; a name the records did not
      know (and no earlier entry carries) gets the least frequent of its CSV
      numbers. */
  lemma {:induction false} MergeCsvName(t: Tables, csv: seq<(string, seq<string>)>, freq: string -> nat, i: nat)
    requires i < |csv|
    requires forall j :: 0 <= j < i ==> csv[j].0 != csv[i].0
    ensures MergeCsv(t, csv, freq).Success? ==> csv[i].0 in MergeCsv(t, csv, freq).value.namesToNumbers
    ensures MergeCsv(t, csv, freq).Success? && csv[i].0 !in t.namesToNumbers ==>
              MergeCsv(t, csv, freq).value.namesToNumbers[csv[i].0] == LeastFrequent(csv[i].1, freq)
    decreases |csv|
  {
    if MergeCsv(t, csv, freq).Success? {
      var t1 := MergeEntry(t, csv[0].0, csv[0].1, freq).value;
      var rest := csv[1..];
      assert forall j :: 1 <= j < |csv| ==> rest[j - 1] == csv[j];
      if i > 0 {
        MergeCsvName(t1, rest, freq, i - 1);
      }
    }
  }

  /** No number is listed by two CSV entries. */
  predicate CsvNumbersDisjoint(csv: seq<(string, seq<string>)>) {
    forall i, j, n :: 0 <= i < j < |csv| && n in csv[i].1 ==> n !in csv[j].1
  }

  /** The merge settles the empty name: when a CSV entry has the empty name,
      its chosen number maps back to it, and no later entry can take that
      number away when the entries share no number. */
  lemma {:induction false} MergeCsvSettled(t: Tables, csv: seq<(string, seq<string>)>, freq: string -> nat)
    requires CsvNumbersDisjoint(csv) && EmptyNameSettled(t)
    requires "" in t.namesToNumbers ==> forall i :: 0 <= i < |csv| ==> t.namesToNumbers[""] !in csv[i].1
    ensures MergeCsv(t, csv, freq).Success? ==> EmptyNameSettled(MergeCsv(t, csv, freq).value)
    decreases |csv|
  {
    if |csv| > 0 && MergeCsv(t, csv, freq).Success? {
      var c, ns := csv[0].0, csv[0].1;
      var t1 := MergeEntry(t, c, ns, freq).value;
      var rest := csv[1..];
      assert forall i :: 1 <= i < |csv| ==> rest[i - 1] == csv[i];
      if "" in t.namesToNumbers {
        assert t1.namesToNumbers[""] == t.namesToNumbers[""];
      } else if c == "" {
        var q := LeastFrequent(ns, freq);
        assert t1.namesToNumbers[""] == q && q in ns;
        assert forall i :: 0 <= i < |rest| ==> q !in rest[i].1 by {
          forall i | 0 <= i < |rest| ensures q !in rest[i].1 {
            assert rest[i] == csv[i + 1];
          }
        }
      }
      MergeCsvSettled(t1, rest, freq);
    }
  }

  // ---------------------------------------------------------------------
  // Back-fill

  /** The back-fill of one contact: a falsy name is looked up by number;
      failing that, a falsy number is looked up by name. */
  function Fill(c: Contact, t: Tables): (r: Contact)
    ensures NonEmpty(c.name) && NonEmpty(c.phonenumber) ==> r == c
    ensures r.phonenumber == c.phonenumber || r.name == c.name
    ensures r.name != c.name ==>
              !NonEmpty(c.name) && c.phonenumber.Some? && c.phonenumber.value in t.numbersToNames
              && r.name == Some(t.numbersToNames[c.phonenumber.value])
    ensures r.phonenumber != c.phonenumber ==>
              !NonEmpty(c.phonenumber) && c.name.Some? && c.name.value in t.namesToNumbers
              && r.phonenumber == Some(t.namesToNumbers[c.name.value])
  {
    if !NonEmpty(c.name) && c.phonenumber.Some? && c.phonenumber.value in t.numbersToNames then
      Contact(Some(t.numbersToNames[c.phonenumber.value]), c.phonenumber)
    else if !NonEmpty(c.phonenumber) && c.name.Some? && c.name.value in t.namesToNumbers then
      Contact(c.name, Some(t.namesToNumbers[c.name.value]))
    else c
  }

  /** No contact the parsers produce has the empty string as its number
      without also having a name: numbers come from `\d+` matches, the owner
      is named, and the one-way party has no number. */
  predicate FillReady(c: Contact) {
    c.phonenumber == Some("") ==> NonEmpty(c.name)
  }

  /** When the empty string is a name of the tables (a CSV row with an empty
      Name cell), its number maps back to the empty name, if to anything. */
  predicate EmptyNameSettled(t: Tables) {
    "" in t.namesToNumbers && t.namesToNumbers[""] in t.numbersToNames ==>
      t.numbersToNames[t.namesToNumbers[""]] == ""
  }

  /** Filling twice is filling once. This needs nothing of the tables except
      for a contact with the empty name (the one-way party of the title
      "Me to"), which needs the empty name settled. */
  lemma FillIdempotent(c: Contact, t: Tables)
    requires FillReady(c)
    requires c.name == Some("") ==> EmptyNameSettled(t)
    ensures Fill(Fill(c, t), t) == Fill(c, t)
  {
  }

  /** The back-fill of one record: its contact and, for a text, its
      receiver. */
  function FillRecord(r: Record, t: Tables): (f: Record)
    ensures f.contact == Fill(r.contact, t) && f.date == r.date
    ensures r.Call? <==> f.Call?
    ensures r.Audio? <==> f.Audio?
    ensures r.Text? <==> f.Text?
    ensures f.Text? ==> f.receiver == Fill(r.receiver, t) && f.text == r.text
  {
    match r
    case Call(c, d, du, ct) => Call(Fill(c, t), d, du, ct)
    case Audio(c, d, du, at, tr, fn) => Audio(Fill(c, t), d, du, at, tr, fn)
    case Text(c, d, x, rc) => Text(Fill(c, t), d, x, Fill(rc, t))
  }

  function FillRecords(rs: seq<Record>, t: Tables): (r: seq<Record>)
    ensures |r| == |rs| && forall i :: 0 <= i < |rs| ==> r[i] == FillRecord(rs[i], t)
  {
    seq(|rs|, i requires 0 <= i < |rs| => FillRecord(rs[i], t))
  }

  /** The contact of a record, and a text's receiver, are ready. */
  predicate RecordFillReady(r: Record) {
    FillReady(r.contact) && (r.Text? ==> FillReady(r.receiver))
  }

  predicate RecordsFillReady(rs: seq<Record>) {
    forall i :: 0 <= i < |rs| ==> RecordFillReady(rs[i])
  }

  lemma FillRecordsIdempotent(rs: seq<Record>, t: Tables)
    requires RecordsFillReady(rs) && EmptyNameSettled(t)
    ensures FillRecords(FillRecords(rs, t), t) == FillRecords(rs, t)
  {
    forall i | 0 <= i < |rs| ensures FillRecord(FillRecord(rs[i], t), t) == FillRecord(rs[i], t) {
      FillIdempotent(rs[i].contact, t);
      if rs[i].Text? {
        FillIdempotent(rs[i].receiver, t);
      }
    }
  }

  // ---------------------------------------------------------------------
  // FixContactNumbers

  function RecordContacts(rs: seq<Record>): (cs: seq<Contact>)
    ensures |cs| == |rs| && forall i :: 0 <= i < |rs| ==> cs[i] == rs[i].contact
  {
    seq(|rs|, i requires 0 <= i < |rs| => rs[i].contact)
  }

  /** The tables after voting, owner registration and the CSV merge (when a
      contacts dictionary was given). */
  function ResolveTables(records: seq<Record>, csv: Option<seq<(string, seq<string>)>>, mynumbers: seq<string>)
    : (r: Result<Tables>)
    requires |mynumbers| > 0
    ensures r.Failure? <==> csv.Some? && HasEmptyEntry(csv.value)
    ensures r.Success? ==> MeName in r.value.namesToNumbers && r.value.namesToNumbers[MeName] == mynumbers[0]
  {
    var cs := RecordContacts(records);
    var t := RegisterMe(BuildTables(cs), mynumbers);
    if csv.None? then Success(t) else MergeCsv(t, csv.value, NumberFreq(cs))
  }

  /** The tables settle the empty name when the CSV entries share no
      number: the voted names and the owner's name are never empty, so the
      empty name can only come from the CSV. */
  lemma ResolveTablesSettled(records: seq<Record>, csv: Option<seq<(string, seq<string>)>>, mynumbers: seq<string>)
    requires |mynumbers| > 0
    requires csv.Some? ==> CsvNumbersDisjoint(csv.value)
    ensures ResolveTables(records, csv, mynumbers).Success? ==> EmptyNameSettled(ResolveTables(records, csv, mynumbers).value)
  {
    var cs := RecordContacts(records);
    var t := RegisterMe(BuildTables(cs), mynumbers);
    assert "" !in t.namesToNumbers;
    if csv.Some? {
      MergeCsvSettled(t, csv.value, NumberFreq(cs));
    }
  }

  /** `FixContactNumbers(records, csvcontacts, mynumbers)`: the back-filled
      records and the number-to-name table. */
  function FixContactNumbers(records: seq<Record>, csv: Option<seq<(string, seq<string>)>>, mynumbers: seq<string>)
    : (r: Result<(seq<Record>, map<string, string>)>)
    requires |mynumbers| > 0
    ensures r.Failure? <==> ResolveTables(records, csv, mynumbers).Failure?
    ensures r.Success? ==>
              var t := ResolveTables(records, csv, mynumbers).value;
              && |r.value.0| == |records|
              && r.value.1 == t.numbersToNames
              && forall i :: 0 <= i < |records| ==> r.value.0[i] == FillRecord(records[i], t)
    // a complete contact is never altered
    ensures r.Success? ==> forall i :: 0 <= i < |records| && Complete(records[i].contact) ==>
              r.value.0[i].contact == records[i].contact
  {
    var t :- ResolveTables(records, csv, mynumbers);
    Success((FillRecords(records, t), t.numbersToNames))
  }

  /** Running the back-fill again on its own output changes nothing, for
      records whose contacts the parsers produced and a contacts dictionary
      read from rows that passed the uniqueness check. */
  lemma FixContactNumbersStable(records: seq<Record>, csv: Option<seq<(string, seq<string>)>>, rows: seq<CsvRow>,
                                mynumbers: seq<string>)
    requires |mynumbers| > 0 && RecordsFillReady(records)
    requires csv.Some? ==> UniqueNumbers(rows) && CsvFrom(csv.value, rows)
    requires ResolveTables(records, csv, mynumbers).Success?
    ensures var t := ResolveTables(records, csv, mynumbers).value;
            var fixed := FixContactNumbers(records, csv, mynumbers).value.0;
            FillRecords(fixed, t) == fixed
  {
    if csv.Some? {
      CsvFromDisjoint(csv.value, rows);
    }
    ResolveTablesSettled(records, csv, mynumbers);
    FillRecordsIdempotent(records, ResolveTables(records, csv, mynumbers).value);
  }

  // ---------------------------------------------------------------------
  // ReadContactsFile

  /** One row of the contacts CSV. */
  datatype CsvRow = CsvRow(name: string, number: string, notes: string)

  predicate UniqueNumbers(rows: seq<CsvRow>) {
    forall i, j :: 0 <= i < j < |rows| ==> rows[i].number != rows[j].number
  }

  /** The numbers of the rows with a given name, in row order. */
  function NumbersOf(rows: seq<CsvRow>, name: string): (r: seq<string>)
    ensures |r| > 0 <==> exists i :: 0 <= i < |rows| && rows[i].name == name
  {
    if |rows| == 0 then []
    else
      var init := rows[..|rows| - 1];
      assert forall i :: 0 <= i < |init| ==> init[i] == rows[i];
      NumbersOf(init, name) + (if rows[|rows| - 1].name == name then [rows[|rows| - 1].number] else [])
  }

  /** A row with that name and number stands behind every listed number. */
  lemma {:induction false} NumbersOfMember(rows: seq<CsvRow>, name: string, n: string)
    requires n in NumbersOf(rows, name)
    ensures exists k :: 0 <= k < |rows| && rows[k].name == name && rows[k].number == n
  {
    var init := rows[..|rows| - 1];
    assert forall i :: 0 <= i < |init| ==> init[i] == rows[i];
    if n in NumbersOf(init, name) {
      NumbersOfMember(init, name, n);
      var k :| 0 <= k < |init| && init[k].name == name && init[k].number == n;
      assert rows[k] == init[k];
    } else {
      assert rows[|rows| - 1].name == name && rows[|rows| - 1].number == n;
    }
  }

  /** The entries of the contacts dictionary, in its iteration order: distinct
      names, each with its numbers from the rows. */
  predicate CsvFrom(csv: seq<(string, seq<string>)>, rows: seq<CsvRow>) {
    && (forall i :: 0 <= i < |csv| ==> csv[i].1 == NumbersOf(rows, csv[i].0))
    && (forall i, j :: 0 <= i < j < |csv| ==> csv[i].0 != csv[j].0)
  }

  /** With unique numbers, no number is listed under two names. */
  lemma CsvFromDisjoint(csv: seq<(string, seq<string>)>, rows: seq<CsvRow>)
    requires UniqueNumbers(rows) && CsvFrom(csv, rows)
    ensures CsvNumbersDisjoint(csv)
  {
    forall i, j, n | 0 <= i < j < |csv| && n in csv[i].1
      ensures n !in csv[j].1
    {
      NumbersOfMember(rows, csv[i].0, n);
      var a :| 0 <= a < |rows| && rows[a].name == csv[i].0 && rows[a].number == n;
      forall k | 0 <= k < |rows| && rows[k].number == n
        ensures rows[k].name != csv[j].0
      {
        assert k == a;
      }
      NumbersOfWithout(rows, csv[j].0, n);
    }
  }

  /** A number no row of that name carries is not listed under the name. */
  lemma {:induction false} NumbersOfWithout(rows: seq<CsvRow>, name: string, n: string)
    requires forall k :: 0 <= k < |rows| && rows[k].number == n ==> rows[k].name != name
    ensures n !in NumbersOf(rows, name)
  {
    if |rows| > 0 {
      var init := rows[..|rows| - 1];
      assert forall i :: 0 <= i < |init| ==> init[i] == rows[i];
      NumbersOfWithout(init, name, n);
    }
  }

  /** The uniqueness check of `ReadContactsFile`. */
  method CheckUnique(rows: seq<CsvRow>) returns (unique: bool)
    ensures unique <==> UniqueNumbers(rows)
  {
    var seen: set<string> := {};
    var k := 0;
    while k < |rows|
      invariant 0 <= k <= |rows|
      invariant seen == set i | 0 <= i < k :: rows[i].number
      invariant UniqueNumbers(rows[..k])
    {
      if rows[k].number in seen {
        return false;
      }
      assert forall i :: 0 <= i < k ==> rows[..k + 1][i] == rows[..k][i];
      seen := seen + {rows[k].number};
      k := k + 1;
    }
    assert rows[..k] == rows;
    return true;
  }

  lemma NumbersOfSnoc(rows: seq<CsvRow>, k: nat, name: string)
    requires k < |rows|
    ensures NumbersOf(rows[..k + 1], name) ==
              NumbersOf(rows[..k], name) + (if rows[k].name == name then [rows[k].number] else [])
  {
    assert rows[..k + 1][..k] == rows[..k];
  }

  /** The name dictionary after k rows: each name seen so far maps to its
      numbers so far. */
  ghost predicate NameDictAfter(rows: seq<CsvRow>, k: nat, cdict: map<string, seq<string>>)
    requires k <= |rows|
  {
    && (forall name :: name in cdict ==> cdict[name] == NumbersOf(rows[..k], name) && |cdict[name]| > 0)
    && (forall name :: name !in cdict ==> NumbersOf(rows[..k], name) == [])
  }

  lemma NameDictStep(rows: seq<CsvRow>, k: nat, cdict: map<string, seq<string>>)
    requires k < |rows| && NameDictAfter(rows, k, cdict)
    ensures var row := rows[k];
            var current := if row.name in cdict then cdict[row.name] else [];
            NameDictAfter(rows, k + 1, cdict[row.name := current + [row.number]])
  {
    forall name
      ensures NumbersOf(rows[..k + 1], name) == NumbersOf(rows[..k], name) + (if rows[k].name == name then [rows[k].number] else [])
    {
      NumbersOfSnoc(rows, k, name);
    }
  }

  /** The name dictionary of `ReadContactsFile`. */
  method BuildNameDict(rows: seq<CsvRow>) returns (cdict: map<string, seq<string>>)
    ensures forall name :: name in cdict <==> exists i :: 0 <= i < |rows| && rows[i].name == name
    ensures forall name :: name in cdict ==> cdict[name] == NumbersOf(rows, name)
  {
    cdict := map[];
    var k := 0;
    while k < |rows|
      invariant 0 <= k <= |rows|
      invariant NameDictAfter(rows, k, cdict)
    {
      var row := rows[k];
      var current := if row.name in cdict then cdict[row.name] else [];
      NameDictStep(rows, k, cdict);
      cdict := cdict[row.name := current + [row.number]];
      k := k + 1;
    }
    assert rows[..k] == rows;
    forall name ensures name in cdict <==> exists i :: 0 <= i < |rows| && rows[i].name == name {
      assert name in cdict <==> |NumbersOf(rows, name)| > 0;
    }
  }

  /** The notes dictionary of `ReadContactsFile`; with unique numbers no
      row's notes are overwritten. */
  method BuildNoteDict(rows: seq<CsvRow>) returns (notedict: map<string, string>)
    requires UniqueNumbers(rows)
    ensures forall i :: 0 <= i < |rows| ==> rows[i].number in notedict && notedict[rows[i].number] == rows[i].notes
    ensures forall n :: n in notedict ==> exists i :: 0 <= i < |rows| && rows[i].number == n
  {
    notedict := map[];
    var k := 0;
    while k < |rows|
      invariant 0 <= k <= |rows|
      invariant forall i :: 0 <= i < k ==> rows[i].number in notedict && notedict[rows[i].number] == rows[i].notes
      invariant forall n :: n in notedict ==> exists i :: 0 <= i < k && rows[i].number == n
    {
      notedict := notedict[rows[k].number := rows[k].notes];
      k := k + 1;
    }
  }

  /** `ReadContactsFile` after the CSV is read: exits when a number occurs
      twice, else maps each name to its numbers, in row order, and each
      number to its notes. */
  method ReadContacts(rows: seq<CsvRow>) returns (r: Result<(map<string, seq<string>>, map<string, string>)>)
    ensures r.Failure? <==> !UniqueNumbers(rows)
    ensures r.Failure? ==> r.error == SystemExit
    ensures r.Success? ==> forall name :: name in r.value.0 <==> exists i :: 0 <= i < |rows| && rows[i].name == name
    ensures r.Success? ==> forall name :: name in r.value.0 ==> r.value.0[name] == NumbersOf(rows, name) && |r.value.0[name]| > 0
    ensures r.Success? ==> forall i :: 0 <= i < |rows| ==> rows[i].number in r.value.1 && r.value.1[rows[i].number] == rows[i].notes
    ensures r.Success? ==> forall n :: n in r.value.1 ==> exists i :: 0 <= i < |rows| && rows[i].number == n
  {
    var unique := CheckUnique(rows);
    if !unique {
      return Failure(SystemExit);
    }
    var cdict := BuildNameDict(rows);
    var notedict := BuildNoteDict(rows);
    return Success((cdict, notedict));
  }
}

=== FILE: records.dfy ===
/** The record kinds of gvParserLib.py, their truthiness, and the call and
    audio locators and extractors.

    The HTML tree is not modelled: each node is a datatype holding what the
    code reads from it (the results of its `find`/`findtext` lookups), and
    ElementTree truthiness, which is false for a childless element, is the
    explicit flag `hasChildren`. Dates come from `parse_date` and are opaque
    integers here; the `abbr` element holding one may be missing or lack
    its `title`.
 */
module Records {
  import opened Wrappers
  import opened Strings
  import opened Contacts
  import opened ParseTools

  /** A timestamp produced by `parse_date`, in seconds. */
  type Date = int

  datatype Record =
    | Call(contact: Contact, date: Date, duration: Option<nat>, calltype: Option<string>)
    | Audio(contact: Contact, date: Date, duration: Option<nat>, audiotype: Option<string>,
            transcript: Option<string>, filename: string)
    | Text(contact: Contact, date: Date, text: string, receiver: Contact)

  /** `__nonzero__` of the concrete record classes. Each is written
      `super(C, self) and ...`; the first operand is the `super` proxy, which
      is always truthy, so the base classes' own rules (a date for
      GVoiceRecord, a contact for TelephonyRecord) never take part. A text
      record's rule ends in `bool(self.text) is not None`, which always holds. */
  predicate Meaningful(r: Record) {
    match r
    case Call(_, _, _, calltype) => NonEmpty(calltype)
    case Audio(_, _, _, audiotype, _, _) => NonEmpty(audiotype)
    case Text(_, _, _, _) => true
  }

  /** The `<audio>` child of a telephony container. */
  datatype AudioElem = AudioElem(hasChildren: bool, src: Option<string>)

  /** The `span.description` child of an audio record, the text of its
      `span.full-text` child and the number of its confidence spans (their
      float values are not modelled). */
  datatype DescriptionNode = DescriptionNode(hasChildren: bool, fullText: Option<string>, confidenceCount: nat)

  /** An `abbr` date element as `GVoiceRecord.from_node` reads it: not
      found (`find` gives None, whose `attrib` raises AttributeError), found
      without a `title` attribute (KeyError), or the date its title parses
      to. */
  datatype Stamp = NoAbbr | NoTitle | Stamped(date: Date)

  /** Reading the date of an `abbr` element. */
  function ReadDate(s: Stamp): (r: Result<Date>)
    ensures r.Failure? <==> !s.Stamped?
    ensures s.NoAbbr? ==> r == Failure(AttributeError)
    ensures s.NoTitle? ==> r == Failure(KeyError)
    ensures r.Success? ==> s == Stamped(r.value)
  {
    match s
    case NoAbbr => Failure(AttributeError)
    case NoTitle => Failure(KeyError)
    case Stamped(date) => Success(date)
  }

  /** The telephony container `div.haudio`. */
  datatype HaudioNode = HaudioNode(
    hasChildren: bool,
    contact: ContactLookup,
    published: Stamp,
    durationText: Option<string>,
    audio: Option<AudioElem>,
    description: Option<DescriptionNode>,
    tagHrefs: seq<string>)

  /** One `div.message` of a chat log: its sender, its `abbr.dt` date and the
      text of its `q` child. */
  datatype MessageNode = MessageNode(contact: ContactLookup, date: Stamp, quote: Option<string>)

  /** The chat log container `div.hChatLog.hfeed` and its message children. */
  datatype ChatLogNode = ChatLogNode(hasChildren: bool, messages: seq<MessageNode>)

  /** A parsed page: its `title` text and the first chat log and telephony
      container found anywhere below the root. */
  datatype Document = Document(title: Option<string>, chatLog: Option<ChatLogNode>, haudio: Option<HaudioNode>)

  /** `TelephonyRecord.get_node`: the container, kept only when truthy. */
  function TelephonyNode(doc: Document): (r: Option<HaudioNode>)
    ensures r.Some? <==> doc.haudio.Some? && doc.haudio.value.hasChildren
    ensures r.Some? ==> r == doc.haudio
  {
    if doc.haudio.Some? && doc.haudio.value.hasChildren then doc.haudio else None
  }

  /** `node.find('./audio')` used as a condition: present and truthy. */
  predicate HasAudio(n: HaudioNode) {
    n.audio.Some? && n.audio.value.hasChildren
  }

  /** `CallRecord.get_node`. */
  function CallNode(doc: Document): Option<HaudioNode> {
    match TelephonyNode(doc)
    case None => None
    case Some(n) => if HasAudio(n) then None else Some(n)
  }

  /** `AudioRecord.get_node`. */
  function AudioNode(doc: Document): Option<HaudioNode> {
    match TelephonyNode(doc)
    case None => None
    case Some(n) => if !HasAudio(n) then None else Some(n)
  }

  /** The two locators test the same condition with opposite signs: a found
      container is a call or an audio record, never both, and without a
      container there is neither. */
  lemma CallAudioComplementary(doc: Document)
    ensures TelephonyNode(doc).Some? ==> (CallNode(doc).Some? != AudioNode(doc).Some?)
    ensures CallNode(doc).Some? ==> CallNode(doc) == TelephonyNode(doc)
    ensures AudioNode(doc).Some? ==> AudioNode(doc) == TelephonyNode(doc)
    ensures TelephonyNode(doc).None? ==> CallNode(doc).None? && AudioNode(doc).None?
  {
  }

  /** The text a recording has when no transcript could be made. */
  const NoTranscript := "Unable to transcribe this message."

  /** `TelephonyRecord.from_node`: contact, the `published` date and, when
      the duration element is present, its parsed length. */
  function TelephonyFields(n: HaudioNode): (r: Result<(Contact, Date, Option<nat>)>)
    ensures r.Failure? <==> FromLookup(n.contact).Failure? || !n.published.Stamped? || DurationFails(n)
    ensures FromLookup(n.contact).Success? && !n.published.Stamped? ==> r == Failure(ReadDate(n.published).error)
    ensures r.Success? ==> r.value.0 == FromLookup(n.contact).value && n.published == Stamped(r.value.1)
    ensures r.Success? ==> DurationOf(n, r.value.2)
  {
    var contact :- FromLookup(n.contact);
    var date :- ReadDate(n.published);
    if n.durationText.None? then Success((contact, date, None))
    else
      var seconds :- ParseTime(n.durationText.value);
      Success((contact, date, Some(seconds)))
  }

  /** The duration element is present and `parse_time` raises on it. */
  predicate DurationFails(n: HaudioNode) {
    n.durationText.Some? && ParseTime(n.durationText.value).Failure?
  }

  /** d is the duration of n: absent without a duration element, otherwise
      the parsed length of its text. */
  predicate DurationOf(n: HaudioNode, d: Option<nat>) {
    if n.durationText.None? then d.None?
    else ParseTime(n.durationText.value).Success? && d == Some(ParseTime(n.durationText.value).value)
  }

  /** `CallRecord.from_node` on a located container. */
  function CallFromNode(n: HaudioNode): (r: Result<Record>)
    ensures r.Failure? <==> || FromLookup(n.contact).Failure? || !n.published.Stamped? || DurationFails(n)
                            || GetLabel(n.tagHrefs).Failure?
    ensures r.Success? ==> r.value.Call? && n.published == Stamped(r.value.date)
    ensures r.Success? ==> r.value.contact == FromLookup(n.contact).value && DurationOf(n, r.value.duration)
    ensures r.Success? ==> r.value.calltype == GetLabel(n.tagHrefs).value
    ensures r.Success? ==> (Meaningful(r.value) <==> GetLabel(n.tagHrefs) != Success(None))
  {
    var (contact, date, duration) :- TelephonyFields(n);
    var calltype :- GetLabel(n.tagHrefs);
    Success(Call(contact, date, duration, calltype))
  }

  /** The description is read when it is truthy and has a non-empty full
      text. */
  predicate HasTranscription(d: Option<DescriptionNode>) {
    d.Some? && d.value.hasChildren && NonEmpty(d.value.fullText)
  }

  /** The transcript an audio record keeps: the full text of a read
      description, unless it is the no-transcript notice. */
  function Transcript(d: Option<DescriptionNode>): (r: Option<string>)
    ensures r.Some? ==> |r.value| > 0 && r.value != NoTranscript
    ensures r.Some? <==> HasTranscription(d) && d.value.fullText.value != NoTranscript
    ensures r.Some? ==> d.value.fullText == r
  {
    if HasTranscription(d) && d.value.fullText.value != NoTranscript
    then d.value.fullText
    else None
  }

  /** `AudioRecord.from_node` on a located container. A read description
      averages its confidence values, which divides by zero when there are
      none. The file name is the `src` of the `<audio>` child (KeyError
      without it). */
  function AudioFromNode(n: HaudioNode): (r: Result<Record>)
    ensures r.Failure? <==> || FromLookup(n.contact).Failure? || !n.published.Stamped? || DurationFails(n)
                            || (HasTranscription(n.description) && n.description.value.confidenceCount == 0)
                            || n.audio.None? || n.audio.value.src.None? || GetLabel(n.tagHrefs).Failure?
    ensures r.Success? ==> r.value.Audio? && n.published == Stamped(r.value.date)
    ensures r.Success? ==> r.value.contact == FromLookup(n.contact).value && DurationOf(n, r.value.duration)
    ensures r.Success? ==> r.value.audiotype == GetLabel(n.tagHrefs).value
    ensures r.Success? ==> n.audio.Some? && n.audio.value.src == Some(r.value.filename)
    ensures r.Success? ==> r.value.transcript == Transcript(n.description)
    ensures r.Success? ==> (Meaningful(r.value) <==> GetLabel(n.tagHrefs) != Success(None))
    ensures HasTranscription(n.description) && n.description.value.confidenceCount == 0 ==> r.Failure?
    ensures n.audio.Some? && n.audio.value.src.None? ==> r.Failure?
  {
    var (contact, date, duration) :- TelephonyFields(n);
    var text := Transcript(n.description);
    if HasTranscription(n.description) && n.description.value.confidenceCount == 0 then Failure(ZeroDivisionError)
    else if n.audio.None? then Failure(AttributeError)
    else if n.audio.value.src.None? then Failure(KeyError)
    else
      var audiotype :- GetLabel(n.tagHrefs);
      Success(Audio(contact, date, duration, audiotype, text, n.audio.value.src.value))
  }

  /** `CallRecord.from_node(tree)`: None when the page holds no call. */
  function CallFromDocument(doc: Document): (r: Result<Option<Record>>)
    ensures r.Success? && r.value.Some? ==> r.value.value.Call? && CallNode(doc).Some?
    ensures CallNode(doc).None? ==> r == Success(None)
    ensures CallNode(doc).Some? ==> match CallFromNode(CallNode(doc).value)
                                   case Success(call) => r == Success(Some(call))
                                   case Failure(e) => r == Failure(e)
  {
    match CallNode(doc)
    case None => Success(None)
    case Some(n) =>
      var call :- CallFromNode(n);
      Success(Some(call))
  }

  /** `AudioRecord.from_node(tree)`: None when the page holds no recording. */
  function AudioFromDocument(doc: Document): (r: Result<Option<Record>>)
    ensures r.Success? && r.value.Some? ==> r.value.value.Audio? && AudioNode(doc).Some?
    ensures AudioNode(doc).None? ==> r == Success(None)
    ensures AudioNode(doc).Some? ==> match AudioFromNode(AudioNode(doc).value)
                                    case Success(audio) => r == Success(Some(audio))
                                    case Failure(e) => r == Failure(e)
  {
    match AudioNode(doc)
    case None => Success(None)
    case Some(n) =>
      var audio :- AudioFromNode(n);
      Success(Some(audio))
  }

  /** `TextRecord.from_node`: sender, the `abbr.dt` date and the unescaped
      quote; the receiver starts out empty. A missing quote makes `re.sub`
      raise. */
  function TextFromNode(t: CharTable, m: MessageNode): (r: Result<Record>)
    ensures r.Failure? <==> || FromLookup(m.contact).Failure? || !m.date.Stamped? || m.quote.None?
                            || Unescape(t, m.quote.value).Failure?
    ensures FromLookup(m.contact).Success? && !m.date.Stamped? ==> r == Failure(ReadDate(m.date).error)
    ensures r.Success? ==> r.value.Text? && r.value.receiver == EmptyContact
    ensures r.Success? ==> m.date == Stamped(r.value.date) && Normalised(r.value.contact)
    ensures r.Success? ==> r.value.contact == FromLookup(m.contact).value
    ensures r.Success? ==> Unescape(t, m.quote.value) == Success(r.value.text)
    ensures r.Success? && '&' !in m.quote.value ==> r.value.text == m.quote.value
  {
    var contact :- FromLookup(m.contact);
    FromTelNormalised(Locate(m.contact).value);
    var date :- ReadDate(m.date);
    if m.quote.None? then Failure(TypeError)
    else
      var text :- Unescape(t, m.quote.value);
      assert '&' !in m.quote.value ==> text == m.quote.value by {
        if '&' !in m.quote.value { UnescapeWithoutAmpersand(t, m.quote.value); }
      }
      Success(Text(contact, date, text, EmptyContact))
  }
}

=== FILE: strings.dfy ===
/** Character classes, Python-style string helpers and the lexicographic
    order on strings.

    The regular expressions of the parser are compiled without the UNICODE
    flag under Python 2, so `\d` is an ASCII digit and `\w` an ASCII letter,
    digit or underscore.
 */
module Strings {
  import opened Wrappers

  predicate IsDigit(c: char) {
    '0' <= c <= '9'
  }

  predicate IsWordChar(c: char) {
    IsDigit(c) || 'a' <= c <= 'z' || 'A' <= c <= 'Z' || c == '_'
  }

  predicate IsHexDigit(c: char) {
    IsDigit(c) || 'a' <= c <= 'f' || 'A' <= c <= 'F'
  }

  predicate AllDigits(s: string) {
    forall i :: 0 <= i < |s| ==> IsDigit(s[i])
  }

  predicate AllHexDigits(s: string) {
    forall i :: 0 <= i < |s| ==> IsHexDigit(s[i])
  }

  function DigitValue(c: char): (v: nat)
    requires IsHexDigit(c)
    ensures v < 16
    ensures IsDigit(c) <==> v < 10
  {
    if IsDigit(c) then (c - '0') as nat
    else if 'a' <= c <= 'f' then (c - 'a') as nat + 10
    else (c - 'A') as nat + 10
  }

  /** The value of a string of decimal digits, most significant first. */
  function DecimalValue(s: string): nat
    requires AllDigits(s)
  {
    if |s| == 0 then 0
    else DecimalValue(s[..|s| - 1]) * 10 + DigitValue(s[|s| - 1])
  }

  /** The value of a string of hexadecimal digits, most significant first. */
  function HexValue(s: string): nat
    requires AllHexDigits(s)
  {
    if |s| == 0 then 0
    else HexValue(s[..|s| - 1]) * 16 + DigitValue(s[|s| - 1])
  }

  /** Python's `int(s)` on a string of word characters: a non-empty run of
      decimal digits, else ValueError (None here). */
  function ParseDecimal(s: string): (r: Option<nat>)
    ensures r.Some? <==> |s| > 0 && AllDigits(s)
  {
    if |s| > 0 && AllDigits(s) then Some(DecimalValue(s)) else None
  }

  /** `0x` or `0X` followed by at least one hexadecimal digit. */
  predicate PrefixedHex(s: string) {
    |s| > 2 && s[0] == '0' && (s[1] == 'x' || s[1] == 'X') && AllHexDigits(s[2..])
  }

  /** Python's `int(s, 16)` on a string of word characters: an optional
      `0x`/`0X` prefix and a non-empty run of hexadecimal digits; anything
      else is a ValueError (None here). */
  function ParseHex(s: string): (r: Option<nat>)
    ensures r.Some? <==> (|s| > 0 && AllHexDigits(s)) || PrefixedHex(s)
    ensures |s| > 0 && AllHexDigits(s) ==> r == Some(HexValue(s))
    ensures PrefixedHex(s) ==> r == Some(HexValue(s[2..]))
  {
    if |s| > 0 && AllHexDigits(s) then Some(HexValue(s))
    else if PrefixedHex(s) then Some(HexValue(s[2..]))
    else None
  }

  predicate StartsWith(s: string, prefix: string) {
    |prefix| <= |s| && s[..|prefix|] == prefix
  }

  /** Python's `s[k:]`, which is empty rather than an error when k > |s|. */
  function Drop(s: string, k: nat): (r: string)
    ensures k <= |s| ==> s == s[..k] + r
    ensures k >= |s| ==> r == []
  {
    if k <= |s| then s[k..] else []
  }

  /** Python truthiness of a value that is either None or a string. */
  predicate NonEmpty(o: Option<string>) {
    o.Some? && |o.value| > 0
  }

  /** Length of the maximal run of digits that starts at position p. */
  function DigitRunLen(s: string, p: nat): (n: nat)
    requires p <= |s|
    ensures p + n <= |s|
    ensures forall k :: p <= k < p + n ==> IsDigit(s[k])
    ensures p + n == |s| || !IsDigit(s[p + n])
    decreases |s| - p
  {
    if p < |s| && IsDigit(s[p]) then 1 + DigitRunLen(s, p + 1) else 0
  }

  /** Length of the maximal run of word characters that starts at position p. */
  function WordRunLen(s: string, p: nat): (n: nat)
    requires p <= |s|
    ensures p + n <= |s|
    ensures forall k :: p <= k < p + n ==> IsWordChar(s[k])
    ensures p + n == |s| || !IsWordChar(s[p + n])
    decreases |s| - p
  {
    if p < |s| && IsWordChar(s[p]) then 1 + WordRunLen(s, p + 1) else 0
  }

  /** The position of the first occurrence of c in s. */
  function IndexOf(s: string, c: char): (r: Option<nat>)
    ensures r.None? <==> c !in s
    ensures r.Some? ==> r.value < |s| && s[r.value] == c && c !in s[..r.value]
  {
    if |s| == 0 then None
    else if s[0] == c then Some(0)
    else match IndexOf(s[1..], c)
      case None => None
      case Some(i) =>
        assert s[..i + 1] == [s[0]] + s[1..][..i];
        Some(i + 1)
  }

  /** Python's `<` on strings: code-point lexicographic order, with a proper
      prefix sorting first. */
  predicate StrLess(a: string, b: string) {
    if |a| == 0 then |b| > 0
    else if |b| == 0 then false
    else if a[0] != b[0] then a[0] < b[0]
    else StrLess(a[1..], b[1..])
  }

  lemma {:induction false} StrLessIrreflexive(a: string)
    ensures !StrLess(a, a)
  {
    if |a| > 0 {
      StrLessIrreflexive(a[1..]);
    }
  }

  lemma {:induction false} StrLessTransitive(a: string, b: string, c: string)
    requires StrLess(a, b) && StrLess(b, c)
    ensures StrLess(a, c)
  {
    if |a| > 0 && |b| > 0 && |c| > 0 && a[0] == b[0] && b[0] == c[0] {
      StrLessTransitive(a[1..], b[1..], c[1..]);
    }
  }

  lemma {:induction false} StrLessTotal(a: string, b: string)
    requires a != b
    ensures StrLess(a, b) || StrLess(b, a)
  {
    if |a| > 0 && |b| > 0 && a[0] == b[0] {
      assert a == [a[0]] + a[1..] && b == [b[0]] + b[1..];
      StrLessTotal(a[1..], b[1..]);
    }
  }
}

=== FILE: wrappers.dfy ===
/** Option and Result datatypes shared by the whole model.

    Python's `None` becomes `Option.None`; an exception that escapes a
    routine becomes `Result.Failure` carrying the exception class.
 */
module Wrappers {

  datatype Option<+T> = None | Some(value: T) {

    /** Returns the value in Some or a default value if None */
    function GetOr(default: T): T {
      match this
      case Some(v) => v
      case None => default
    }
  }

  /** The Python exception classes that can escape the modelled code. */
  datatype PyError =
    | AttributeError   // a method called on None (a lookup that found nothing)
    | IndexError       // a list subscript out of range
    | KeyError         // a missing attribute or dictionary key
    | TypeError        // None passed where a string is needed
    | OverflowError    // an integer too large for a C int
    | ValueError       // a code point above the build's `unichr` limit
    | ZeroDivisionError // an average over no values
    | SystemExit       // the script gives up with sys.exit

  datatype Result<+R> = Success(value: R) | Failure(error: PyError) {

    predicate IsFailure() {
      Failure?
    }

    function PropagateFailure<U>(): Result<U>
      requires Failure?
    {
      Failure(error)
    }

    function Extract(): R
      requires Success?
    {
      value
    }
  }
}
